=== FILE: README.md ===
# Tenant hosting backend — a verified model

The backend runs a multi-tenant hosting service for Flarum, MediaWiki and WordPress
sites. Every tenant is one `Site` record, keyed by its tag. This project models the
backend's core in Dafny and proves what that core promises:

- tag validation and the reserved-tag check;
- the record predicates and the database lookups;
- the capability tokens (access, reset, e-mail change, download);
- the HTTP handlers that change records: signup, login, password reset and change,
  e-mail change, the three deletion paths, install, and the Ko-fi donation webhook;
- the Ansible job parameters;
- the operator commands `link_domain`, `make_donor`, `cleanup_sites` and `list_sites`;
- the MediaWiki settings endpoints.

The table of records is the class `Models.TenantStore`. It has three fields:

- `rows`, the records in table order;
- `jobs`, the background jobs scheduled so far;
- `outbox`, the mail sent so far.

Its invariant is that tags are unique, because the tag is the primary key.

Each handler that changes records is a method on the store. Its postcondition states:

- the new `rows`, as `Replace(old(rows), updated record)`;
- which jobs and which mail it adds;
- that the table only *evolves*: tags and creation times are kept, a removal is never
  undone, and an installed site stays installed.

Lookups are filters over `rows`. The `One` datatype models `scalar_one_or_none`: no row,
one row, or an error when two rows match (a 500). Checks that are pure are functions, and
lemmas relate them to what the source promises.

Where the source's own messages disagree with its code, the model follows the code. The
two exceptions are the defects under "## Findings": there each as-written behaviour is
modelled and shown, and the rest of the model uses the corrected one.

- A tag of exactly 32 characters is accepted, although the message says "less than 32".
- The MediaWiki upload limit is 3·1024·1024 bytes, although the comment says 4 MB and the
  error says 2 MB.
- `_provision_and_finalize` sets `installed_at` again even on an installed site.
- A donation amount is added without any sign check.

## Model

| member | source | states |
|---|---|---|
| Tags.ValidateTag | utils/__init__.py:14-21 | a tag is accepted iff it has 3 to 32 characters, all letters, digits or `_`; an accepted tag is returned unchanged; the first failing check (too long, too short, bad characters) decides the message |
| Tags.ValidateTagAsWritten | utils/__init__.py:6-21 | the validator as written accepts iff the length bounds hold and `^[a-zA-Z0-9_]+$` matches under `re.match`, whose `$` also matches before one final newline |
| Tags.TrailingNewlineAccepted | utils/__init__.py:6-21 | the as-written validator accepts `"abc\n"`, which holds a character outside the class |
| Tags.AsWrittenAgreesWithoutNewline | utils/__init__.py:14-21 | the as-written and the corrected validator agree on every tag without a newline |
| Tags.ValidateTagIdempotent | utils/__init__.py:21 | validating an accepted tag again accepts the same tag |
| Tags.LengthBoundary | utils/__init__.py:15-20 | 32 characters are accepted, 33 are too long, `ab` is too short, `my-site` has bad characters |
| Tags.ReservedNamesAreValidTags | utils/__init__.py:14-25 | every reserved name is blacklisted and is itself accepted by the tag validator |
| Models.DonorPredicates | database/models.py:76-82 | perks imply donor; a NULL amount is neither; donor iff the amount (NULL as 0) is positive |
| Models.ParentDomainSuffix | database/models.py:71-74 | the parent domain (the last two labels joined by ".") is a suffix of the hostname |
| Models.ParentDomainIdempotent | database/models.py:71-74 | taking the parent domain of a parent domain changes nothing |
| Models.ParentDomainOfSubdomain | database/models.py:71-74 | `a.b` and every `prefix.a.b` (labels `a`, `b` without dots) have parent domain `a.b`, as for `test.com`, `sub.test.com`, `foo.sub.test.com` |
| Models.Where | database/models.py:95 | a row is selected iff it is in the table and every filter holds for it |
| Models.ActiveFiltersHold | database/models.py:92-93 | the filter list holds for a row iff the extra filters hold and, unless `match_removed`, the row is not removed |
| Models.GetAllActive | database/models.py:85-97 | yields exactly the rows meeting all filters and, unless `match_removed`, not removed |
| Models.LookupMeaning | database/models.py:110-134 | a one-condition lookup finds nothing iff no row qualifies, finds a qualifying row when one does, and fails (500) iff two rows qualify, in both directions |
| Models.LookupMultiple | database/models.py:110-134 | `scalar_one_or_none` raises (a 500) exactly when two positions of the table qualify |
| Models.SoleMatch | database/models.py:110-134 | when one row alone qualifies, the lookup returns that row |
| Models.TagLookupUnique | database/models.py:22-27 | with unique tags, a query with a tag condition never sees two rows |
| Models.ActiveByTagMeaning | utils/auth.py:27-31 | the active-by-tag query returns a non-removed row with the tag, finds nothing iff there is none, and never fails on unique tags |
| Models.Get | api/v1/sites.py:58 | `db.get` by primary key returns a row with the tag, or none iff no row has it |
| Models.TagOrHostnameAfterUpdate | database/models.py:110-121 | after committing a change that keeps tag, hostname and removal, the tag-or-hostname lookup finds the updated row |
| Models.ReplaceEvolves | database/models.py:22-27 | committing an allowed update of a row keeps the tags unique and the table evolving |
| Models.TenantStore.Insert | database/models.py:22-27 | inserting fails iff a row (removed or not) has the tag; otherwise the row is appended and nothing else changes |
| Jwt.Decode | utils/auth.py:47-53 | decoding checks the signing key first, then reports a present `exp` at or before now as expired |
| Auth.PasswordFingerprint | utils/auth.py:165-166 | the fingerprint is the first 16 characters of the SHA-256 digest of the hash |
| Auth.DecodeAccessToken | utils/auth.py:47-59 | every failure is a 401; success iff the token verifies, is unexpired and has `sub`, and returns `sub`; "Token has expired" iff the token is expired |
| Auth.AccessRoundTrip | utils/auth.py:38-59 | an access token decodes to its tag for 24 hours and is expired afterwards |
| Auth.AccessRejectsForeignTokens | utils/auth.py:50-53 | a malformed token or one signed with another key is 401 "Invalid token" |
| Auth.AccessIgnoresPurpose | utils/auth.py:47-59 | reset and download tokens are accepted as access tokens, since no purpose is checked |
| Auth.DecodeLink | utils/auth.py:76-158 | a link decodes only if verified, unexpired, of its own purpose and with its claims; every failure is a 400 with the kind's expired or invalid message |
| Auth.MessagesDistinct | utils/auth.py:76-158 | each link kind's expired and invalid messages differ from each other and from the access messages |
| Auth.PurposeSeparation | utils/auth.py:86-92 | a token whose purpose is not the link's kind is rejected |
| Auth.DecodeResetToken | utils/auth.py:76-94 | success returns the token's `sub` and `pfp` of a verified `reset` token; failures are 400 with the reset messages |
| Auth.ResetRoundTrip | utils/auth.py:62-94 | a reset token decodes to its tag and the fingerprint of the hash for 48 hours, then is expired |
| Auth.DecodeEmailChangeToken | utils/auth.py:111-129 | success returns `sub` and `new_email` of a verified `email_change` token; failures are 400 with the confirmation messages |
| Auth.EmailChangeRoundTrip | utils/auth.py:97-129 | an e-mail change token decodes to its tag and address for 48 hours, then is expired |
| Auth.DecodeDownloadToken | utils/auth.py:141-158 | success returns `sub` of a verified `download` token; failures are 400 with the download messages |
| Auth.DownloadRoundTrip | utils/auth.py:132-158 | a download token decodes to its tag for one minute, then is expired |
| Auth.LinksNotInterchangeable | utils/auth.py:62-158 | e-mail change, download and access tokens are invalid reset links; a reset token is an invalid confirmation and download link |
| Auth.GetCurrentSite | utils/auth.py:19-35 | success is a non-removed row with the token's tag; a decode failure is its 401; on unique tags 404 iff no active row has the tag |
| Auth.GetCurrentSiteV1 | api/v1/auth.py:18-43 | a decode failure is 401 with its own detail ("Token has expired" or "Invalid token"); success is a non-removed row with the token's tag; a missing or removed site is 401 "Site not found" |
| Auth.CurrentSiteVariants | api/v1/auth.py:35-41 | both variants succeed on the same tokens, and one answers 404 exactly when the other answers 401 "Site not found" |
| Auth.LoginTokenAuthenticates | utils/auth.py:19-44 | a fresh access token for an active site authenticates as that site |
| Signup.CheckSignup | api/v1/signup.py:23-66 | the request passes iff the tag validates, the `EmailStr` address is accepted, Turnstile passed, the type is available and the parent domain allowed; the accepted request carries the normalised address; a bad tag is 422, then a rejected address is 422, then a failed challenge, a bad site type and a bad parent domain are each 400 with their own message |
| Signup.BlacklistNotConsulted | api/v1/signup.py:23-66 | a request for any reserved name, with an accepted address, an available type and an allowed domain, passes every signup check |
| Signup.SignupHandler | api/v1/signup.py:42-96 | a failed check or an existing tag changes nothing; otherwise the new uninstalled record, with the normalised address, is appended, provisioning is scheduled with a reset token, and the response echoes tag and hostname |
| Signup.SignupParentDomain | api/v1/signup.py:73-79 | the new record's parent domain is the requested one, and it is neither installed nor a donor |
| Signup.ProvisioningLinkBound | api/v1/signup.py:89-90 | the provisioning token decodes to the new tag and the fingerprint of the throwaway hash |
| Signup.ProvisionAndFinalize | api/v1/signup.py:99-108 | `installed_at` is set only after the provisioning job returns, and only on an existing record |
| Account.LoginCheck | api/v1/account.py:57-60 | success is an active row matched by tag or hostname whose password verifies; the one matching row with the right password succeeds, with a wrong password or no row 401, two rows 500 |
| Account.Login | api/v1/account.py:51-68 | on failure nothing changes; on success only the last-login fields of the row change and a bearer access token for its tag is returned |
| Account.LoginTokenWorks | api/v1/account.py:57-68 | the token returned by a login authenticates as the logged-in record |
| Account.RequestPasswordReset | api/v1/account.py:101-136 | the generic message whether or not the site exists; a reset mail only for an existing site and no test token; the test token returns the token instead |
| Account.ResetPasswordCheck | api/v1/account.py:151-159 | a link that does not decode passes its 400 through; for a decoded link, no active row for its tag is 404, two rows 500, a row whose hash has another fingerprint 400 "already used", and the matching row succeeds |
| Account.ResetPassword | api/v1/account.py:144-166 | on failure nothing changes; on success only `admin_password` changes |
| Account.ResetLinkAccepted | api/v1/account.py:151-159 | a fresh reset link for a site is accepted |
| Account.ResetReplayRejected | api/v1/account.py:156-164 | once the hash has changed to one with another fingerprint, the same link is rejected with 400 |
| Account.ChangePasswordCheck | api/v1/account.py:180-181 | success needs authentication and the right old password; a wrong one is 403 |
| Account.ChangePassword | api/v1/account.py:174-188 | on failure nothing changes; on success only `admin_password` changes |
| Account.EmailChangeRequestCheck | api/v1/account.py:190-209 | an authentication failure passes through; then a rejected `EmailStr` address is 422; a wrong password is 403; the normalised address equal to the current one is 400; otherwise the authenticated record |
| Account.RequestEmailChange | api/v1/account.py:196-224 | the table never changes; on success one confirmation mail carrying the e-mail change token goes to the new, normalised address |
| Account.ConfirmEmailChangeCheck | api/v1/account.py:238-241 | a link that does not decode passes its 400 through; for a decoded link, no active row for its tag is 404, two rows 500, and the one row is updated to the token's address |
| Account.ConfirmEmailChange | api/v1/account.py:231-246 | on failure nothing changes; on success only `admin_email` changes, to the token's address |
| Account.ConfirmReplayIdempotent | api/v1/account.py:238-246 | replaying the confirmation link finds the updated row and commits nothing new |
| Account.ExportExcludes | api/v1/account.py:39-43 | each available site type excludes the four sensitive paths; other types exclude nothing |
| Account.ResolveExportSite | api/v1/account.py:256-270 | success is an active row named by a valid download link; no token is 401; a bad link is 400; 401 iff no active row has the link's tag |
| Account.RequestRemoval | api/v1/account.py:318-325 | the authenticated record is marked removed with client IP and reason, and a removal job with `skip_backup` and the same reason is scheduled |
| Account.DeleteSite | api/v1/account.py:309-329 | the above with the fixed account deletion reason; an unauthenticated request changes nothing |
| Account.DeletedSiteLocksOut | api/v1/account.py:318-320 | after the deletion the same token no longer authenticates |
| SitesApi.SortByAge | api/v1/sites.py:45 | the result is newest first and a permutation of the input |
| SitesApi.ListSites | api/v1/sites.py:37-47 | the non-removed rows, newest first, each exactly as often as in the table |
| SitesApi.ListSitesMembers | api/v1/sites.py:44-47 | a site is listed iff it is in the table and not removed |
| SitesApi.GetSite | api/v1/sites.py:50-61 | 404 iff no row has the id or it is removed; otherwise that row |
| SitesApi.GetSiteNotFound | api/v1/sites.py:58-61 | on unique tags, 404 iff every row with the id is removed |
| SitesApi.JobFailure | api/v1/sites.py:79-84 | an AnsibleError becomes 500 with the prefixed message; any other exception the generic 500 |
| SitesApi.InstallFailureDetail | api/v1/sites.py:79-84 | with the job wrapper as written, a failed install answers the generic 500; with the corrected wrapper it carries the playbook message |
| SitesApi.InstallSiteEndpoint | api/v1/sites.py:64-86 | 404 for a missing or removed site and 400 for an installed one, with nothing changed; a successful job sets `installed_at`; a failed one is 500 with the record untouched |
| SitesApi.RemovalReason | api/v1/sites.py:119 | "GDPR deletion" iff `skip_backup`, else "User requested" |
| SitesApi.DeleteSite | api/v1/sites.py:89-122 | 404 for a missing or removed site; the job runs first, and only when it succeeds are `removed_at` and the reason set; a failed job is 500 with the record untouched |
| SitesApi.DeletedSiteNotFound | api/v1/sites.py:102-104 | a site that was just removed is not found any more |
| SettingsApi.DeleteSite | api/v1/settings.py:38-58 | the authenticated record gets `removed_at`, the client IP and "Requested by you through settings"; the job is scheduled with `skip_backup` and the same reason |
| SettingsApi.ExportData | api/v1/settings.py:61-90 | authentication failures pass through; a failed backup is 500 "Export failed"; otherwise the excludes of the site type and the archive name `<tag>-export.tar.gz` |
| SettingsApi.ExportHidesSecrets | api/v1/settings.py:22-26 | an export of a known site type leaves out the config file and the logs, an unknown type nothing, and it is never of a removed site |
| Common.Merge | site_manager/runner.py:22-23 | the merged keys are the union; on a clash the extra value wins; the base is otherwise kept (also `update_config` of the tenant configuration) |
| Common.MergeIdempotent | site_manager/runner.py:22-23 | merging the same extra variables twice is merging them once |
| Runner.RunPlaybook | site_manager/runner.py:16-42 | the run completes iff the status is "successful", with the playbook, tags and merged variables; otherwise it raises with playbook, status and rc |
| Runner.ProvisionTags | site_manager/runner.py:58 | tags are `send-email` iff `send_email`, else none |
| Runner.ProvisionVars | site_manager/runner.py:59-66 | exactly the provisioning keys: tag, hostname, service type, admin e-mail, reset token and force |
| Runner.ProvisionOverridesVars | site_manager/runner.py:45-67 | a successful provisioning passes its own tag and reset token over any settings value, with the send-email tag iff asked |
| Runner.OrEmpty | site_manager/runner.py:88-90 | a missing value becomes "" |
| Runner.RemoveVars | site_manager/runner.py:83-91 | exactly the removal keys; `skip_backup` passed through; missing e-mail, hostname and reason become "" |
| Runner.RemoveTenant | site_manager/runner.py:70-92 | the removal runs `backup_main.yml` with no tags |
| Runner.BackupTags | site_manager/runner.py:105 | `periodic` iff periodic, else `backup` |
| Runner.BackupVars | site_manager/runner.py:106-111 | exactly the four backup keys, with `skip_backup` false |
| Runner.BackupNeverSkips | site_manager/runner.py:95-112 | a successful backup never skips, keeps 7 days by default and is tagged by its mode |
| Runner.RestoreVars | site_manager/runner.py:123-128 | `backup_date` is present iff it is truthy; otherwise only tag and service type |
| Runner.RestoreTenant | site_manager/runner.py:115-134 | a restore runs `restore_main.yml` with the backup mode as tags |
| AnsibleRunner.EnvGet | site_manager/ansible_runner.py:30 | `os.environ.get`: the value when set, else the default |
| AnsibleRunner.AllowedDomains | site_manager/ansible_runner.py:23-25 | the comma-split of `ALLOWED_DOMAINS` or of the default: never empty, comma-free parts that join back to the source string |
| AnsibleRunner.GetEnvVars | site_manager/ansible_runner.py:16-39 | the allowed domains, `main_domain` as their first element, `php_version` defaulting to 8.5, and the paths |
| AnsibleRunner.DefaultDomains | site_manager/ansible_runner.py:23-29 | without `ALLOWED_DOMAINS` the domains are the three built-in ones and the main domain is `no-cost.site` |
| AnsibleRunner.EmptyAllowedDomains | site_manager/ansible_runner.py:23-29 | an empty `ALLOWED_DOMAINS` gives one empty domain, which becomes the main domain |
| AnsibleRunner.Cmdline | site_manager/ansible_runner.py:61-63 | the base command line, followed by ` --tags X` iff the tags are non-empty |
| AnsibleRunner.Invoked | site_manager/ansible_runner.py:57-71 | the run gets the playbook, the command line and the environment variables overlaid by the extra variables |
| AnsibleRunner.RunPlaybookAsWritten | site_manager/ansible_runner.py:73-79 | as written, a failed run raises the TypeError of calling `AnsibleError` with keyword arguments |
| AnsibleRunner.RunPlaybook | site_manager/ansible_runner.py:42-81 | completes iff the status is "successful"; otherwise raises AnsibleError with the playbook message, status and rc |
| AnsibleRunner.AsWrittenNeverRaisesAnsibleError | site_manager/ansible_runner.py:166-167 | the two wrappers agree on success; on failure only the corrected one raises an AnsibleError |
| AnsibleRunner.ProvisionVars | site_manager/ansible_runner.py:106-113 | exactly the provisioning keys, carrying the tag, the database password and force |
| AnsibleRunner.ProvisionTenant | site_manager/ansible_runner.py:84-115 | provisioning runs `provision/main.yml` untagged and passes tag, database password and force |
| AnsibleRunner.RemoveVars | site_manager/ansible_runner.py:134-138 | exactly three keys, with `skip_backup` passed through |
| AnsibleRunner.RemoveTenant | site_manager/ansible_runner.py:118-140 | removal runs `removal/main.yml` untagged with `skip_backup` passed through |
| AnsibleRunner.BackupTenant | site_manager/ansible_runner.py:143-163 | backup runs `removal/main.yml` tagged `backup` with `skip_backup` false |
| AnsibleRunner.BackupIsTaggedRemoval | site_manager/ansible_runner.py:134-163 | a backup passes the same variables as a removal without skipping, and differs only in the command line |
| AnsibleRunner.BackupCmdline | site_manager/ansible_runner.py:61-63 | the backup command line ends in ` --tags backup` |
| SiteManager.CreateSite | site_manager/__init__.py:30-64 | the run completes iff successful; the database password is the given one, or the generated one only when none was given |
| SiteManager.InstallSite | site_manager/__init__.py:67-93 | `installed_at` is set only after provisioning returns; if it raises, the record is untouched |
| SiteManager.RemoveSite | site_manager/__init__.py:96-115 | tag and `skip_backup` reach the removal unchanged; failure is an AnsibleError of the removal playbook |
| SiteManager.BackupSite | site_manager/__init__.py:118-134 | the tag reaches the backup unchanged |
| LinkDomain.Normalize | cli/link_domain.py:24 | the result is no longer than the input and has no leading or trailing whitespace |
| LinkDomain.NormalizeIsLower | cli/link_domain.py:24 | the normalised hostname has no capital letters |
| LinkDomain.FirstParent | cli/link_domain.py:62-66 | the first domain that the name equals or lies under, with none before it matching; none iff no domain matches |
| LinkDomain.ExtractParentDomain | cli/link_domain.py:62-66 | the loop returns `FirstParent` of the allowed domains: the first one the name equals or lies under, none iff there is no such domain |
| LinkDomain.LinkDomain | cli/link_domain.py:16-59 | an unknown site exits 1; under the first matching allowed domain the site moves to `tag.domain`, and if that is already its hostname it exits 1 "already using"; with no matching domain the normalised name is linked as a custom domain; a collaborator error otherwise exits 1 with its message |
| ClientIp.GetClientIp | utils/ip.py:4-10 | a non-empty forwarded header gives an address; otherwise the peer's host, or none |
| ClientIp.ForwardedFirstHop | utils/ip.py:6-7 | the first comma-separated entry, stripped, wins over the peer |
| ClientIp.ForwardedSingle | utils/ip.py:6-7 | a single entry is returned stripped |
| ClientIp.EmptyHeaderIgnored | utils/ip.py:8-10 | an empty header falls back to the peer; with neither the result is none |
| Webhook.StripScheme | api/v1/webhook.py:58 | exactly one leading `https://` or else `http://` is removed |
| Webhook.KeepHostChars | api/v1/webhook.py:60 | only word characters, "." and "-" remain, each taken from the input |
| Webhook.KeepHostCharsIdentity | api/v1/webhook.py:60 | a string of host characters is kept whole |
| Webhook.KeepHostCharsIdempotent | api/v1/webhook.py:60 | cleaning twice is cleaning once |
| Webhook.JustHost | api/v1/webhook.py:57-60 | the extracted host holds only host characters and no "/" |
| Webhook.JustHostOfHost | api/v1/webhook.py:57-60 | a bare host is returned unchanged |
| Webhook.JustHostOfLink | api/v1/webhook.py:57-60 | `https://host/path` gives `host` |
| Webhook.JustHostOfPlainLink | api/v1/webhook.py:57-60 | `http://host/path` gives `host` |
| Webhook.FindDonor | api/v1/webhook.py:55-66 | the message's match first, the e-mail's otherwise; a lookup seeing two rows is 500; a found site is active |
| Webhook.MessageTakesPrecedence | api/v1/webhook.py:56-62 | a message naming an active site credits that site, whatever the e-mail says |
| Webhook.EmptyHostFallsBack | api/v1/webhook.py:61-66 | with no usable message, a donor found is one the e-mail selects by tag, e-mail or hostname |
| Webhook.KofiWebhook | api/v1/webhook.py:40-87 | bad payload 400 and wrong token 403 with nothing changed; no donor means a notice mail and "ok"; otherwise the donor is credited and nothing else changes |
| Donations.Credited | api/v1/webhook.py:82 | the new total is the old (NULL as 0) plus the amount, and nothing else in the record changes |
| Donations.CreditsAccumulate | cli/make_donor.py:25 | two credits add up; a first credit on NULL is the amount |
| Donations.CreditEffects | database/models.py:76-82 | a positive credit to a non-negative total makes a donor; perks iff the new total reaches 7.0; a non-negative credit keeps perks, and one that leaves the total below 7.0 takes them away |
| MakeDonor.MakeDonor | cli/make_donor.py:11-38 | an unknown site exits 1 and a lookup seeing two rows fails, both with nothing changed; otherwise the credited record is committed; if `update_config` then raises the command fails with no mail, else a thank-you mail with the perks of the new total goes out iff the amount is positive |
| MakeDonor.CreditsNamedSite | database/models.py:150-156 | the credited site is active and matches by tag, admin e-mail or hostname |
| Cleanup.ActiveMetrics | cli/cleanup_sites.py:26-37 | exactly the metrics above their maximum, in the order content, users, assets; non-empty iff too active |
| Cleanup.InactiveMetrics | cli/cleanup_sites.py:40-45 | exactly content below 10 and users at most 2, in that order; non-empty iff inactive |
| Cleanup.Classify | cli/cleanup_sites.py:25-48 | too active iff any maximum is exceeded; inactive iff not too active and below a minimum; each verdict lists its metrics |
| Cleanup.KeptBand | cli/cleanup_sites.py:25-48 | no verdict iff 10 ≤ content ≤ 10000, 2 < users ≤ 5000 and assets ≤ 500 |
| Cleanup.VerdictText | cli/cleanup_sites.py:38-46 | the reason starts with `too active (` or `inactive (` by verdict |
| Cleanup.FlagOf | cli/cleanup_sites.py:99-113 | a site is flagged iff installed, old enough, without perks, with stats and with a verdict |
| Cleanup.Flagged | cli/cleanup_sites.py:97-113 | every flag is of a listed site, at most one per site |
| Cleanup.FlaggedMeaning | cli/cleanup_sites.py:97-113 | a flag is in the list iff its site is listed, eligible, has stats and has that verdict |
| Cleanup.FlaggedUnique | cli/cleanup_sites.py:97-113 | flags of a table with unique tags have distinct tags |
| Cleanup.SelectFlagged | cli/cleanup_sites.py:97-113 | the selection loop computes the flagged list |
| Cleanup.RemoveFlagged | cli/cleanup_sites.py:151-168 | one removal job per flag, in order; each site whose job returns is marked removed with `auto-cleanup: ` and its reason; a failed job leaves its site and the loop goes on |
| Cleanup.SummaryRow | cli/cleanup_sites.py:130-142 | each summary row has one cell per header |
| Cleanup.CleanupSites | cli/cleanup_sites.py:71-172 | no stats exits 1 with nothing changed, and any stats succeed; nothing is flagged iff the active sites with a 60-day cutoff give no flags, and then nothing changes; otherwise the report is a dry run iff asked, which changes nothing; a real run schedules one removal job per flag, in order, with the automatic reason, and its table is the result of the removal loop |
| Table.Width | cli/cleanup_sites.py:175-179 | a column's width is the largest of its header and of every cell of that column |
| Table.ColumnWidths | cli/list_sites.py:166-170 | the width loop computes that width for every column |
| Table.HeadersOnly | cli/cleanup_sites.py:176 | without rows each width is the header's length |
| SiteListing.OptionFiltersHold | cli/list_sites.py:60-78 | the query filters hold iff every supplied option's condition holds |
| SiteListing.QueryMeaning | cli/list_sites.py:60-93 | the query selects a row iff it meets every supplied option, with `--removed` only removed rows, `--active` only active ones, and neither flag all rows |
| Common.LiteralContains | cli/list_sites.py:67-70 | for a needle with no `%` or `_`, the `contains` filter holds iff the needle is a substring |
| Common.LiteralPrefix | cli/list_sites.py:67-70 | a wildcard-free pattern followed by `%` matches exactly the strings that start with it |
| Common.PercentMatchesAll | cli/list_sites.py:67-70 | `%` alone matches every string |
| Common.UnderscoreMatchesAnyChar | cli/list_sites.py:67-70 | an `_` in the needle matches any character in its place, so the filter holds where no substring is found |
| SiteListing.PostFilter | cli/list_sites.py:96-106 | a row survives iff it has an IP in the upper-cased country (when given) and an attic backup (when asked) |
| SiteListing.SelectedMeaning | cli/list_sites.py:60-106 | a site is listed iff it is in the table, the options want it and it passes the post-query filters |
| SiteListing.NoOptionsListsAll | cli/list_sites.py:76-82 | with no options every row is listed, removed or not |
| SiteListing.Status | cli/list_sites.py:158-163 | "removed" iff removed; "not installed" iff not removed and not installed; "active" otherwise |
| SiteListing.CountersPartition | cli/list_sites.py:119-129 | active, removed and not-installed statuses partition the rows; the not-installed counter also counts removed uninstalled rows |
| SiteListing.DonorCell | cli/list_sites.py:138 | the DONOR cell is empty iff the site is not a donor (or the amount renders empty) |
| SiteListing.Headers | cli/list_sites.py:112-116 | the seven fixed headers; `HAS_BACKUP` is present iff backups are checked and then comes eighth; `LAST_BACKUP` is present iff host backups are asked and then comes last |
| SiteListing.RowOf | cli/list_sites.py:131-147 | one cell per header: tag, type, hostname, e-mail, and the status in the STATUS column |
| SiteListing.SummaryParts | cli/list_sites.py:151-154 | active and removed counts, the not-installed count only when non-zero, then the donors |
| SiteListing.Tabulate | cli/list_sites.py:118-147 | the loop builds one row per site, and its counters equal the counts of active, removed, uninstalled and donor sites |
| SiteListing.ListSitesCommand | cli/list_sites.py:13-155 | exits 1 with "No sites match the given filters." iff nothing is selected; otherwise the headers, the rows of the selected sites, their widths and the summary counts |
| MediaWiki.GetDefaultSkins | api/v1/service_settings/mediawiki.py:30-34 | every allowed skin once, strictly sorted |
| MediaWiki.MwSection | api/v1/service_settings/mediawiki.py:105-108 | the mediawiki section, or an empty one when missing; a section that is not an object fails with 500, as assigning a key into it would |
| MediaWiki.SetMwConf | api/v1/service_settings/mediawiki.py:105-109 | only the given key of the mediawiki section changes, to the value; every other key and section is kept |
| MediaWiki.SetMwConfIdempotent | api/v1/service_settings/mediawiki.py:105-109 | setting the same key to the same value twice is setting it once |
| MediaWiki.SetDefaultSkin | api/v1/service_settings/mediawiki.py:37-48 | a skin outside the allow-list is 422 with the sorted list; otherwise it is stored as `skin` and reads back |
| MediaWiki.GetSetting | api/v1/service_settings/mediawiki.py:51-64 | the key's value in the mediawiki section, or none when unset |
| MediaWiki.NoBrandingByDefault | api/v1/service_settings/mediawiki.py:51-64 | a fresh configuration has no logo and no favicon |
| MediaWiki.SettingReadBack | api/v1/service_settings/mediawiki.py:105-109 | a stored setting reads back, and other settings read as before |
| MediaWiki.ReadLimited | api/v1/service_settings/mediawiki.py:95 | the read never takes more than the limit plus one byte, and is over the limit iff the upload is |
| MediaWiki.UploadBranding | api/v1/service_settings/mediawiki.py:85-102 | an unknown type is 422 and an oversize file 413, both before any write; on success the file is written under `app/public` at `dest + ext` and that path is stored |
| MediaWiki.BrandingPaths | api/v1/service_settings/mediawiki.py:67-82 | a PNG logo is `/images/branding/logo.png` under `app/public` and reads back; an icon favicon is `/favicon.ico` |
| MediaWiki.SizeBoundary | api/v1/service_settings/mediawiki.py:95-97 | exactly the limit is accepted; one byte more is 413 with nothing changed |
| MediaWiki.RequireSiteType | api/v1/service_settings/__init__.py:9-20 | the site passes iff it is of the expected type; otherwise 400 |

## Left out

- Persistence machinery is left out: sessions, streaming, migrations and transactions. A commit is one atomic replacement of a row in `rows`.
- Cryptography is left out. A JWT is its claims with the key it was signed with, and verification is key equality. `bcrypt.checkpw` is a parameter `checkPw`. The salted `bcrypt.hashpw` result is a parameter. The SHA-256 hex digest is a parameter `sha`.
- Ansible runs are left out: each one is a status and return-code parameter. The runner's stdout, stderr and stats are not modelled.
- Background tasks and their race with the request are left out, because they are concurrency. A scheduled task is a `Job` appended to `jobs`.
- The mail transport is left out. A sent mail is a `Mail` appended to `outbox`, and its text is not modelled.
- The Turnstile check is an HTTP call, so its verdict is a parameter.
- Clocks are parameters: time is an integer `now` in seconds.
- Date and number formatting (`strftime`, `:.1f`, `:.2f`, `str(float)`) is a rendering parameter, because Dafny has no floating-point printing.
- Floating-point arithmetic is left out: `donated_amount` and `assets_mb` are reals, with no rounding.
- `float(payload.amount)` raising `ValueError` is an absent amount, and the webhook then answers 500.
- The payload's JSON parsing is a present or absent payload.
- GeoIP lookups (`get_country_code`) and backup-file probes are parameters of `list_sites`, because they are file-system and database I/O.
- Stats collection and `_get_latest_stats` are left out, because they are database I/O. The latest stats are a map parameter of `cleanup_sites`.
- The configuration file behind `load_config` and `update_config` is not modelled as a file: it is a sudo subprocess. The MediaWiki endpoints take the configuration as a value and return the new one.
- The configuration outcome of `make_donor` is its `configOk` parameter: whether the awaited `update_config` returned. The webhook calls `update_config` without `await`, so the coroutine never runs and the webhook model does not touch the configuration.
- `load_config` and `update_config` themselves are not modelled. `load_config` passes the whole line `sudo cat <path>` as the program name to `create_subprocess_exec`; whether such a program can start depends on the host, which is outside this model. The MediaWiki endpoints take the loaded configuration as a value, and the failure of loading or writing it is not modelled.
- `write_tenant_file` is left out because it is not part of this model. The upload returns the file it would write.
- `site_manager.custom_domains` is not part of this model: `link_custom_domain`, `unlink_custom_domain`, `write_nginx_maps` and the CNAME check. `LinkDomain.LinkDomain` returns the action it would take, and a collaborator's error is a parameter.
- `provision_site` is not part of this model. Its outcome is the `provisionOk` parameter of `Signup.ProvisionAndFinalize`.
- Signup.CheckSignup: `EmailStr` validation and normalisation (email-validator) is a parameter, the address as normalised or none when rejected. The 422 body, a list of every failing field, is abbreviated to the first failing field's message.
- Account.EmailChangeRequestCheck: `EmailStr` validation is a parameter, as in `Signup.CheckSignup`. The 422 is placed after `get_current_site`, because FastAPI resolves dependencies before it reports body errors.
- Signup.SignupHandler: api/v1/signup.py:12,16,18 import `create_reset_token` from `api.v1.auth`, `provision_site` from `site_manager` and `verify_turnstile` from `utils`, and none of those modules defines that name. They are taken to mean `create_reset_token` of utils/auth.py (modelled as `Auth.CreateResetToken`), the provisioning job (the scheduled `ProvisionJob`) and utils/turnstile.py (its verdict is the `turnstileOk` parameter). As written, importing the module fails.
- SettingsApi.DeleteSite: api/v1/settings.py:17 imports `get_client_ip` and `get_current_site` from `utils`, whose `__init__.py` defines neither. They are taken to mean utils/ip.py and utils/auth.py, the modules of that package that api/v1/account.py:21-33 imports them from, so a missing site is 404 (`Auth.GetCurrentSite`) and not the 401 of api/v1/auth.py (`Auth.GetCurrentSiteV1`).
- SettingsApi.ExportData: the same import, taken the same way: authentication is `Auth.GetCurrentSite` of utils/auth.py.
- Webhook.KofiWebhook: api/v1/webhook.py:14 imports `send_mail` from `utils`, whose `__init__.py` does not define it. It is taken to mean utils/mail.py, modelled as a message appended to the outbox.
- The archive and temporary-directory handling of the two export endpoints is file-system I/O. The backup's success is a parameter.
- The export, account-deletion and cleanup paths call `backup_site` and `remove_site` with keyword arguments that the functions in `site_manager/__init__.py` do not take. Each call is therefore modelled by its outcome, a parameter, and not by those functions.
- Passing `send_email` to the cleanup removal job is not modelled. The recorded job carries the tag, `skip_backup` and the reason.
- Request parsing by FastAPI and argparse, and response serialisation, are left out. Options and request bodies are records, and a reply is its status and detail.
- `get_settings` of the MediaWiki router is covered by `MediaWiki.MwSection`. It is not a separate member.
- The MediaWiki configuration values other than strings and objects are `OtherValue`, because no endpoint looks inside them.
- `get_all_by_identifier` is not part of this model.
- Account.RequestPasswordReset: assumes the settings define `integration_test_token`, as a field of `Settings.Vars`. The literal `VARS` of settings.py has no such key, so as shown `VARS["integration_test_token"]` at api/v1/account.py:107 raises `KeyError` and every reset request answers 500. The integration tests read the token from the environment (tests/integration/conftest.py:10), so the deployment is expected to supply the key.
- SiteListing.QueryMeaning: `--email` and `--domain` are SQL `LIKE '%…%'` patterns, with `%` and `_` as wildcards (`Common.ContainsLike`). The backslash escape and the case-insensitive `LIKE` of some database engines are not modelled, because the engine is chosen by the deployment.
- LinkDomain.Normalize: `str.lower()` is modelled for ASCII letters only; other Unicode case mappings are not modelled. Stripping uses Python's full whitespace set.
- Common.Lower: lower-cases ASCII letters only, not the Unicode case mapping of `str.lower()`.
- Common.Upper: upper-cases ASCII letters only, not the Unicode case mapping of `str.upper()`.
- SiteListing.PostFilter: the upper-cased `--country` uses `Common.Upper`, so only ASCII letters are upper-cased.
- SitesApi.InstallSiteEndpoint: uses the corrected `AnsibleRunner.RunPlaybook`. As written, a failed job raises `TypeError` and the endpoint answers the generic 500 (shown by `SitesApi.InstallFailureDetail`).
- SitesApi.InstallSiteEndpoint: assumes the record is saved after a successful job. As written, the site loaded at api/v1/sites.py:72 is still attached to the endpoint's open session (database/session.py:21-27), so `session.add(site)` in a second session (site_manager/__init__.py:90-93) raises SQLAlchemy's `InvalidRequestError`. The client then gets the generic 500 after the playbook ran, and `installed_at` is never saved. Session identity is not modelled; api/v1/signup.py:99-105 shows the refetch that would avoid this.
- SitesApi.DeleteSite: uses the corrected `AnsibleRunner.RunPlaybook`. As written, a failed removal job answers the generic 500, not the message of the playbook.
- SiteManager.InstallSite: uses the corrected `AnsibleRunner.RunPlaybook`. As written, a failed provisioning raises `TypeError`, not `AnsibleError` (see `AnsibleRunner.AsWrittenNeverRaisesAnsibleError`).
- SiteManager.InstallSite: assumes the commit of `installed_at` succeeds. As written, it adds a site that another open session still holds, which raises `InvalidRequestError` (not `AnsibleError`) after provisioning and saves nothing. Sessions are not modelled.
- SiteManager.RemoveSite: uses the corrected `AnsibleRunner.RunPlaybook`. As written, a failed removal raises `TypeError`, not `AnsibleError`.
- Signup.CheckSignup: uses the corrected `Tags.ValidateTag`. As written, a tag with one trailing newline such as `"abc\n"` also passes (shown by `Tags.TrailingNewlineAccepted`).
- Signup.SignupHandler: uses the corrected `Tags.ValidateTag`. As written, it also inserts a record whose tag ends in one newline.
- Common.Split: its contract states only that there is at least one part. The meaning of splitting is stated by the lemmas `JoinSplit`, `SplitJoin`, `SplitPartsFree` and `SplitAppend`.
- Models.Where: states membership but not that the table order is kept.
- Webhook.KeepHostChars: states that only host characters remain, each from the input. It does not state that their order is kept. `\w` is taken as ASCII letters, digits and `_`; Python's `\w` also keeps Unicode letters and digits.
- SiteListing.RowOf: states the tag, type, hostname, e-mail and status cells. The date, donor and backup cells come from the rendering parameters.
- Cleanup.VerdictText: states only the prefix of the reason text. The listed metrics are stated on `Cleanup.Classify`.
- Cleanup.SummaryRow: states only the number of cells. The cells are the tag, type, hostname and the rendered stats.
- Cleanup.Flagged: its own contract states only that flags come from listed sites. Membership is stated by `Cleanup.FlaggedMeaning`.

## Findings

| source | as written | input that shows it | evidently intended | confidence | as-written member | corrected member |
|---|---|---|---|---|---|---|
| utils/__init__.py:6 | `re.match(r"^[a-zA-Z0-9_]+$", tag)`: without MULTILINE, `$` also matches just before one final newline | the tag `"abc\n"` is accepted and returned with its newline | only letters, digits and `_`, as the error message says (a full match) | not executed | Tags.TrailingNewlineAccepted | Tags.ValidateTag |
| site_manager/ansible_runner.py:74-79 | `AnsibleError(message, status=…, rc=…, stats=…)` on a class deriving from `Exception` with no constructor of its own raises `TypeError`, so the `except AnsibleError` of api/v1/sites.py never runs | any playbook status other than "successful" | an `AnsibleError` carrying the message, status and rc, which the install and delete endpoints turn into their 500 with the message | not executed | AnsibleRunner.AsWrittenNeverRaisesAnsibleError | AnsibleRunner.RunPlaybook |

=== FILE: account.dfy ===
/** Account endpoints (api/v1/account.py). Each handler's checks are a pure function of
    the table and the request; the handler method then changes the fields of the loaded
    record, commits, and records the task or mail it emits. */
module Account {
  import opened Common
  import Settings
  import Jwt
  import Auth
  import opened Models

  const InvalidCredentialsMessage: string := "Invalid credentials"
  const ResetRequestedMessage: string :=
    "If a site with this identifier exists, a password reset link has been sent to the site's admin email."
  const ResetUsedMessage: string := "Reset link is invalid or has already been used"
  const PasswordSetMessage: string := "Password has been set successfully."
  const IncorrectPasswordMessage: string := "Incorrect password"
  const PasswordChangedMessage: string := "Password has been changed successfully."
  const SameEmailMessage: string := "New e-mail is the same as the current one"
  const ConfirmationSentMessage: string := "A confirmation link has been sent to the new e-mail address."
  const EmailUpdatedMessage: string := "E-mail address has been updated."
  const NotAuthenticatedMessage: string := "Not authenticated"
  const DeletionReason: string :=
    "Requested by you through settings. This deletion is permanent and cannot be undone."
  const RemovalStartedMessage: string :=
    "Your site is being removed. You will receive an email when the process is complete. If you haven't received anything, please contact us."

  /** `verify_password`: `bcrypt.checkpw(plain, hashed)`, left abstract. */
  type CheckPw = (string, string) -> bool

  datatype TokenResponse = TokenResponse(accessToken: Jwt.Token, tokenType: string)

  // ----- login -----

  /** The checks of `login`: an active site whose tag or hostname is the user name, and a
      password that matches its hash. */
  function LoginCheck(rows: seq<Site>, username: string, password: string, checkPw: CheckPw): (r: Outcome<Site>)
    ensures r.Ok? ==>
      r.value in rows && Selects(TagOrHostname(username), false, r.value) && checkPw(password, r.value.adminPassword)
    ensures r.Fail? ==> r == Fail(401, InvalidCredentialsMessage) || r == Fail(500, InternalServerError)
    ensures (forall i :: 0 <= i < |rows| ==> !Selects(TagOrHostname(username), false, rows[i])) ==>
      r == Fail(401, InvalidCredentialsMessage)
    ensures var found := GetByTagOrHostname(rows, username, false);
      && (found.Row? && checkPw(password, found.site.adminPassword) ==> r == Ok(found.site))
      && (found.Row? && !checkPw(password, found.site.adminPassword) ==> r == Fail(401, InvalidCredentialsMessage))
      && (found.MultipleRows? ==> r == Fail(500, InternalServerError))
  {
    LookupMeaning(rows, TagOrHostname(username), false);
    match GetByTagOrHostname(rows, username, false)
    case NoRow => Fail(401, InvalidCredentialsMessage)
    case MultipleRows => Fail(500, InternalServerError)
    case Row(site) =>
      if checkPw(password, site.adminPassword) then Ok(site) else Fail(401, InvalidCredentialsMessage)
  }

  /** The record after a successful login. */
  function LoggedIn(site: Site, clientIp: Option<string>, now: int): Site {
    site.(lastLoginAt := Some(now), lastLoginIp := clientIp)
  }

  /** `login`: only the last-login fields of the matched row change, and the reply carries
      an access token for its tag. */
  method Login(store: TenantStore, username: string, password: string, checkPw: CheckPw,
               clientIp: Option<string>, secret: string, now: int) returns (r: Outcome<TokenResponse>)
    requires store.Valid()
    modifies store
    ensures store.Valid() && Evolves(old(store.rows), store.rows)
    ensures store.jobs == old(store.jobs) && store.outbox == old(store.outbox)
    ensures var check := LoginCheck(old(store.rows), username, password, checkPw);
      && (check.Fail? ==> r == Fail(check.status, check.detail) && store.rows == old(store.rows))
      && (check.Ok? ==>
            && r == Ok(TokenResponse(Auth.CreateAccessToken(check.value.tag, secret, now), "bearer"))
            && store.rows == Replace(old(store.rows), LoggedIn(check.value, clientIp, now)))
  {
    var check := LoginCheck(store.rows, username, password, checkPw);
    if check.Fail? {
      return Fail(check.status, check.detail);
    }
    var site := check.value;
    store.Commit(site, LoggedIn(site, clientIp, now));
    r := Ok(TokenResponse(Auth.CreateAccessToken(site.tag, secret, now), "bearer"));
  }

  /** The token a login returns authenticates, for its lifetime, as the updated record. */
  lemma LoginTokenWorks(rows: seq<Site>, username: string, password: string, checkPw: CheckPw,
                        clientIp: Option<string>, secret: string, issued: int, now: int)
    requires UniqueTags(rows) && LoginCheck(rows, username, password, checkPw).Ok?
    requires issued <= now < issued + Auth.AccessLifetime
    ensures var site := LoginCheck(rows, username, password, checkPw).value;
      var after := Replace(rows, LoggedIn(site, clientIp, issued));
      Auth.GetCurrentSite(after, Auth.CreateAccessToken(site.tag, secret, issued), secret, now)
        == Ok(LoggedIn(site, clientIp, issued))
  {
    var site := LoginCheck(rows, username, password, checkPw).value;
    var updated := LoggedIn(site, clientIp, issued);
    ReplaceEvolves(rows, site, updated);
    var after := Replace(rows, updated);
    var j :| 0 <= j < |rows| && rows[j] == site;
    assert after[j] == updated;
    Auth.LoginTokenAuthenticates(after, updated, secret, issued, now);
  }

  // ----- password reset -----

  datatype ResetRequestReply = GenericReply(message: string) | TestTokenReply(token: Jwt.Token)

  /** `request_password_reset`: the same generic reply whether or not the site exists; a
      reset link bound to the current hash is mailed to the admin address, or handed back
      directly when the integration-test header matches. The table never changes. */
  method RequestPasswordReset(store: TenantStore, vars: Settings.Vars, identifier: string,
                              xTestToken: Option<string>, turnstileOk: bool, sha: Auth.Digest, now: int)
    returns (r: Outcome<ResetRequestReply>)
    modifies store
    ensures store.rows == old(store.rows) && store.jobs == old(store.jobs)
    ensures var isTest := xTestToken == Some(vars.integrationTestToken);
      var found := GetByTagOrHostname(old(store.rows), identifier, false);
      && (!isTest && !turnstileOk ==> r == Fail(400, TurnstileFailedMessage) && store.outbox == old(store.outbox))
      && ((isTest || turnstileOk) && found == NoRow ==>
            r == Ok(GenericReply(ResetRequestedMessage)) && store.outbox == old(store.outbox))
      && ((isTest || turnstileOk) && found == MultipleRows ==>
            r == Fail(500, InternalServerError) && store.outbox == old(store.outbox))
      && ((isTest || turnstileOk) && found.Row? ==>
            var token := Auth.CreateResetToken(found.site.tag, found.site.adminPassword, sha, vars.jwtSecret, now);
            && (isTest ==> r == Ok(TestTokenReply(token)) && store.outbox == old(store.outbox))
            && (!isTest ==>
                  && r == Ok(GenericReply(ResetRequestedMessage))
                  && store.outbox == old(store.outbox) + [ResetLinkMail(found.site.adminEmail, found.site.tag, token)]))
  {
    var isTest := xTestToken == Some(vars.integrationTestToken);
    if !isTest && !turnstileOk {
      return Fail(400, TurnstileFailedMessage);
    }
    var found := GetByTagOrHostname(store.rows, identifier, false);
    if found == NoRow {
      return Ok(GenericReply(ResetRequestedMessage));
    }
    if found == MultipleRows {
      return Fail(500, InternalServerError);
    }
    var site := found.site;
    var token := Auth.CreateResetToken(site.tag, site.adminPassword, sha, vars.jwtSecret, now);
    if isTest {
      return Ok(TestTokenReply(token));
    }
    store.Send(ResetLinkMail(site.adminEmail, site.tag, token));
    r := Ok(GenericReply(ResetRequestedMessage));
  }

  /** The checks of `reset_password`: a valid reset link, an active site for its tag, and
      a fingerprint equal to that of the site's current password hash. */
  function ResetPasswordCheck(rows: seq<Site>, token: Jwt.Token, secret: string, sha: Auth.Digest, now: int)
    : (r: Outcome<Site>)
    ensures r.Ok? ==>
      && Auth.DecodeResetToken(token, secret, now).Ok?
      && var claim := Auth.DecodeResetToken(token, secret, now).value;
         && r.value in rows && Selects(TagOrHostname(claim.tag), false, r.value)
         && claim.fingerprint == Auth.PasswordFingerprint(sha, r.value.adminPassword)
    ensures Auth.DecodeResetToken(token, secret, now).Fail? ==> r == Fail(400, Auth.DecodeResetToken(token, secret, now).detail)
    ensures r.Fail? ==> r.status == 400 || r.status == 404 || r.status == 500
    ensures Auth.DecodeResetToken(token, secret, now).Ok? ==>
      var claim := Auth.DecodeResetToken(token, secret, now).value;
      var found := GetByTagOrHostname(rows, claim.tag, false);
      && (found.NoRow? ==> r == Fail(404, Auth.SiteNotFoundMessage))
      && (found.MultipleRows? ==> r == Fail(500, InternalServerError))
      && (found.Row? && claim.fingerprint != Auth.PasswordFingerprint(sha, found.site.adminPassword) ==>
            r == Fail(400, ResetUsedMessage))
      && (found.Row? && claim.fingerprint == Auth.PasswordFingerprint(sha, found.site.adminPassword) ==>
            r == Ok(found.site))
  {
    match Auth.DecodeResetToken(token, secret, now)
    case Fail(status, detail) => Fail(status, detail)
    case Ok(claim) =>
      LookupMeaning(rows, TagOrHostname(claim.tag), false);
      match GetByTagOrHostname(rows, claim.tag, false)
      case NoRow => Fail(404, Auth.SiteNotFoundMessage)
      case MultipleRows => Fail(500, InternalServerError)
      case Row(site) =>
        if claim.fingerprint != Auth.PasswordFingerprint(sha, site.adminPassword) then Fail(400, ResetUsedMessage)
        else Ok(site)
  }

  /** `reset_password`: on success only the password hash changes. */
  method ResetPassword(store: TenantStore, token: Jwt.Token, newHash: string, secret: string, sha: Auth.Digest, now: int)
    returns (r: Outcome<string>)
    requires store.Valid()
    modifies store
    ensures store.Valid() && Evolves(old(store.rows), store.rows)
    ensures store.jobs == old(store.jobs) && store.outbox == old(store.outbox)
    ensures var check := ResetPasswordCheck(old(store.rows), token, secret, sha, now);
      && (check.Fail? ==> r == Fail(check.status, check.detail) && store.rows == old(store.rows))
      && (check.Ok? ==>
            r == Ok(PasswordSetMessage) && store.rows == Replace(old(store.rows), check.value.(adminPassword := newHash)))
  {
    var check := ResetPasswordCheck(store.rows, token, secret, sha, now);
    if check.Fail? {
      return Fail(check.status, check.detail);
    }
    var site := check.value;
    store.Commit(site, site.(adminPassword := newHash));
    r := Ok(PasswordSetMessage);
  }

  /** A reset link issued for the current hash of an active site is accepted while it
      lasts. */
  lemma ResetLinkAccepted(rows: seq<Site>, site: Site, sha: Auth.Digest, secret: string, issued: int, now: int)
    requires GetByTagOrHostname(rows, site.tag, false) == Row(site)
    requires issued <= now < issued + Auth.ResetLifetime
    ensures ResetPasswordCheck(rows, Auth.CreateResetToken(site.tag, site.adminPassword, sha, secret, issued), secret, sha, now)
         == Ok(site)
  {
    Auth.ResetRoundTrip(site.tag, site.adminPassword, sha, secret, issued, now);
  }

  /** Once the hash has changed, by a reset or by `change_password`, replaying the same
      link is refused: expired after 48 hours, "already used" before. */
  lemma ResetReplayRejected(rows: seq<Site>, token: Jwt.Token, secret: string, sha: Auth.Digest,
                            now: int, later: int, newHash: string)
    requires UniqueTags(rows) && ResetPasswordCheck(rows, token, secret, sha, now).Ok?
    requires Auth.PasswordFingerprint(sha, newHash)
          != Auth.PasswordFingerprint(sha, ResetPasswordCheck(rows, token, secret, sha, now).value.adminPassword)
    ensures var site := ResetPasswordCheck(rows, token, secret, sha, now).value;
      var after := Replace(rows, site.(adminPassword := newHash));
      && ResetPasswordCheck(after, token, secret, sha, later).Fail?
      && ResetPasswordCheck(after, token, secret, sha, later).status == 400
  {
    var site := ResetPasswordCheck(rows, token, secret, sha, now).value;
    var updated := site.(adminPassword := newHash);
    var after := Replace(rows, updated);
    var decoded := Auth.DecodeResetToken(token, secret, later);
    if decoded.Ok? {
      var claim := Auth.DecodeResetToken(token, secret, now).value;
      assert decoded.value == claim;
      TagOrHostnameAfterUpdate(rows, site, updated, claim.tag, false);
    }
  }

  // ----- password and e-mail change -----

  /** The checks of `change_password`: an authenticated site and its current password. */
  function ChangePasswordCheck(rows: seq<Site>, token: Jwt.Token, oldPassword: string, checkPw: CheckPw,
                               secret: string, now: int): (r: Outcome<Site>)
    ensures r.Ok? ==> Auth.GetCurrentSite(rows, token, secret, now) == r && checkPw(oldPassword, r.value.adminPassword)
    ensures Auth.GetCurrentSite(rows, token, secret, now).Ok? && !checkPw(oldPassword, Auth.GetCurrentSite(rows, token, secret, now).value.adminPassword)
      ==> r == Fail(403, IncorrectPasswordMessage)
    ensures Auth.GetCurrentSite(rows, token, secret, now).Fail? ==> r == Auth.GetCurrentSite(rows, token, secret, now)
  {
    var current := Auth.GetCurrentSite(rows, token, secret, now);
    if current.Fail? then current
    else if !checkPw(oldPassword, current.value.adminPassword) then Fail(403, IncorrectPasswordMessage)
    else current
  }

  /** `change_password`: a wrong old password leaves the hash as it was; otherwise only
      the hash changes. */
  method ChangePassword(store: TenantStore, token: Jwt.Token, oldPassword: string, newHash: string,
                        checkPw: CheckPw, secret: string, now: int) returns (r: Outcome<string>)
    requires store.Valid()
    modifies store
    ensures store.Valid() && Evolves(old(store.rows), store.rows)
    ensures store.jobs == old(store.jobs) && store.outbox == old(store.outbox)
    ensures var check := ChangePasswordCheck(old(store.rows), token, oldPassword, checkPw, secret, now);
      && (check.Fail? ==> r == Fail(check.status, check.detail) && store.rows == old(store.rows))
      && (check.Ok? ==>
            r == Ok(PasswordChangedMessage) && store.rows == Replace(old(store.rows), check.value.(adminPassword := newHash)))
  {
    var check := ChangePasswordCheck(store.rows, token, oldPassword, checkPw, secret, now);
    if check.Fail? {
      return Fail(check.status, check.detail);
    }
    var site := check.value;
    store.Commit(site, site.(adminPassword := newHash));
    r := Ok(PasswordChangedMessage);
  }

  /** The checks of `request_email_change`: the authenticated site (a dependency, so it
      is resolved before the body), the `EmailStr` body field (422), the password, then a
      different address. `newEmail` is the address as `EmailStr` normalised it, or none
      when it was rejected; the comparison is on the normalised address. */
  function EmailChangeRequestCheck(rows: seq<Site>, token: Jwt.Token, newEmail: Option<string>, password: string,
                                   checkPw: CheckPw, secret: string, now: int): (r: Outcome<Site>)
    ensures r.Ok? ==>
      Auth.GetCurrentSite(rows, token, secret, now) == r && newEmail.Some?
      && checkPw(password, r.value.adminPassword) && newEmail.value != r.value.adminEmail
    ensures Auth.GetCurrentSite(rows, token, secret, now).Fail? ==> r == Auth.GetCurrentSite(rows, token, secret, now)
    ensures Auth.GetCurrentSite(rows, token, secret, now).Ok? && newEmail.None? ==> r == Fail(422, InvalidEmailMessage)
    ensures Auth.GetCurrentSite(rows, token, secret, now).Ok? && newEmail.Some?
      && !checkPw(password, Auth.GetCurrentSite(rows, token, secret, now).value.adminPassword)
      ==> r == Fail(403, IncorrectPasswordMessage)
    ensures Auth.GetCurrentSite(rows, token, secret, now).Ok? && newEmail.Some?
      && checkPw(password, Auth.GetCurrentSite(rows, token, secret, now).value.adminPassword)
      && newEmail.value == Auth.GetCurrentSite(rows, token, secret, now).value.adminEmail
      ==> r == Fail(400, SameEmailMessage)
    ensures Auth.GetCurrentSite(rows, token, secret, now).Ok? && newEmail.Some?
      && checkPw(password, Auth.GetCurrentSite(rows, token, secret, now).value.adminPassword)
      && newEmail.value != Auth.GetCurrentSite(rows, token, secret, now).value.adminEmail
      ==> r == Auth.GetCurrentSite(rows, token, secret, now)
  {
    var current := Auth.GetCurrentSite(rows, token, secret, now);
    if current.Fail? then current
    else if newEmail.None? then Fail(422, InvalidEmailMessage)
    else if !checkPw(password, current.value.adminPassword) then Fail(403, IncorrectPasswordMessage)
    else if newEmail.value == current.value.adminEmail then Fail(400, SameEmailMessage)
    else current
  }

  /** `request_email_change`: the record is never modified; a confirmation link for the
      new address is mailed to that new address. */
  method RequestEmailChange(store: TenantStore, token: Jwt.Token, newEmail: Option<string>, password: string,
                            checkPw: CheckPw, secret: string, now: int) returns (r: Outcome<string>)
    modifies store
    ensures store.rows == old(store.rows) && store.jobs == old(store.jobs)
    ensures var check := EmailChangeRequestCheck(old(store.rows), token, newEmail, password, checkPw, secret, now);
      && (check.Fail? ==> r == Fail(check.status, check.detail) && store.outbox == old(store.outbox))
      && (check.Ok? ==>
            && r == Ok(ConfirmationSentMessage)
            && store.outbox == old(store.outbox)
               + [EmailChangeMail(newEmail.value, check.value.tag,
                                  Auth.CreateEmailChangeToken(check.value.tag, newEmail.value, secret, now))])
  {
    var check := EmailChangeRequestCheck(store.rows, token, newEmail, password, checkPw, secret, now);
    if check.Fail? {
      return Fail(check.status, check.detail);
    }
    var site := check.value;
    store.Send(EmailChangeMail(newEmail.value, site.tag, Auth.CreateEmailChangeToken(site.tag, newEmail.value, secret, now)));
    r := Ok(ConfirmationSentMessage);
  }

  datatype EmailUpdate = EmailUpdate(found: Site, newEmail: string) {
    function Updated(): Site {
      found.(adminEmail := newEmail)
    }
  }

  /** The checks of `confirm_email_change`: a valid confirmation link and an active site
      for its tag. */
  function ConfirmEmailChangeCheck(rows: seq<Site>, token: Jwt.Token, secret: string, now: int): (r: Outcome<EmailUpdate>)
    ensures r.Ok? ==>
      && Auth.DecodeEmailChangeToken(token, secret, now).Ok?
      && var claim := Auth.DecodeEmailChangeToken(token, secret, now).value;
         && r.value.found in rows && Selects(TagOrHostname(claim.tag), false, r.value.found)
         && r.value.newEmail == claim.newEmail
    ensures Auth.DecodeEmailChangeToken(token, secret, now).Fail? ==>
      r == Fail(400, Auth.DecodeEmailChangeToken(token, secret, now).detail)
    ensures r.Fail? ==> r.status == 400 || r.status == 404 || r.status == 500
    ensures Auth.DecodeEmailChangeToken(token, secret, now).Ok? ==>
      var claim := Auth.DecodeEmailChangeToken(token, secret, now).value;
      var found := GetByTagOrHostname(rows, claim.tag, false);
      && (found.NoRow? ==> r == Fail(404, Auth.SiteNotFoundMessage))
      && (found.MultipleRows? ==> r == Fail(500, InternalServerError))
      && (found.Row? ==> r == Ok(EmailUpdate(found.site, claim.newEmail)))
  {
    match Auth.DecodeEmailChangeToken(token, secret, now)
    case Fail(status, detail) => Fail(status, detail)
    case Ok(claim) =>
      LookupMeaning(rows, TagOrHostname(claim.tag), false);
      match GetByTagOrHostname(rows, claim.tag, false)
      case NoRow => Fail(404, Auth.SiteNotFoundMessage)
      case MultipleRows => Fail(500, InternalServerError)
      case Row(site) => Ok(EmailUpdate(site, claim.newEmail))
  }

  /** `confirm_email_change`: on success only the admin address changes, to the one in
      the link. */
  method ConfirmEmailChange(store: TenantStore, token: Jwt.Token, secret: string, now: int) returns (r: Outcome<string>)
    requires store.Valid()
    modifies store
    ensures store.Valid() && Evolves(old(store.rows), store.rows)
    ensures store.jobs == old(store.jobs) && store.outbox == old(store.outbox)
    ensures var check := ConfirmEmailChangeCheck(old(store.rows), token, secret, now);
      && (check.Fail? ==> r == Fail(check.status, check.detail) && store.rows == old(store.rows))
      && (check.Ok? ==> r == Ok(EmailUpdatedMessage) && store.rows == Replace(old(store.rows), check.value.Updated()))
  {
    var check := ConfirmEmailChangeCheck(store.rows, token, secret, now);
    if check.Fail? {
      return Fail(check.status, check.detail);
    }
    store.Commit(check.value.found, check.value.Updated());
    r := Ok(EmailUpdatedMessage);
  }

  /** Confirming the same link again, while it lasts, writes the same address and leaves
      the table as the first confirmation left it. */
  lemma ConfirmReplayIdempotent(rows: seq<Site>, token: Jwt.Token, secret: string, now: int, later: int)
    requires UniqueTags(rows) && ConfirmEmailChangeCheck(rows, token, secret, now).Ok?
    requires Auth.DecodeEmailChangeToken(token, secret, later).Ok?
    ensures var update := ConfirmEmailChangeCheck(rows, token, secret, now).value;
      var after := Replace(rows, update.Updated());
      && ConfirmEmailChangeCheck(after, token, secret, later) == Ok(EmailUpdate(update.Updated(), update.newEmail))
      && Replace(after, update.Updated()) == after
  {
    var update := ConfirmEmailChangeCheck(rows, token, secret, now).value;
    var claim := Auth.DecodeEmailChangeToken(token, secret, now).value;
    assert Auth.DecodeEmailChangeToken(token, secret, later).value == claim;
    TagOrHostnameAfterUpdate(rows, update.found, update.Updated(), claim.tag, false);
    var after := Replace(rows, update.Updated());
    assert update.Updated().(adminEmail := update.newEmail) == update.Updated();
    assert Replace(after, update.Updated()) == after;
  }

  // ----- export and deletion -----

  const SensitivePaths: seq<string> := ["/etc", "/etc/config.json", "/logs", "/logs/**"]

  /** `EXPORT_EXCLUDES`. */
  const ExportExcludesTable: map<string, seq<string>> :=
    map["flarum" := SensitivePaths, "mediawiki" := SensitivePaths, "wordpress" := SensitivePaths]

  /** `EXPORT_EXCLUDES.get(site_type, [])`: the configuration and log paths for every
      available site type, nothing for any other. */
  function ExportExcludes(siteType: string): (r: seq<string>)
    ensures siteType in Settings.AvailableSiteTypes ==> r == SensitivePaths
    ensures siteType !in Settings.AvailableSiteTypes ==> r == []
  {
    if siteType in ExportExcludesTable then ExportExcludesTable[siteType] else []
  }

  /** `if token:` on the query parameter: present and non-empty. */
  predicate TokenGiven(token: Option<Jwt.Token>) {
    token.Some? && token.value != Jwt.Malformed("")
  }

  /** `_resolve_export_site`: an export link for an active site, else 401. A link that
      fails to decode is the decoder's 400. */
  function ResolveExportSite(rows: seq<Site>, token: Option<Jwt.Token>, secret: string, now: int): (r: Outcome<Site>)
    ensures r.Ok? ==>
      TokenGiven(token) && r.value in rows && !r.value.IsRemoved()
      && Auth.DecodeDownloadToken(token.value, secret, now) == Ok(r.value.tag)
    ensures !TokenGiven(token) ==> r == Fail(401, NotAuthenticatedMessage)
    ensures TokenGiven(token) && Auth.DecodeDownloadToken(token.value, secret, now).Fail? ==> r.Fail? && r.status == 400
    ensures TokenGiven(token) && Auth.DecodeDownloadToken(token.value, secret, now).Ok? ==>
      (r == Fail(401, NotAuthenticatedMessage) <==>
         forall i :: 0 <= i < |rows| ==> rows[i].tag != Auth.DecodeDownloadToken(token.value, secret, now).value
                                          || rows[i].IsRemoved())
  {
    if !TokenGiven(token) then Fail(401, NotAuthenticatedMessage)
    else
      match Auth.DecodeDownloadToken(token.value, secret, now)
      case Fail(status, detail) => Fail(status, detail)
      case Ok(tag) =>
        ActiveByTagMeaning(rows, tag);
        match ActiveByTag(rows, tag)
        case Row(site) => Ok(site)
        case NoRow => Fail(401, NotAuthenticatedMessage)
        case MultipleRows => Fail(500, InternalServerError)
  }

  /** The record after a self-service deletion request. */
  function MarkedRemoved(site: Site, clientIp: Option<string>, reason: string, now: int): Site {
    site.(removedAt := Some(now), removedIp := clientIp, removalReason := Some(reason))
  }

  /** The shared body of the two self-service deletions: the authenticated record is
      marked removed with the client IP and the reason, and committed without waiting for
      the removal task, which is scheduled with `skip_backup` and the same reason. */
  method RequestRemoval(store: TenantStore, token: Jwt.Token, secret: string, now: int,
                        clientIp: Option<string>, reason: string) returns (r: Outcome<string>)
    requires store.Valid()
    modifies store
    ensures store.Valid() && Evolves(old(store.rows), store.rows)
    ensures store.outbox == old(store.outbox)
    ensures var current := Auth.GetCurrentSite(old(store.rows), token, secret, now);
      && (current.Fail? ==>
            r == Fail(current.status, current.detail) && store.rows == old(store.rows) && store.jobs == old(store.jobs))
      && (current.Ok? ==>
            && r == Ok(RemovalStartedMessage)
            && store.rows == Replace(old(store.rows), MarkedRemoved(current.value, clientIp, reason, now))
            && store.jobs == old(store.jobs) + [RemoveJob(current.value.tag, true, reason)])
  {
    var current := Auth.GetCurrentSite(store.rows, token, secret, now);
    if current.Fail? {
      return Fail(current.status, current.detail);
    }
    var site := current.value;
    var removed := MarkedRemoved(site, clientIp, reason, now);
    store.Schedule(RemoveJob(site.tag, true, reason));
    store.Commit(site, removed);
    r := Ok(RemovalStartedMessage);
  }

  /** `delete_site` of the account router. */
  method DeleteSite(store: TenantStore, token: Jwt.Token, secret: string, now: int, clientIp: Option<string>)
    returns (r: Outcome<string>)
    requires store.Valid()
    modifies store
    ensures store.Valid() && Evolves(old(store.rows), store.rows)
    ensures store.outbox == old(store.outbox)
    ensures var current := Auth.GetCurrentSite(old(store.rows), token, secret, now);
      && (current.Fail? ==>
            r == Fail(current.status, current.detail) && store.rows == old(store.rows) && store.jobs == old(store.jobs))
      && (current.Ok? ==>
            && r == Ok(RemovalStartedMessage)
            && store.rows == Replace(old(store.rows), MarkedRemoved(current.value, clientIp, DeletionReason, now))
            && store.jobs == old(store.jobs) + [RemoveJob(current.value.tag, true, DeletionReason)])
  {
    r := RequestRemoval(store, token, secret, now, clientIp, DeletionReason);
  }

  /** After a deletion the same access token no longer authenticates. */
  lemma DeletedSiteLocksOut(rows: seq<Site>, token: Jwt.Token, secret: string, now: int, later: int,
                            clientIp: Option<string>, reason: string)
    requires UniqueTags(rows) && Auth.GetCurrentSite(rows, token, secret, now).Ok?
    ensures var site := Auth.GetCurrentSite(rows, token, secret, now).value;
      Auth.GetCurrentSite(Replace(rows, MarkedRemoved(site, clientIp, reason, now)), token, secret, later).Fail?
  {
    var site := Auth.GetCurrentSite(rows, token, secret, now).value;
    var removed := MarkedRemoved(site, clientIp, reason, now);
    ReplaceEvolves(rows, site, removed);
  }
}

=== FILE: ansible_runner.dfy ===
/** The Ansible wrapper the site manager uses (site_manager/ansible_runner.py): extra
    variables read from the environment, overlaid by the job's own, a command line with
    optional tags, and a failure raised when the run is not successful. */
module AnsibleRunner {
  import opened Common
  import opened Playbook

  const DefaultAllowedDomains: string := "no-cost.site,no-cost.forum,no-cost.wiki"

  /** `os.environ.get(name, default)`: a variable that is set, even to "", wins. */
  function EnvGet(env: map<string, string>, name: string, default: string): (r: string)
    ensures name in env ==> r == env[name]
    ensures name !in env ==> r == default
  {
    if name in env then env[name] else default
  }

  function AllowedDomains(env: map<string, string>): (r: seq<string>)
    ensures |r| >= 1
    ensures Join(r, ',') == EnvGet(env, "ALLOWED_DOMAINS", DefaultAllowedDomains)
    ensures forall k :: 0 <= k < |r| ==> ',' !in r[k]
  {
    var raw := EnvGet(env, "ALLOWED_DOMAINS", DefaultAllowedDomains);
    JoinSplit(raw, ',');
    SplitPartsFree(raw, ',');
    Split(raw, ',')
  }

  /** The `paths` entry of `get_env_vars`. */
  function PathVars(env: map<string, string>): Val {
    Dict(map[
      "tenants" := Dict(map[
        "root" := Str(EnvGet(env, "TENANTS_ROOT", "/srv/host")),
        "skeleton_root" := Str(EnvGet(env, "SKELETON_ROOT", "/srv/skeleton"))]),
      "backup_root" := Str(EnvGet(env, "BACKUP_ROOT", "/backup")),
      "backup_attic_root" := Str(EnvGet(env, "BACKUP_ATTIC_ROOT", "/backup/attic"))])
  }

  /** `get_env_vars`. */
  function GetEnvVars(env: map<string, string>): (r: map<string, Val>)
    ensures "allowed_domains" in r && r["allowed_domains"] == StrList(AllowedDomains(env))
    ensures "main_domain" in r && r["main_domain"] == Str(AllowedDomains(env)[0])
    ensures "php_version" in r && r["php_version"] == Str(EnvGet(env, "PHP_VERSION", "8.5"))
    ensures "paths" in r && r["paths"] == PathVars(env)
  {
    var domains := AllowedDomains(env);
    map["allowed_domains" := StrList(domains),
        "main_domain" := Str(domains[0]),
        "php_version" := Str(EnvGet(env, "PHP_VERSION", "8.5")),
        "paths" := PathVars(env)]
  }

  /** `get_env_vars` yields these four keys and no others. */
  lemma GetEnvVarsKeys(env: map<string, string>)
    ensures GetEnvVars(env).Keys == {"allowed_domains", "main_domain", "php_version", "paths"}
  {
  }

  /** The built-in domain list, joined. */
  lemma DefaultDomainsJoin()
    ensures Join(["no-cost.site", "no-cost.forum", "no-cost.wiki"], ',') == DefaultAllowedDomains
  {
    var parts := ["no-cost.site", "no-cost.forum", "no-cost.wiki"];
    assert parts[1..][1..] == ["no-cost.wiki"];
    assert Join(parts[1..], ',') == "no-cost.forum" + [','] + "no-cost.wiki";
  }

  /** With `ALLOWED_DOMAINS` unset, the three no-cost domains, the first being the main one. */
  lemma DefaultDomains(env: map<string, string>)
    requires "ALLOWED_DOMAINS" !in env
    ensures AllowedDomains(env) == ["no-cost.site", "no-cost.forum", "no-cost.wiki"]
    ensures GetEnvVars(env)["main_domain"] == Str("no-cost.site")
  {
    var parts := ["no-cost.site", "no-cost.forum", "no-cost.wiki"];
    DefaultDomainsJoin();
    assert forall k :: 0 <= k < |parts| ==> ',' !in parts[k];
    SplitJoin(parts, ',');
  }

  /** An `ALLOWED_DOMAINS` set to the empty string yields one empty domain. */
  lemma EmptyAllowedDomains(env: map<string, string>)
    requires "ALLOWED_DOMAINS" in env && env["ALLOWED_DOMAINS"] == ""
    ensures AllowedDomains(env) == [""]
    ensures GetEnvVars(env)["main_domain"] == Str("")
  {
  }

  const BaseCmdline: string := "--connection=local -i localhost,"

  /** The command line: the local connection, and `--tags` only for truthy tags. */
  function Cmdline(tags: Option<string>): (r: string)
    ensures StartsWith(r, BaseCmdline)
    ensures Truthy(tags) <==> |r| > |BaseCmdline|
    ensures Truthy(tags) ==> r[|BaseCmdline|..] == " --tags " + tags.value
  {
    if Truthy(tags) then BaseCmdline + " --tags " + tags.value else BaseCmdline
  }

  /** What is handed to `ansible_runner.run`. */
  datatype Invocation = Invocation(playbook: string, cmdline: string, extravars: map<string, Val>)

  /** The message the failure is raised with. */
  function FailureMessage(playbook: string, status: string): string {
    "Playbook " + playbook + " failed with status: " + status
  }

  /** What Python raises when a class deriving from `Exception` without its own
      constructor is called with keyword arguments. */
  const KeywordTypeError: string := "AnsibleError() takes no keyword arguments"

  /** The run a job asks for when the playbook succeeds. */
  function Invoked(env: map<string, string>, playbook: string, extravars: map<string, Val>, tags: Option<string>): (r: Invocation)
    ensures r.playbook == playbook && r.cmdline == Cmdline(tags)
    ensures forall k :: k in extravars ==> k in r.extravars && r.extravars[k] == extravars[k]
    ensures forall k :: k in GetEnvVars(env) && k !in extravars ==> k in r.extravars && r.extravars[k] == GetEnvVars(env)[k]
  {
    Invocation(playbook, Cmdline(tags), Merge(GetEnvVars(env), extravars))
  }

  /** `run_playbook` as written: the failure branch constructs `AnsibleError` with keyword
      arguments its class does not accept, so what is raised is a `TypeError`. */
  function RunPlaybookAsWritten(env: map<string, string>, playbook: string, extravars: map<string, Val>,
                                tags: Option<string>, status: string, rc: int): (r: RunOutcome<Invocation>)
    ensures r.Completed? <==> status == Successful
    ensures r.Raised? ==> r.error == TypeError(KeywordTypeError)
  {
    if status != Successful then Raised(TypeError(KeywordTypeError))
    else Completed(Invoked(env, playbook, extravars, tags))
  }

  /** `run_playbook` with `AnsibleError` accepting the status and return code it is given:
      an unsuccessful run raises `AnsibleError` carrying them. */
  function RunPlaybook(env: map<string, string>, playbook: string, extravars: map<string, Val>,
                       tags: Option<string>, status: string, rc: int): (r: RunOutcome<Invocation>)
    ensures r.Completed? <==> status == Successful
    ensures r.Raised? ==> r.error == AnsibleError(FailureMessage(playbook, status), status, rc)
  {
    if status != Successful then Raised(AnsibleError(FailureMessage(playbook, status), status, rc))
    else Completed(Invoked(env, playbook, extravars, tags))
  }

  /** The two agree on every successful run; on every failed one, the as-written function
      raises something other than `AnsibleError`. */
  lemma AsWrittenNeverRaisesAnsibleError(env: map<string, string>, playbook: string, extravars: map<string, Val>,
                                         tags: Option<string>, status: string, rc: int)
    ensures status == Successful ==>
      RunPlaybookAsWritten(env, playbook, extravars, tags, status, rc) == RunPlaybook(env, playbook, extravars, tags, status, rc)
    ensures status != Successful ==>
      !RunPlaybookAsWritten(env, playbook, extravars, tags, status, rc).error.AnsibleError?
      && RunPlaybook(env, playbook, extravars, tags, status, rc).error.AnsibleError?
  {
  }

  const ProvisionPlaybook: string := "provision/main.yml"
  const RemovalPlaybook: string := "removal/main.yml"

  function ProvisionVars(tag: string, serviceType: string, adminEmail: string, adminPassword: string,
                         dbPassword: string, force: bool): (r: map<string, Val>)
    ensures r.Keys == {"tenant_tag", "service_type", "tenant_admin_email", "tenant_admin_password",
                       "tenant_db_password", "force"}
    ensures r["tenant_tag"] == Str(tag) && r["tenant_db_password"] == Str(dbPassword) && r["force"] == Bool(force)
  {
    map["tenant_tag" := Str(tag), "service_type" := Str(serviceType), "tenant_admin_email" := Str(adminEmail),
        "tenant_admin_password" := Str(adminPassword), "tenant_db_password" := Str(dbPassword), "force" := Bool(force)]
  }

  /** `provision_tenant`: the provisioning playbook, untagged. */
  function ProvisionTenant(env: map<string, string>, tag: string, serviceType: string, adminEmail: string,
                           adminPassword: string, dbPassword: string, force: bool, status: string, rc: int)
    : (r: RunOutcome<Invocation>)
    ensures r.Completed? ==> r.invocation.playbook == ProvisionPlaybook && r.invocation.cmdline == BaseCmdline
    ensures r.Completed? ==>
      r.invocation.extravars.Keys >= {"tenant_tag", "tenant_db_password", "force"}
      && r.invocation.extravars["tenant_tag"] == Str(tag) && r.invocation.extravars["tenant_db_password"] == Str(dbPassword)
      && r.invocation.extravars["force"] == Bool(force)
  {
    RunPlaybook(env, ProvisionPlaybook, ProvisionVars(tag, serviceType, adminEmail, adminPassword, dbPassword, force),
                None, status, rc)
  }

  function RemoveVars(tag: string, serviceType: string, skipBackup: bool): (r: map<string, Val>)
    ensures r.Keys == {"tenant_tag", "service_type", "skip_backup"}
    ensures r["skip_backup"] == Bool(skipBackup)
  {
    map["tenant_tag" := Str(tag), "service_type" := Str(serviceType), "skip_backup" := Bool(skipBackup)]
  }

  /** `remove_tenant`: the removal playbook, untagged, with the caller's `skip_backup`. */
  function RemoveTenant(env: map<string, string>, tag: string, serviceType: string, skipBackup: bool,
                        status: string, rc: int): (r: RunOutcome<Invocation>)
    ensures r.Completed? ==> r.invocation.playbook == RemovalPlaybook && r.invocation.cmdline == BaseCmdline
    ensures r.Completed? ==> "skip_backup" in r.invocation.extravars && r.invocation.extravars["skip_backup"] == Bool(skipBackup)
  {
    RunPlaybook(env, RemovalPlaybook, RemoveVars(tag, serviceType, skipBackup), None, status, rc)
  }

  /** `backup_tenant`: the removal playbook restricted to its `backup` tag, never skipping
      the backup. */
  function BackupTenant(env: map<string, string>, tag: string, serviceType: string, status: string, rc: int)
    : (r: RunOutcome<Invocation>)
    ensures r.Completed? ==>
      r.invocation.playbook == RemovalPlaybook && r.invocation.cmdline == Cmdline(Some("backup"))
    ensures r.Completed? ==> "skip_backup" in r.invocation.extravars && r.invocation.extravars["skip_backup"] == Bool(false)
  {
    RunPlaybook(env, RemovalPlaybook, RemoveVars(tag, serviceType, false), Some("backup"), status, rc)
  }

  /** A backup and a removal without backup differ only in the tag and the flag. */
  lemma BackupIsTaggedRemoval(env: map<string, string>, tag: string, serviceType: string, rc: int)
    ensures var b := BackupTenant(env, tag, serviceType, Successful, rc);
            var d := RemoveTenant(env, tag, serviceType, false, Successful, rc);
      b.Completed? && d.Completed? && b.invocation.extravars == d.invocation.extravars
      && b.invocation.cmdline != d.invocation.cmdline
  {
  }

  lemma BackupCmdline()
    ensures Cmdline(Some("backup"))[|BaseCmdline|..] == " --tags backup"
  {
  }
}

=== FILE: auth.dfy ===
/** Capability tokens (utils/auth.py, api/v1/auth.py): the claims each kind of token
    carries, the guarded decoders, and the lookup of the authenticated site. */
module Auth {
  import opened Common
  import Jwt
  import Settings
  import opened Models

  const Hour: int := 3600

  /** Lifetime of an access token, `jwt_expiry_hours`. */
  const AccessLifetime: int := Settings.JwtExpiryHours * Hour
  const ResetLifetime: int := 48 * Hour
  const EmailChangeLifetime: int := 48 * Hour
  const DownloadLifetime: int := 60

  const TokenExpiredMessage: string := "Token has expired"
  const InvalidTokenMessage: string := "Invalid token"
  const SiteNotFoundMessage: string := "Site not found"

  /** `hashlib.sha256(x.encode()).hexdigest()`: some deterministic 64-character digest. */
  type Digest = f: string -> string | forall s :: |f(s)| == 64
    witness (s: string) => seq(64, _ => '0')

  /** `password_fingerprint`: the first 16 hex digits of the digest of the stored hash. */
  function PasswordFingerprint(sha: Digest, passwordHash: string): (r: string)
    ensures |r| == 16
    ensures StartsWith(sha(passwordHash), r)
  {
    sha(passwordHash)[..16]
  }

  // ----- access tokens -----

  /** `create_access_token`: sub = tag, expiring `jwt_expiry_hours` after `now`. */
  function CreateAccessToken(tag: string, secret: string, now: int): Jwt.Token {
    Jwt.Encode(Jwt.Claims(Some(tag), None, None, None, Some(now + AccessLifetime)), secret)
  }

  /** `decode_access_token`, and the decoding step of both `get_current_site` variants.
      No purpose is checked. */
  function DecodeAccessToken(token: Jwt.Token, secret: string, now: int): (r: Outcome<string>)
    ensures r.Fail? ==> r.status == 401
    ensures r.Ok? <==> Jwt.Decode(token, secret, now).Payload? && Jwt.Decode(token, secret, now).claims.sub.Some?
    ensures r.Ok? ==> token.Signed? && token.key == secret && token.claims.sub == Some(r.value)
    ensures r == Fail(401, TokenExpiredMessage) <==> Jwt.Decode(token, secret, now) == Jwt.ExpiredSignature
  {
    match Jwt.Decode(token, secret, now)
    case ExpiredSignature => Fail(401, TokenExpiredMessage)
    case InvalidToken => Fail(401, InvalidTokenMessage)
    case Payload(claims) =>
      if claims.sub.None? then Fail(401, InvalidTokenMessage) else Ok(claims.sub.value)
  }

  /** An access token yields its tag for `jwt_expiry_hours`, and is expired from then on. */
  lemma AccessRoundTrip(tag: string, secret: string, issued: int, now: int)
    ensures now < issued + AccessLifetime ==> DecodeAccessToken(CreateAccessToken(tag, secret, issued), secret, now) == Ok(tag)
    ensures now >= issued + AccessLifetime ==>
      DecodeAccessToken(CreateAccessToken(tag, secret, issued), secret, now) == Fail(401, TokenExpiredMessage)
    ensures AccessLifetime == 24 * 3600
  {
  }

  /** A token signed with another key, or not a token, is "Invalid token". */
  lemma AccessRejectsForeignTokens(token: Jwt.Token, secret: string, now: int)
    requires token.Malformed? || token.key != secret
    ensures DecodeAccessToken(token, secret, now) == Fail(401, InvalidTokenMessage)
  {
  }

  /** Since no purpose is checked, any validly signed unexpired token with a subject is
      accepted as an access token, the 48-hour reset link included. */
  lemma AccessIgnoresPurpose(tag: string, passwordHash: string, sha: Digest, secret: string, issued: int, now: int)
    requires issued <= now < issued + ResetLifetime
    ensures DecodeAccessToken(CreateResetToken(tag, passwordHash, sha, secret, issued), secret, now) == Ok(tag)
    ensures DecodeAccessToken(CreateDownloadToken(tag, secret, now), secret, now) == Ok(tag)
  {
  }

  // ----- purpose-bound links -----

  datatype LinkKind = ResetLink | EmailChangeLink | DownloadLink

  function Purpose(kind: LinkKind): string {
    match kind
    case ResetLink => "reset"
    case EmailChangeLink => "email_change"
    case DownloadLink => "download"
  }

  function ExpiredMessage(kind: LinkKind): string {
    match kind
    case ResetLink => "Reset link has expired"
    case EmailChangeLink => "Confirmation link has expired"
    case DownloadLink => "Download link has expired"
  }

  function InvalidMessage(kind: LinkKind): string {
    match kind
    case ResetLink => "Invalid reset link"
    case EmailChangeLink => "Invalid confirmation link"
    case DownloadLink => "Invalid download link"
  }

  /** The claim each kind needs besides `sub`. */
  predicate HasRequiredClaims(kind: LinkKind, claims: Jwt.Claims) {
    claims.sub.Some?
    && match kind
       case ResetLink => claims.pfp.Some?
       case EmailChangeLink => claims.newEmail.Some?
       case DownloadLink => true
  }

  /** The shared shape of `decode_reset_token`, `decode_email_change_token` and
      `decode_download_token`: expiry and signature first, then the purpose, then the
      claims. Every failure is a 400 with the kind's own message. */
  function DecodeLink(kind: LinkKind, token: Jwt.Token, secret: string, now: int): (r: Outcome<Jwt.Claims>)
    ensures r.Fail? ==> r.status == 400
    ensures r.Ok? ==> token == Jwt.Encode(r.value, secret)
    ensures r.Ok? ==> r.value.purpose == Some(Purpose(kind)) && HasRequiredClaims(kind, r.value)
    ensures r.Ok? ==> r.value.exp.None? || now < r.value.exp.value
    ensures r == Fail(400, ExpiredMessage(kind)) <==> Jwt.Decode(token, secret, now) == Jwt.ExpiredSignature
    ensures r.Fail? ==> r.detail == ExpiredMessage(kind) || r.detail == InvalidMessage(kind)
  {
    match Jwt.Decode(token, secret, now)
    case ExpiredSignature => Fail(400, ExpiredMessage(kind))
    case InvalidToken => Fail(400, InvalidMessage(kind))
    case Payload(claims) =>
      if claims.purpose != Some(Purpose(kind)) then Fail(400, InvalidMessage(kind))
      else if !HasRequiredClaims(kind, claims) then Fail(400, InvalidMessage(kind))
      else Ok(claims)
  }

  /** The expired and the invalid message differ for every kind. */
  lemma MessagesDistinct(kind: LinkKind)
    ensures ExpiredMessage(kind) != InvalidMessage(kind)
    ensures ExpiredMessage(kind) != TokenExpiredMessage && InvalidMessage(kind) != InvalidTokenMessage
  {
    match kind
    case ResetLink =>
      assert ExpiredMessage(kind)[0] == 'R' && InvalidMessage(kind)[0] == 'I';
    case EmailChangeLink =>
      assert ExpiredMessage(kind)[0] == 'C' && InvalidMessage(kind)[0] == 'I';
      assert InvalidMessage(kind)[8] != InvalidTokenMessage[8];
    case DownloadLink =>
      assert ExpiredMessage(kind)[0] == 'D' && InvalidMessage(kind)[0] == 'I';
      assert InvalidMessage(kind)[8] != InvalidTokenMessage[8];
  }

  /** A link decoder accepts no token minted for another purpose, nor an access token. */
  lemma PurposeSeparation(kind: LinkKind, claims: Jwt.Claims, secret: string, now: int)
    requires claims.purpose != Some(Purpose(kind))
    ensures DecodeLink(kind, Jwt.Encode(claims, secret), secret, now).Fail?
  {
  }

  function CreateResetToken(tag: string, passwordHash: string, sha: Digest, secret: string, now: int): Jwt.Token {
    Jwt.Encode(Jwt.Claims(Some(tag), Some("reset"), Some(PasswordFingerprint(sha, passwordHash)), None,
                          Some(now + ResetLifetime)), secret)
  }

  datatype ResetClaim = ResetClaim(tag: string, fingerprint: string)

  /** `decode_reset_token`: the tag and password fingerprint of a reset link. */
  function DecodeResetToken(token: Jwt.Token, secret: string, now: int): (r: Outcome<ResetClaim>)
    ensures r.Fail? ==> r.status == 400 && (r.detail == "Reset link has expired" || r.detail == "Invalid reset link")
    ensures r.Ok? ==>
      token.Signed? && token.key == secret && token.claims.purpose == Some("reset")
      && token.claims.sub == Some(r.value.tag) && token.claims.pfp == Some(r.value.fingerprint)
  {
    match DecodeLink(ResetLink, token, secret, now)
    case Fail(status, detail) => Fail(status, detail)
    case Ok(claims) => Ok(ResetClaim(claims.sub.value, claims.pfp.value))
  }

  /** Before 48 hours a reset link yields the tag and the fingerprint of the hash it was
      issued for; from then on it is expired. */
  lemma ResetRoundTrip(tag: string, passwordHash: string, sha: Digest, secret: string, issued: int, now: int)
    ensures now < issued + ResetLifetime ==>
      DecodeResetToken(CreateResetToken(tag, passwordHash, sha, secret, issued), secret, now)
        == Ok(ResetClaim(tag, PasswordFingerprint(sha, passwordHash)))
    ensures now >= issued + ResetLifetime ==>
      DecodeResetToken(CreateResetToken(tag, passwordHash, sha, secret, issued), secret, now)
        == Fail(400, "Reset link has expired")
  {
  }

  function CreateEmailChangeToken(tag: string, newEmail: string, secret: string, now: int): Jwt.Token {
    Jwt.Encode(Jwt.Claims(Some(tag), Some("email_change"), None, Some(newEmail), Some(now + EmailChangeLifetime)), secret)
  }

  datatype EmailChangeClaim = EmailChangeClaim(tag: string, newEmail: string)

  /** `decode_email_change_token`: the tag and the new address of a confirmation link. */
  function DecodeEmailChangeToken(token: Jwt.Token, secret: string, now: int): (r: Outcome<EmailChangeClaim>)
    ensures r.Fail? ==>
      r.status == 400 && (r.detail == "Confirmation link has expired" || r.detail == "Invalid confirmation link")
    ensures r.Ok? ==>
      token.Signed? && token.key == secret && token.claims.purpose == Some("email_change")
      && token.claims.sub == Some(r.value.tag) && token.claims.newEmail == Some(r.value.newEmail)
  {
    match DecodeLink(EmailChangeLink, token, secret, now)
    case Fail(status, detail) => Fail(status, detail)
    case Ok(claims) => Ok(EmailChangeClaim(claims.sub.value, claims.newEmail.value))
  }

  lemma EmailChangeRoundTrip(tag: string, newEmail: string, secret: string, issued: int, now: int)
    ensures now < issued + EmailChangeLifetime ==>
      DecodeEmailChangeToken(CreateEmailChangeToken(tag, newEmail, secret, issued), secret, now)
        == Ok(EmailChangeClaim(tag, newEmail))
    ensures now >= issued + EmailChangeLifetime ==>
      DecodeEmailChangeToken(CreateEmailChangeToken(tag, newEmail, secret, issued), secret, now)
        == Fail(400, "Confirmation link has expired")
  {
  }

  function CreateDownloadToken(tag: string, secret: string, now: int): Jwt.Token {
    Jwt.Encode(Jwt.Claims(Some(tag), Some("download"), None, None, Some(now + DownloadLifetime)), secret)
  }

  /** `decode_download_token`: the tag of an export link. */
  function DecodeDownloadToken(token: Jwt.Token, secret: string, now: int): (r: Outcome<string>)
    ensures r.Fail? ==>
      r.status == 400 && (r.detail == "Download link has expired" || r.detail == "Invalid download link")
    ensures r.Ok? ==>
      token.Signed? && token.key == secret && token.claims.purpose == Some("download") && token.claims.sub == Some(r.value)
  {
    match DecodeLink(DownloadLink, token, secret, now)
    case Fail(status, detail) => Fail(status, detail)
    case Ok(claims) => Ok(claims.sub.value)
  }

  lemma DownloadRoundTrip(tag: string, secret: string, issued: int, now: int)
    ensures now < issued + DownloadLifetime ==>
      DecodeDownloadToken(CreateDownloadToken(tag, secret, issued), secret, now) == Ok(tag)
    ensures now >= issued + DownloadLifetime ==>
      DecodeDownloadToken(CreateDownloadToken(tag, secret, issued), secret, now) == Fail(400, "Download link has expired")
  {
  }

  /** The purpose-bound decoders do not accept each other's links. */
  lemma LinksNotInterchangeable(tag: string, passwordHash: string, newEmail: string, sha: Digest,
                                secret: string, issued: int, now: int)
    requires issued <= now < issued + DownloadLifetime
    ensures DecodeResetToken(CreateEmailChangeToken(tag, newEmail, secret, issued), secret, now) == Fail(400, "Invalid reset link")
    ensures DecodeResetToken(CreateDownloadToken(tag, secret, issued), secret, now) == Fail(400, "Invalid reset link")
    ensures DecodeResetToken(CreateAccessToken(tag, secret, issued), secret, now) == Fail(400, "Invalid reset link")
    ensures DecodeEmailChangeToken(CreateResetToken(tag, passwordHash, sha, secret, issued), secret, now)
         == Fail(400, "Invalid confirmation link")
    ensures DecodeDownloadToken(CreateResetToken(tag, passwordHash, sha, secret, issued), secret, now)
         == Fail(400, "Invalid download link")
  {
  }

  // ----- the authenticated site -----

  /** `utils.auth.get_current_site`: a missing or removed site is 404. */
  function GetCurrentSite(rows: seq<Site>, token: Jwt.Token, secret: string, now: int): (r: Outcome<Site>)
    ensures r.Ok? ==> r.value in rows && !r.value.IsRemoved() && DecodeAccessToken(token, secret, now) == Ok(r.value.tag)
    ensures DecodeAccessToken(token, secret, now).Fail? ==>
      r == Fail(401, DecodeAccessToken(token, secret, now).detail)
    ensures UniqueTags(rows) && DecodeAccessToken(token, secret, now).Ok? ==>
      (r == Fail(404, SiteNotFoundMessage) <==>
        forall i :: 0 <= i < |rows| ==> rows[i].tag != DecodeAccessToken(token, secret, now).value || rows[i].IsRemoved())
    ensures UniqueTags(rows) ==> r.Ok? || r.status == 401 || r.status == 404
  {
    match DecodeAccessToken(token, secret, now)
    case Fail(status, detail) => Fail(status, detail)
    case Ok(tag) =>
      ActiveByTagMeaning(rows, tag);
      CurrentSiteFrom(rows, tag, 404)
  }

  /** `api.v1.auth.get_current_site`: the same checks, but a missing or removed site is 401. */
  function GetCurrentSiteV1(rows: seq<Site>, token: Jwt.Token, secret: string, now: int): (r: Outcome<Site>)
    ensures r.Ok? ==> r.value in rows && !r.value.IsRemoved() && DecodeAccessToken(token, secret, now) == Ok(r.value.tag)
    ensures DecodeAccessToken(token, secret, now).Fail? ==>
      r == Fail(401, DecodeAccessToken(token, secret, now).detail)
    ensures UniqueTags(rows) ==> r.Ok? || r.status == 401
    ensures UniqueTags(rows) && DecodeAccessToken(token, secret, now).Ok? ==>
      (r == Fail(401, SiteNotFoundMessage) <==>
        forall i :: 0 <= i < |rows| ==> rows[i].tag != DecodeAccessToken(token, secret, now).value || rows[i].IsRemoved())
  {
    match DecodeAccessToken(token, secret, now)
    case Fail(status, detail) => Fail(status, detail)
    case Ok(tag) =>
      ActiveByTagMeaning(rows, tag);
      CurrentSiteFrom(rows, tag, 401)
  }

  /** The lookup step; `scalar_one_or_none` raising becomes a 500. */
  function CurrentSiteFrom(rows: seq<Site>, tag: string, missingStatus: int): (r: Outcome<Site>)
    ensures r.Ok? ==> r.value in rows && r.value.tag == tag && !r.value.IsRemoved()
  {
    match ActiveByTag(rows, tag)
    case NoRow => Fail(missingStatus, SiteNotFoundMessage)
    case Row(site) => ActiveByTagMeaning(rows, tag); Ok(site)
    case MultipleRows => Fail(500, InternalServerError)
  }

  /** The two variants agree on success and differ only in the status for a missing site. */
  lemma CurrentSiteVariants(rows: seq<Site>, token: Jwt.Token, secret: string, now: int)
    ensures GetCurrentSite(rows, token, secret, now).Ok? <==> GetCurrentSiteV1(rows, token, secret, now).Ok?
    ensures GetCurrentSite(rows, token, secret, now) == Fail(404, SiteNotFoundMessage)
        <==> GetCurrentSiteV1(rows, token, secret, now) == Fail(401, SiteNotFoundMessage)
  {
  }

  /** A fresh access token for an active site authenticates as that site. */
  lemma LoginTokenAuthenticates(rows: seq<Site>, site: Site, secret: string, issued: int, now: int)
    requires UniqueTags(rows) && site in rows && !site.IsRemoved()
    requires issued <= now < issued + AccessLifetime
    ensures GetCurrentSite(rows, CreateAccessToken(site.tag, secret, issued), secret, now) == Ok(site)
  {
    ActiveByTagMeaning(rows, site.tag);
    var i :| 0 <= i < |rows| && rows[i] == site;
  }
}

=== FILE: cleanup.dfy ===
/** The operator's cleanup command (cli/cleanup_sites.py): sites whose latest statistics
    show too much or too little activity are flagged, and outside a dry run removed one by
    one. */
module Cleanup {
  import opened Common
  import opened Models
  import Cli
  import Table

  const MinAgeDays: int := 60
  const Day: int := 86400
  const MaxContent: int := 10000
  const MaxUsers: int := 5000
  const MaxAssetsMb: real := 500.0
  const MinContent: int := 10
  const MinUsers: int := 2

  const NoStatsMessage: string := "No stats collected yet. Run collect_stats first."
  const ReasonPrefix: string := "auto-cleanup: "

  /** The latest `site_stats` row of a site. */
  datatype Stats = Stats(contentCount: int, userCount: int, assetsMb: real)

  /** One triggered threshold, in the order the reason lists them. */
  datatype Metric = Content(count: int) | Users(count: int) | Assets(mb: real) {
    function Rank(): nat {
      match this
      case Content(_) => 0
      case Users(_) => 1
      case Assets(_) => 2
    }
  }

  datatype Verdict = TooActive(metrics: seq<Metric>) | Inactive(metrics: seq<Metric>)

  predicate IsTooActive(s: Stats) {
    s.contentCount > MaxContent || s.userCount > MaxUsers || s.assetsMb > MaxAssetsMb
  }

  predicate IsInactive(s: Stats) {
    s.contentCount < MinContent || s.userCount <= MinUsers
  }

  /** Each metric kind at most once, content before users before assets. */
  predicate InOrder(ms: seq<Metric>) {
    forall i, j :: 0 <= i < j < |ms| ==> ms[i].Rank() < ms[j].Rank()
  }

  /** The `too active` parts of `_classify`: the metrics above their maximum. */
  function ActiveMetrics(s: Stats): (r: seq<Metric>)
    ensures InOrder(r)
    ensures |r| >= 1 <==> IsTooActive(s)
    ensures Content(s.contentCount) in r <==> s.contentCount > MaxContent
    ensures Users(s.userCount) in r <==> s.userCount > MaxUsers
    ensures Assets(s.assetsMb) in r <==> s.assetsMb > MaxAssetsMb
    ensures forall m :: m in r ==> m in [Content(s.contentCount), Users(s.userCount), Assets(s.assetsMb)]
  {
    (if s.contentCount > MaxContent then [Content(s.contentCount)] else [])
    + (if s.userCount > MaxUsers then [Users(s.userCount)] else [])
    + (if s.assetsMb > MaxAssetsMb then [Assets(s.assetsMb)] else [])
  }

  /** The `inactive` parts of `_classify`: the metrics below their minimum. */
  function InactiveMetrics(s: Stats): (r: seq<Metric>)
    ensures InOrder(r)
    ensures |r| >= 1 <==> IsInactive(s)
    ensures Content(s.contentCount) in r <==> s.contentCount < MinContent
    ensures Users(s.userCount) in r <==> s.userCount <= MinUsers
    ensures forall m :: m in r ==> m in [Content(s.contentCount), Users(s.userCount)]
  {
    (if s.contentCount < MinContent then [Content(s.contentCount)] else [])
    + (if s.userCount <= MinUsers then [Users(s.userCount)] else [])
  }

  /** `_classify`: too active takes precedence; the reason names exactly the triggered
      thresholds, in order. */
  function Classify(s: Stats): (r: Option<Verdict>)
    ensures (r.Some? && r.value.TooActive?) <==> IsTooActive(s)
    ensures (r.Some? && r.value.Inactive?) <==> !IsTooActive(s) && IsInactive(s)
    ensures r.Some? ==> |r.value.metrics| >= 1 && InOrder(r.value.metrics)
    ensures r.Some? && r.value.TooActive? ==> r.value.metrics == ActiveMetrics(s)
    ensures r.Some? && r.value.Inactive? ==> r.value.metrics == InactiveMetrics(s)
  {
    if IsTooActive(s) then Some(TooActive(ActiveMetrics(s)))
    else if IsInactive(s) then Some(Inactive(InactiveMetrics(s)))
    else None
  }

  /** A site is left alone exactly when every metric lies in its band. */
  lemma KeptBand(s: Stats)
    ensures Classify(s).None? <==>
      MinContent <= s.contentCount <= MaxContent && MinUsers < s.userCount <= MaxUsers && s.assetsMb <= MaxAssetsMb
  {
  }

  /** `f"content={n}"` and the like; `showReal` is Python's rendering of a float. */
  function MetricText(m: Metric, showReal: real -> string): string {
    match m
    case Content(n) => "content=" + IntToString(n)
    case Users(n) => "users=" + IntToString(n)
    case Assets(mb) => "assets=" + showReal(mb) + "MB"
  }

  /** The reason text, `too active (...)` or `inactive (...)`. */
  function VerdictText(v: Verdict, showReal: real -> string): (r: string)
    ensures v.TooActive? ==> StartsWith(r, "too active (")
    ensures v.Inactive? ==> StartsWith(r, "inactive (")
  {
    var parts := seq(|v.metrics|, i requires 0 <= i < |v.metrics| => MetricText(v.metrics[i], showReal));
    var head := if v.TooActive? then "too active (" else "inactive (";
    head + JoinWith(parts, ", ") + ")"
  }

  /** A selected site and why. */
  datatype Flag = Flag(site: Site, verdict: Verdict)

  /** The checks before the statistics: installed, at least 60 days old, without perks. */
  predicate Eligible(site: Site, cutoff: int) {
    site.IsInstalled() && site.createdAt <= cutoff && !site.HasDonorPerks()
  }

  function FlagOf(site: Site, stats: map<string, Stats>, cutoff: int): (r: Option<Flag>)
    ensures r.Some? <==> Eligible(site, cutoff) && site.tag in stats && Classify(stats[site.tag]).Some?
    ensures r.Some? ==> r.value == Flag(site, Classify(stats[site.tag]).value)
  {
    if Eligible(site, cutoff) && site.tag in stats && Classify(stats[site.tag]).Some?
    then Some(Flag(site, Classify(stats[site.tag]).value))
    else None
  }

  /** The flags of `sites`, in their order. */
  function Flagged(sites: seq<Site>, stats: map<string, Stats>, cutoff: int): (r: seq<Flag>)
    ensures forall f :: f in r ==> f.site in sites
    ensures |r| <= |sites|
  {
    if sites == [] then []
    else
      var init := sites[..|sites| - 1];
      var prev := Flagged(init, stats, cutoff);
      assert forall s :: s in init ==> s in sites;
      var last := FlagOf(sites[|sites| - 1], stats, cutoff);
      prev + (if last.Some? then [last.value] else [])
  }

  /** A flag is raised for exactly the listed sites that pass every check, with the
      classification of their latest statistics. */
  lemma {:induction false} FlaggedMeaning(sites: seq<Site>, stats: map<string, Stats>, cutoff: int, f: Flag)
    ensures f in Flagged(sites, stats, cutoff) <==>
      f.site in sites && Eligible(f.site, cutoff) && f.site.tag in stats
      && Classify(stats[f.site.tag]) == Some(f.verdict)
  {
    if sites != [] {
      var init := sites[..|sites| - 1];
      FlaggedMeaning(init, stats, cutoff, f);
      assert sites == init + [sites[|sites| - 1]];
    }
  }

  predicate DistinctFlags(flags: seq<Flag>) {
    forall i, j :: 0 <= i < j < |flags| ==> flags[i].site.tag != flags[j].site.tag
  }

  /** Tags stay distinct from the table to the flags. */
  lemma {:induction false} FlaggedUnique(sites: seq<Site>, stats: map<string, Stats>, cutoff: int)
    requires UniqueTags(sites)
    ensures DistinctFlags(Flagged(sites, stats, cutoff))
  {
    if sites != [] {
      var init := sites[..|sites| - 1];
      assert UniqueTags(init) by {
        forall i, j | 0 <= i < j < |init| ensures init[i].tag != init[j].tag {
          assert init[i] == sites[i] && init[j] == sites[j];
        }
      }
      FlaggedUnique(init, stats, cutoff);
      var prev := Flagged(init, stats, cutoff);
      var last := sites[|sites| - 1];
      forall k | 0 <= k < |prev| ensures prev[k].site.tag != last.tag {
        assert prev[k] in prev;
        var m :| 0 <= m < |init| && init[m] == prev[k].site;
        assert sites[m] == init[m];
      }
      var fl := FlagOf(last, stats, cutoff);
      var r := Flagged(sites, stats, cutoff);
      assert r == prev + (if fl.Some? then [fl.value] else []);
      assert DistinctFlags(prev);
      forall i, j | 0 <= i < j < |r| ensures r[i].site.tag != r[j].site.tag {
        if j < |prev| {
          assert r[i] == prev[i] && r[j] == prev[j];
          assert prev[i].site.tag != prev[j].site.tag;
        } else {
          assert fl.Some? && r[j] == fl.value;
          assert r[i] == prev[i] && r[j].site == last;
          assert prev[i].site.tag != last.tag;
        }
      }
    }
  }

  /** A query keeps the table's distinct tags. */
  lemma {:induction false} WhereUnique(rows: seq<Site>, filters: seq<Filter>)
    requires UniqueTags(rows)
    ensures UniqueTags(Where(rows, filters))
  {
    if rows != [] {
      var tail := rows[1..];
      assert UniqueTags(tail) by {
        forall i, j | 0 <= i < j < |tail| ensures tail[i].tag != tail[j].tag {
          assert tail[i] == rows[i + 1] && tail[j] == rows[j + 1];
        }
      }
      WhereUnique(tail, filters);
      var w := Where(tail, filters);
      forall k | 0 <= k < |w| ensures w[k].tag != rows[0].tag {
        assert w[k] in w;
        var m :| 0 <= m < |tail| && tail[m] == w[k];
        assert rows[m + 1] == tail[m];
      }
    }
  }

  /** The selection loop of `_main` over the active sites. */
  method SelectFlagged(sites: seq<Site>, stats: map<string, Stats>, cutoff: int) returns (flagged: seq<Flag>)
    ensures flagged == Flagged(sites, stats, cutoff)
  {
    flagged := [];
    for i := 0 to |sites|
      invariant flagged == Flagged(sites[..i], stats, cutoff)
    {
      var site := sites[i];
      assert sites[..i + 1][..i] == sites[..i];
      if !site.IsInstalled() || site.createdAt > cutoff || site.HasDonorPerks() {
        continue;
      }
      if site.tag !in stats {
        continue;
      }
      var verdict := Classify(stats[site.tag]);
      if verdict.Some? {
        flagged := flagged + [Flag(site, verdict.value)];
      }
    }
    assert sites[..|sites|] == sites;
  }

  /** The record after a successful automatic removal. */
  function AutoRemoved(site: Site, reason: string, now: int): Site {
    site.(removedAt := Some(now), removalReason := Some(ReasonPrefix + reason))
  }

  /** The table after the removal loop: each flag whose job returned is committed, in
      order; `reasons[k]` is the text of `flags[k]`. */
  function AfterRemovals(rows: seq<Site>, flags: seq<Flag>, reasons: seq<string>, succeeds: string -> bool, now: int)
    : seq<Site>
    requires |reasons| == |flags|
  {
    if flags == [] then rows
    else
      var n := |flags| - 1;
      var prev := AfterRemovals(rows, flags[..n], reasons[..n], succeeds, now);
      if succeeds(flags[n].site.tag) then Replace(prev, AutoRemoved(flags[n].site, reasons[n], now)) else prev
  }

  lemma ReplaceKeepsOthers(rows: seq<Site>, site: Site, x: Site)
    requires x in rows && x.tag != site.tag
    ensures x in Replace(rows, site)
  {
    var j :| 0 <= j < |rows| && rows[j] == x;
    assert Replace(rows, site)[j] == x;
  }

  /** The removal loop: a job that raises is reported and leaves its site as it was;
      otherwise the site is marked removed with the automatic reason. `succeeds` says, per
      tag, whether `remove_site` returned. */
  method RemoveFlagged(store: TenantStore, flags: seq<Flag>, reasons: seq<string>, succeeds: string -> bool, now: int)
    requires store.Valid() && |reasons| == |flags|
    requires forall k :: 0 <= k < |flags| ==> flags[k].site in store.rows && !flags[k].site.IsRemoved()
    requires DistinctFlags(flags)
    modifies store
    ensures store.Valid() && Evolves(old(store.rows), store.rows)
    ensures store.rows == AfterRemovals(old(store.rows), flags, reasons, succeeds, now)
    ensures store.outbox == old(store.outbox)
    ensures store.jobs == old(store.jobs)
        + seq(|flags|, k requires 0 <= k < |flags| => RemoveJob(flags[k].site.tag, false, ReasonPrefix + reasons[k]))
  {
    ghost var rows0 := store.rows;
    ghost var jobs0 := store.jobs;
    for i := 0 to |flags|
      invariant store.Valid() && Evolves(rows0, store.rows)
      invariant store.rows == AfterRemovals(rows0, flags[..i], reasons[..i], succeeds, now)
      invariant forall k :: i <= k < |flags| ==> flags[k].site in store.rows
      invariant store.outbox == old(store.outbox)
      invariant store.jobs == jobs0
          + seq(i, k requires 0 <= k < i => RemoveJob(flags[k].site.tag, false, ReasonPrefix + reasons[k]))
    {
      assert flags[..i + 1][..i] == flags[..i] && reasons[..i + 1][..i] == reasons[..i];
      var site := flags[i].site;
      ghost var before := store.rows;
      store.Schedule(RemoveJob(site.tag, false, ReasonPrefix + reasons[i]));
      if succeeds(site.tag) {
        var removed := AutoRemoved(site, reasons[i], now);
        store.Commit(site, removed);
        EvolvesTransitive(rows0, before, store.rows);
        forall k | i < k < |flags| ensures flags[k].site in store.rows {
          ReplaceKeepsOthers(before, removed, flags[k].site);
        }
      }
    }
    assert flags[..|flags|] == flags && reasons[..|reasons|] == reasons;
  }

  /** What a run reports. */
  datatype Report =
    | NothingFlagged
    | DryRun(flags: seq<Flag>, widths: seq<nat>)
    | Removed(flags: seq<Flag>, widths: seq<nat>)

  const Headers: seq<string> := ["TAG", "TYPE", "HOSTNAME", "CONTENT", "USERS", "ASSETS MB", "REASON"]

  /** A summary row; `showMb` is the `:.1f` rendering of the assets. */
  function SummaryRow(f: Flag, stats: map<string, Stats>, showReal: real -> string, showMb: real -> string)
    : (r: seq<string>)
    requires f.site.tag in stats
    ensures |r| == |Headers|
  {
    var s := stats[f.site.tag];
    [f.site.tag, f.site.siteType, f.site.hostname, IntToString(s.contentCount), IntToString(s.userCount),
     showMb(s.assetsMb), VerdictText(f.verdict, showReal)]
  }

  /** `_main`. The dry run is the default; `now` is the current time in seconds. */
  method CleanupSites(store: TenantStore, stats: map<string, Stats>, now: int, dryRun: bool,
                      succeeds: string -> bool, showReal: real -> string, showMb: real -> string)
    returns (r: Outcome<Report>)
    requires store.Valid()
    modifies store
    ensures store.Valid() && Evolves(old(store.rows), store.rows)
    ensures store.outbox == old(store.outbox)
    ensures |stats| == 0 ==> r == Fail(Cli.ExitFailure, NoStatsMessage) && unchanged(store)
    ensures r.Ok? <==> |stats| > 0
    ensures r.Ok? ==>
      (r.value.NothingFlagged? <==> Flagged(GetAllActive(old(store.rows), [], false), stats, now - MinAgeDays * Day) == [])
    ensures r.Ok? && !r.value.NothingFlagged? ==> (r.value.DryRun? <==> dryRun)
    ensures r.Ok? && r.value.NothingFlagged? ==> unchanged(store)
    ensures r.Ok? && r.value.DryRun? ==> dryRun && unchanged(store)
    ensures r.Ok? && !r.value.NothingFlagged? ==>
      r.value.flags == Flagged(GetAllActive(old(store.rows), [], false), stats, now - MinAgeDays * Day)
      && |r.value.flags| > 0 && |r.value.widths| == |Headers|
    ensures r.Ok? && r.value.Removed? ==>
      !dryRun && store.rows == AfterRemovals(old(store.rows), r.value.flags,
        seq(|r.value.flags|, k requires 0 <= k < |r.value.flags| => VerdictText(r.value.flags[k].verdict, showReal)),
        succeeds, now)
      && store.jobs == old(store.jobs) + seq(|r.value.flags|, k requires 0 <= k < |r.value.flags| =>
           RemoveJob(r.value.flags[k].site.tag, false, ReasonPrefix + VerdictText(r.value.flags[k].verdict, showReal)))
    ensures r.Fail? ==> unchanged(store)
  {
    if |stats| == 0 {
      return Fail(Cli.ExitFailure, NoStatsMessage);
    }
    var cutoff := now - MinAgeDays * Day;
    var sites := GetAllActive(store.rows, [], false);
    var flagged := SelectFlagged(sites, stats, cutoff);
    if |flagged| == 0 {
      return Ok(NothingFlagged);
    }
    forall k | 0 <= k < |flagged|
      ensures flagged[k].site in store.rows && !flagged[k].site.IsRemoved() && flagged[k].site.tag in stats
    {
      FlaggedMeaning(sites, stats, cutoff, flagged[k]);
    }
    var table := seq(|flagged|, k requires 0 <= k < |flagged| => SummaryRow(flagged[k], stats, showReal, showMb));
    var widths := Table.ColumnWidths(Headers, table);
    if dryRun {
      return Ok(DryRun(flagged, widths));
    }
    var reasons := seq(|flagged|, k requires 0 <= k < |flagged| => VerdictText(flagged[k].verdict, showReal));
    WhereUnique(store.rows, ActiveFilters([], false));
    FlaggedUnique(sites, stats, cutoff);
    RemoveFlagged(store, flagged, reasons, succeeds, now);
    r := Ok(Removed(flagged, widths));
  }
}

=== FILE: cli.dfy ===
/** What the operator commands share: the exit status of a failed command and its
    messages. */
module Cli {
  /** `sys.exit(message)` and an uncaught exception both end the process with status 1. */
  const ExitFailure: int := 1

  /** An exception no command catches (such as `MultipleResultsFound`). */
  const UncaughtError: string := "uncaught exception"

  /** `f"Error: active site '{identifier}' not found"`. */
  function ActiveSiteNotFound(identifier: string): string {
    "Error: active site '" + identifier + "' not found"
  }
}

=== FILE: common.dfy ===
/** Shared value types and the string operations the backend leans on
    (Python's `str.split`, `".".join`, `startswith`, `endswith`, `in`, `strip`, `lower`). */
module Common {

  datatype Option<+T> = None | Some(value: T) {
    function GetOr(default: T): T {
      match this
      case Some(v) => v
      case None => default
    }
  }

  /** The outcome of a request handler: a value, or the HTTP status and detail of the
      `HTTPException` it raises (CLI commands use the same shape with their exit message). */
  datatype Outcome<+T> = Ok(value: T) | Fail(status: int, detail: string)

  /** The 400 detail of `verify_turnstile` when the challenge fails. */
  const TurnstileFailedMessage: string := "Turnstile verification failed"

  /** The 422 detail when an `EmailStr` field rejects the address. */
  const InvalidEmailMessage: string := "value is not a valid email address"

  /** The response to an exception no handler catches. */
  const InternalServerError: string := "Internal Server Error"

  /** Python truthiness of an optional string: present and non-empty. */
  predicate Truthy(o: Option<string>) {
    o.Some? && o.value != ""
  }

  predicate StartsWith(s: string, prefix: string) {
    |prefix| <= |s| && s[..|prefix|] == prefix
  }

  predicate EndsWith(s: string, suffix: string) {
    |suffix| <= |s| && s[|s| - |suffix|..] == suffix
  }

  /** Python's `needle in s` for strings. */
  predicate Contains(s: string, needle: string) {
    StartsWith(s, needle) || (|s| > 0 && Contains(s[1..], needle))
  }

  /** The characters `str.isspace()` holds for, which `str.strip()` removes: the ASCII
      controls 9-13 and 28-31, the space, and the Unicode separators. */
  predicate IsSpace(c: char) {
    || ('\t' <= c <= '\r')
    || ('\U{1C}' <= c <= '\U{20}')
    || c == '\U{85}' || c == '\U{A0}' || c == '\U{1680}'
    || ('\U{2000}' <= c <= '\U{200A}')
    || c == '\U{2028}' || c == '\U{2029}' || c == '\U{202F}' || c == '\U{205F}' || c == '\U{3000}'
  }

  function StripLeft(s: string): (r: string)
    ensures |r| <= |s| && EndsWith(s, r)
    ensures r == [] || !IsSpace(r[0])
  {
    if |s| > 0 && IsSpace(s[0]) then StripLeft(s[1..]) else s
  }

  function StripRight(s: string): (r: string)
    ensures |r| <= |s| && StartsWith(s, r)
    ensures r == [] || !IsSpace(r[|r| - 1])
  {
    if |s| > 0 && IsSpace(s[|s| - 1]) then StripRight(s[..|s| - 1]) else s
  }

  /** `str.strip()` with no argument. */
  function Strip(s: string): (r: string)
    ensures |r| <= |s|
    ensures r == [] || (!IsSpace(r[0]) && !IsSpace(r[|r| - 1]))
  {
    StripRight(StripLeft(s))
  }

  function LowerChar(c: char): char {
    if 'A' <= c <= 'Z' then (c as int - 'A' as int + 'a' as int) as char else c
  }

  /** `str.lower()` on ASCII letters. */
  function Lower(s: string): (r: string)
    ensures |r| == |s|
    ensures forall i :: 0 <= i < |s| ==> r[i] == LowerChar(s[i])
  {
    if s == [] then [] else [LowerChar(s[0])] + Lower(s[1..])
  }

  function UpperChar(c: char): char {
    if 'a' <= c <= 'z' then (c as int - 'a' as int + 'A' as int) as char else c
  }

  /** `str.upper()` on ASCII letters. */
  function Upper(s: string): (r: string)
    ensures |r| == |s|
    ensures forall i :: 0 <= i < |s| ==> r[i] == UpperChar(s[i])
  {
    if s == [] then [] else [UpperChar(s[0])] + Upper(s[1..])
  }

  /** `s.split(sep)` for a one-character separator: always at least one part. */
  function Split(s: string, sep: char): (parts: seq<string>)
    ensures |parts| >= 1
  {
    if s == [] then [""]
    else if s[0] == sep then [""] + Split(s[1..], sep)
    else
      var rest := Split(s[1..], sep);
      [[s[0]] + rest[0]] + rest[1..]
  }

  /** No part of a split contains the separator. */
  lemma {:induction false} SplitPartsFree(s: string, sep: char)
    ensures forall k :: 0 <= k < |Split(s, sep)| ==> sep !in Split(s, sep)[k]
  {
    if s != [] {
      SplitPartsFree(s[1..], sep);
      if s[0] != sep {
        var rest := Split(s[1..], sep);
        var parts := Split(s, sep);
        assert parts == [[s[0]] + rest[0]] + rest[1..];
        forall k | 0 <= k < |parts| ensures sep !in parts[k] {
          if k == 0 {
            assert parts[0] == [s[0]] + rest[0];
          } else {
            assert parts[k] == rest[k];
          }
        }
      }
    }
  }

  /** `sep.join(parts)` for a non-empty list of parts. */
  function Join(parts: seq<string>, sep: char): string
    requires |parts| >= 1
  {
    if |parts| == 1 then parts[0] else parts[0] + [sep] + Join(parts[1..], sep)
  }

  /** Splitting and joining again gives back the original string. */
  lemma {:induction false} JoinSplit(s: string, sep: char)
    ensures Join(Split(s, sep), sep) == s
  {
    if s == [] {
    } else if s[0] == sep {
      JoinSplit(s[1..], sep);
      assert s == [sep] + s[1..];
    } else {
      var rest := Split(s[1..], sep);
      JoinSplit(s[1..], sep);
      if |rest| == 1 {
        assert s == [s[0]] + s[1..];
      } else {
        assert Join(rest, sep) == rest[0] + [sep] + Join(rest[1..], sep);
        assert ([[s[0]] + rest[0]] + rest[1..])[1..] == rest[1..];
        assert s == [s[0]] + s[1..];
      }
    }
  }

  /** Splitting a part that holds no separator, followed by a separator and more text. */
  lemma {:induction false} SplitCons(p: string, sep: char, rest: string)
    requires sep !in p
    ensures Split(p + [sep] + rest, sep) == [p] + Split(rest, sep)
  {
    if p == [] {
      assert p + [sep] + rest == [sep] + rest;
      assert ([sep] + rest)[1..] == rest;
    } else {
      SplitCons(p[1..], sep, rest);
      assert (p + [sep] + rest)[1..] == p[1..] + [sep] + rest;
      assert [p[0]] + p[1..] == p;
    }
  }

  /** Splitting a string that holds no separator gives the string itself. */
  lemma {:induction false} SplitNoSep(p: string, sep: char)
    requires sep !in p
    ensures Split(p, sep) == [p]
  {
    if p != [] {
      SplitNoSep(p[1..], sep);
      assert [p[0]] + p[1..] == p;
    }
  }

  /** Joining parts free of the separator and splitting again gives back the parts. */
  lemma {:induction false} SplitJoin(parts: seq<string>, sep: char)
    requires |parts| >= 1
    requires forall k :: 0 <= k < |parts| ==> sep !in parts[k]
    ensures Split(Join(parts, sep), sep) == parts
  {
    if |parts| == 1 {
      SplitNoSep(parts[0], sep);
    } else {
      SplitJoin(parts[1..], sep);
      SplitCons(parts[0], sep, Join(parts[1..], sep));
      assert [parts[0]] + parts[1..] == parts;
    }
  }

  /** Splitting at a separator splits the two sides independently. */
  lemma {:induction false} SplitAppend(p: string, sep: char, r: string)
    ensures Split(p + [sep] + r, sep) == Split(p, sep) + Split(r, sep)
  {
    var whole := p + [sep] + r;
    if p == [] {
      assert whole == [sep] + r;
      assert whole[1..] == r;
    } else {
      SplitAppend(p[1..], sep, r);
      assert whole[1..] == p[1..] + [sep] + r;
      if p[0] != sep {
        SplitStep(p[0], Split(p[1..], sep), Split(r, sep), whole, p, sep);
      } else {
        assert Split(whole, sep) == [""] + (Split(p[1..], sep) + Split(r, sep));
        assert Split(p, sep) == [""] + Split(p[1..], sep);
      }
    }
  }

  /** A leading character other than the separator joins the first part. */
  lemma SplitFirst(s: string, sep: char)
    requires s != [] && s[0] != sep
    ensures Split(s, sep) == [[s[0]] + Split(s[1..], sep)[0]] + Split(s[1..], sep)[1..]
  {
  }

  /** One character in front of a part joins that part. */
  lemma {:induction false} SplitStep(c: char, tail: seq<string>, right: seq<string>, whole: string, p: string, sep: char)
    requires |tail| >= 1 && c != sep
    requires p != [] && p[0] == c && tail == Split(p[1..], sep)
    requires whole != [] && whole[0] == c && Split(whole[1..], sep) == tail + right
    ensures Split(whole, sep) == Split(p, sep) + right
  {
    var head := [c] + tail[0];
    SplitFirst(whole, sep);
    SplitFirst(p, sep);
    assert (tail + right)[0] == tail[0];
    assert (tail + right)[1..] == tail[1..] + right;
    assert [head] + (tail[1..] + right) == [head] + tail[1..] + right;
  }

  /** Joining a concatenation puts one separator between the two joins. */
  lemma {:induction false} JoinAppend(a: seq<string>, b: seq<string>, sep: char)
    requires |a| >= 1 && |b| >= 1
    ensures Join(a + b, sep) == Join(a, sep) + [sep] + Join(b, sep)
  {
    if |a| == 1 {
      assert (a + b)[1..] == b;
    } else {
      assert (a + b)[1..] == a[1..] + b;
      JoinAppend(a[1..], b, sep);
    }
  }

  /** `str(n)` for a natural number: its decimal digits, most significant first. */
  function NatToString(n: nat): (r: string)
    ensures |r| >= 1
    ensures forall i :: 0 <= i < |r| ==> '0' <= r[i] <= '9'
    ensures n >= 10 ==> r[0] != '0'
  {
    if n < 10 then [('0' as int + n) as char]
    else NatToString(n / 10) + [('0' as int + n % 10) as char]
  }

  /** `str(i)` for any integer. */
  function IntToString(i: int): (r: string)
    ensures |r| >= 1
    ensures (r[0] == '-') <==> i < 0
  {
    if i < 0 then "-" + NatToString(-i) else NatToString(i)
  }

  /** The value of a string of decimal digits. */
  function ParseDigits(s: string): nat
    requires forall i :: 0 <= i < |s| ==> '0' <= s[i] <= '9'
  {
    if s == [] then 0 else ParseDigits(s[..|s| - 1]) * 10 + (s[|s| - 1] as int - '0' as int)
  }

  /** Reading the digits back gives the number. */
  lemma {:induction false} ParseNatToString(n: nat)
    ensures ParseDigits(NatToString(n)) == n
  {
    if n >= 10 {
      ParseNatToString(n / 10);
      var r := NatToString(n);
      assert r[..|r| - 1] == NatToString(n / 10);
    }
  }

  /** Distinct numbers print differently. */
  lemma NatToStringInjective(a: nat, b: nat)
    requires NatToString(a) == NatToString(b)
    ensures a == b
  {
    ParseNatToString(a);
    ParseNatToString(b);
  }

  /** `sep.join(parts)` for a separator of any length; the empty list joins to "". */
  function JoinWith(parts: seq<string>, sep: string): (r: string)
    ensures |parts| == 1 ==> r == parts[0]
  {
    if parts == [] then "" else if |parts| == 1 then parts[0] else parts[0] + sep + JoinWith(parts[1..], sep)
  }

  // ----- SQL LIKE -----

  /** SQL `s LIKE pattern`: `%` stands for any run of characters and `_` for any one. */
  predicate Like(s: string, pattern: string)
    decreases |s| + |pattern|
  {
    if pattern == [] then s == []
    else if pattern[0] == '%' then Like(s, pattern[1..]) || (s != [] && Like(s[1..], pattern))
    else s != [] && (pattern[0] == '_' || pattern[0] == s[0]) && Like(s[1..], pattern[1..])
  }

  /** SQLAlchemy's `column.contains(needle)`: `column LIKE '%' || needle || '%'`, so a
      `%` or `_` in the needle is a wildcard too. */
  predicate ContainsLike(s: string, needle: string) {
    Like(s, "%" + needle + "%")
  }

  /** A needle free of wildcards. */
  predicate Literal(needle: string) {
    '%' !in needle && '_' !in needle
  }

  lemma {:induction false} PercentMatchesAll(s: string)
    ensures Like(s, "%")
  {
    if s != [] {
      PercentMatchesAll(s[1..]);
    }
  }

  /** A literal followed by `%` matches exactly the strings that start with it. */
  lemma {:induction false} LiteralPrefix(t: string, n: string)
    requires Literal(n)
    ensures Like(t, n + "%") <==> StartsWith(t, n)
  {
    if n == [] {
      assert n + "%" == "%";
      PercentMatchesAll(t);
    } else {
      assert (n + "%")[1..] == n[1..] + "%";
      if t != [] {
        LiteralPrefix(t[1..], n[1..]);
        if StartsWith(t, n) {
          assert t[1..][..|n[1..]|] == n[1..];
        }
        if t[0] == n[0] && StartsWith(t[1..], n[1..]) {
          assert t[..|n|] == [t[0]] + t[1..][..|n| - 1];
        }
      }
    }
  }

  /** Without wildcards in the needle, `contains` is the substring test. */
  lemma {:induction false} LiteralContains(s: string, n: string)
    requires Literal(n)
    ensures ContainsLike(s, n) <==> Contains(s, n)
  {
    assert ("%" + n + "%")[1..] == n + "%";
    LiteralPrefix(s, n);
    if s != [] {
      LiteralContains(s[1..], n);
    }
  }

  /** A literal in front of a pattern matches itself. */
  lemma {:induction false} LiteralStep(x: string, t: string, q: string)
    requires Literal(x) && Like(t, q)
    ensures Like(x + t, x + q)
  {
    if x == [] {
      assert x + t == t && x + q == q;
    } else {
      LiteralStep(x[1..], t, q);
      assert (x + t)[1..] == x[1..] + t;
      assert (x + q)[1..] == x[1..] + q;
      assert (x + q)[0] == x[0] == (x + t)[0];
      assert x[0] in x;
    }
  }

  lemma {:induction false} ContainsShorter(s: string, n: string)
    requires Contains(s, n)
    ensures |n| <= |s|
  {
    if !StartsWith(s, n) {
      ContainsShorter(s[1..], n);
    }
  }

  /** The `LIKE` half of `UnderscoreMatchesAnyChar`. */
  lemma UnderscoreLike(pre: string, c: char, post: string)
    requires Literal(pre) && Literal(post)
    ensures ContainsLike(pre + [c] + post, pre + "_" + post)
  {
    LiteralPrefix(post, post);
    assert ("_" + post + "%")[1..] == post + "%";
    assert ([c] + post)[1..] == post;
    assert Like([c] + post, "_" + post + "%");
    LiteralStep(pre, [c] + post, "_" + post + "%");
    assert pre + ([c] + post) == pre + [c] + post;
    assert pre + ("_" + post + "%") == pre + "_" + post + "%";
    assert ("%" + (pre + "_" + post) + "%")[1..] == pre + "_" + post + "%";
  }

  /** The substring half of `UnderscoreMatchesAnyChar`. */
  lemma UnderscoreNotSubstring(pre: string, c: char, post: string)
    requires c != '_'
    ensures !Contains(pre + [c] + post, pre + "_" + post)
  {
    var s := pre + [c] + post;
    var n := pre + "_" + post;
    assert s[|pre|] == c && n[|pre|] == '_';
    if Contains(s, n) {
      if !StartsWith(s, n) {
        ContainsShorter(s[1..], n);
      }
    }
  }

  /** An `_` in the needle matches any character at its place, even one that a literal
      search would not find there. */
  lemma UnderscoreMatchesAnyChar(pre: string, c: char, post: string)
    requires Literal(pre) && Literal(post) && c != '_'
    ensures ContainsLike(pre + [c] + post, pre + "_" + post)
    ensures !Contains(pre + [c] + post, pre + "_" + post)
  {
    UnderscoreLike(pre, c, post);
    UnderscoreNotSubstring(pre, c, post);
  }

  /** `d = base.copy(); d.update(extra)` (also `{**base, **extra}`): every key of either
      side, the value of `extra` winning on a clash; `base` itself is a value and stays as it was. */
  function Merge<V>(base: map<string, V>, extra: map<string, V>): (r: map<string, V>)
    ensures r.Keys == base.Keys + extra.Keys
    ensures forall k :: k in extra ==> r[k] == extra[k]
    ensures forall k :: k in base && k !in extra ==> r[k] == base[k]
  {
    base + extra
  }

  /** Merging the same entries twice changes nothing more. */
  lemma MergeIdempotent<V>(base: map<string, V>, extra: map<string, V>)
    ensures Merge(Merge(base, extra), extra) == Merge(base, extra)
  {
  }
}

=== FILE: donations.dfy ===
/** Crediting a donation to a site (the accumulation shared by api/v1/webhook.py and
    cli/make_donor.py). */
module Donations {
  import opened Common
  import opened Models

  /** `site.donated_amount = (site.donated_amount or 0.0) + amount`; nothing else changes
      and the amount is not checked for sign. */
  function Credited(site: Site, amount: real): (r: Site)
    ensures r.Donated() == site.Donated() + amount
    ensures r.donatedAmount.Some?
    ensures LifecycleStep(site, r)
    ensures r.(donatedAmount := site.donatedAmount) == site
  {
    site.(donatedAmount := Some(site.Donated() + amount))
  }

  /** Two credits add up; a first credit starts from zero. */
  lemma CreditsAccumulate(site: Site, a: real, b: real)
    ensures Credited(Credited(site, a), b).Donated() == site.Donated() + a + b
    ensures site.donatedAmount.None? ==> Credited(site, a).Donated() == a
  {
  }

  /** A positive credit makes a donor; reaching the threshold grants the perks, which a
      non-negative credit never takes away. A negative credit can. */
  lemma CreditEffects(site: Site, amount: real)
    ensures site.Donated() >= 0.0 && amount > 0.0 ==> Credited(site, amount).IsDonor()
    ensures site.Donated() + amount >= PerksThreshold <==> Credited(site, amount).HasDonorPerks()
    ensures site.HasDonorPerks() && amount >= 0.0 ==> Credited(site, amount).HasDonorPerks()
    ensures site.HasDonorPerks() && site.Donated() + amount < PerksThreshold ==> !Credited(site, amount).HasDonorPerks()
  {
  }
}

=== FILE: ip.dfy ===
/** The client address of a request (utils/ip.py). */
module ClientIp {
  import opened Common

  /** `get_client_ip`: the first entry of a non-empty `X-Forwarded-For`, stripped; else
      the socket peer's host when there is a peer; else none. */
  function GetClientIp(forwardedFor: Option<string>, clientHost: Option<string>): (r: Option<string>)
    ensures Truthy(forwardedFor) ==> r.Some?
    ensures !Truthy(forwardedFor) ==> r == clientHost
  {
    if Truthy(forwardedFor) then Some(Strip(Split(forwardedFor.value, ',')[0])) else clientHost
  }

  /** Behind a proxy chain the first hop wins and the peer address is ignored. */
  lemma {:induction false} ForwardedFirstHop(first: string, rest: string, peer: Option<string>)
    requires ',' !in first
    ensures GetClientIp(Some(first + "," + rest), peer) == Some(Strip(first))
  {
    SplitCons(first, ',', rest);
  }

  /** A single forwarded address comes back without its surrounding blanks. */
  lemma {:induction false} ForwardedSingle(address: string, peer: Option<string>)
    requires ',' !in address && address != ""
    ensures GetClientIp(Some(address), peer) == Some(Strip(address))
  {
    SplitNoSep(address, ',');
  }

  /** An empty header counts as absent. */
  lemma EmptyHeaderIgnored(peer: Option<string>)
    ensures GetClientIp(Some(""), peer) == peer
    ensures GetClientIp(None, None) == None
  {
  }
}

=== FILE: jwt.dfy ===
/** The part of the JWT library (HS256 `jwt.encode` / `jwt.decode`) the backend relies on.
    A token either carries its claims together with the key it was signed with, or is a
    string that does not parse as a token at all. Signature checking is equality of keys:
    a token signed with any other key, or altered, fails verification. */
module Jwt {
  import opened Common

  /** The claims the backend puts into a token; `exp` is a Unix timestamp in seconds. */
  datatype Claims = Claims(
    sub: Option<string>,
    purpose: Option<string>,
    pfp: Option<string>,
    newEmail: Option<string>,
    exp: Option<int>)

  datatype Token = Signed(claims: Claims, key: string) | Malformed(raw: string)

  /** What `jwt.decode` yields: the payload, or the exception it raises. */
  datatype Decoded = Payload(claims: Claims) | ExpiredSignature | InvalidToken

  function Encode(claims: Claims, key: string): Token {
    Signed(claims, key)
  }

  /** The signature is checked first; then a present `exp` at or before `now` is expired. */
  function Decode(token: Token, key: string, now: int): (d: Decoded)
    ensures d.Payload? ==> token == Encode(d.claims, key)
    ensures d.Payload? ==> d.claims.exp.None? || now < d.claims.exp.value
    ensures d == ExpiredSignature ==> token.Signed? && token.key == key
    ensures token.Malformed? || token.key != key ==> d == InvalidToken
  {
    match token
    case Malformed(_) => InvalidToken
    case Signed(claims, k) =>
      if k != key then InvalidToken
      else if claims.exp.Some? && claims.exp.value <= now then ExpiredSignature
      else Payload(claims)
  }

  /** Decoding what was encoded with the same key returns the claims until they expire. */
  lemma DecodeEncode(claims: Claims, key: string, now: int)
    ensures Decode(Encode(claims, key), key, now)
         == if claims.exp.Some? && claims.exp.value <= now then ExpiredSignature else Payload(claims)
  {
  }
}

=== FILE: link_domain.dfy ===
/** The operator's domain command (cli/link_domain.py): an allowed domain moves the site
    to its canonical host name under that domain, anything else is linked as a custom
    domain. */
module LinkDomain {
  import opened Common
  import opened Models
  import Cli

  /** `hostname.lower().strip()`. */
  function Normalize(hostname: string): (r: string)
    ensures |r| <= |hostname|
    ensures r == [] || (!IsSpace(r[0]) && !IsSpace(r[|r| - 1]))
  {
    Strip(Lower(hostname))
  }

  predicate NoCapital(s: string) {
    forall i :: 0 <= i < |s| ==> !('A' <= s[i] <= 'Z')
  }

  lemma {:induction false} StripLeftNoCapital(s: string)
    requires NoCapital(s)
    ensures NoCapital(StripLeft(s))
  {
    if |s| > 0 && IsSpace(s[0]) {
      var tail := s[1..];
      assert NoCapital(tail) by {
        forall i | 0 <= i < |tail| ensures !('A' <= tail[i] <= 'Z') {
          assert tail[i] == s[i + 1];
        }
      }
      StripLeftNoCapital(s[1..]);
    }
  }

  lemma {:induction false} StripRightNoCapital(s: string)
    requires NoCapital(s)
    ensures NoCapital(StripRight(s))
  {
    if |s| > 0 && IsSpace(s[|s| - 1]) {
      var init := s[..|s| - 1];
      assert NoCapital(init) by {
        forall i | 0 <= i < |init| ensures !('A' <= init[i] <= 'Z') {
          assert init[i] == s[i];
        }
      }
      StripRightNoCapital(s[..|s| - 1]);
    }
  }

  /** The normalized name holds no ASCII capital. */
  lemma NormalizeIsLower(hostname: string)
    ensures NoCapital(Normalize(hostname))
  {
    StripLeftNoCapital(Lower(hostname));
    StripRightNoCapital(StripLeft(Lower(hostname)));
  }

  /** `hostname == domain or hostname.endswith("." + domain)`. */
  predicate UnderDomain(hostname: string, domain: string) {
    hostname == domain || EndsWith(hostname, "." + domain)
  }

  /** The first of `domains` the name is, or lies under. */
  function FirstParent(domains: seq<string>, hostname: string): (r: Option<string>)
    ensures r.Some? ==>
      exists i :: 0 <= i < |domains| && domains[i] == r.value && UnderDomain(hostname, domains[i])
                  && (forall j :: 0 <= j < i ==> !UnderDomain(hostname, domains[j]))
    ensures r.None? ==> forall i :: 0 <= i < |domains| ==> !UnderDomain(hostname, domains[i])
  {
    if domains == [] then None
    else if UnderDomain(hostname, domains[0]) then Some(domains[0])
    else
      var rest := FirstParent(domains[1..], hostname);
      if rest.Some? then
        var i :| 0 <= i < |domains[1..]| && domains[1..][i] == rest.value && UnderDomain(hostname, domains[1..][i])
                 && (forall j :: 0 <= j < i ==> !UnderDomain(hostname, domains[1..][j]));
        assert forall j :: 0 <= j < i + 1 ==> !UnderDomain(hostname, domains[j]) by {
          forall j | 0 <= j < i + 1 ensures !UnderDomain(hostname, domains[j]) {
            if j > 0 { assert domains[j] == domains[1..][j - 1]; }
          }
        }
        assert domains[i + 1] == rest.value && UnderDomain(hostname, domains[i + 1]);
        rest
      else
        assert forall i :: 0 <= i < |domains| ==> !UnderDomain(hostname, domains[i]) by {
          forall i | 0 <= i < |domains| ensures !UnderDomain(hostname, domains[i]) {
            if i > 0 { assert domains[i] == domains[1..][i - 1]; }
          }
        }
        rest
  }

  /** `_extract_parent_domain`: the first allowed domain the name is, or lies under. */
  method ExtractParentDomain(domains: seq<string>, hostname: string) returns (parent: Option<string>)
    ensures parent == FirstParent(domains, hostname)
    ensures parent.Some? ==>
      exists i :: 0 <= i < |domains| && domains[i] == parent.value && UnderDomain(hostname, domains[i])
                  && (forall j :: 0 <= j < i ==> !UnderDomain(hostname, domains[j]))
    ensures parent.None? ==> forall i :: 0 <= i < |domains| ==> !UnderDomain(hostname, domains[i])
  {
    var i := 0;
    while i < |domains|
      invariant 0 <= i <= |domains|
      invariant forall j :: 0 <= j < i ==> !UnderDomain(hostname, domains[j])
      invariant FirstParent(domains, hostname) == FirstParent(domains[i..], hostname)
    {
      assert domains[i..][1..] == domains[i + 1..];
      if hostname == domains[i] || EndsWith(hostname, "." + domains[i]) {
        return Some(domains[i]);
      }
      i := i + 1;
    }
    return None;
  }

  /** What the command does once its checks pass: move to the canonical name through
      `unlink_custom_domain`, or link the typed name through `link_custom_domain`. */
  datatype LinkAction = ChangeDomain(site: Site, canonical: string) | LinkCustom(site: Site, hostname: string)

  function AlreadyUsing(canonical: string): string {
    "Error: site is already using '" + canonical + "'"
  }

  /** `_main`. `domainError` is the message of the `DomainAlreadyLinkedError` or
      `CNAMENotFoundError` the custom-domain collaborator raises, if it does. */
  method LinkDomain(rows: seq<Site>, domains: seq<string>, rawHostname: string, identifier: string,
                    domainError: Option<string>) returns (r: Outcome<LinkAction>)
    ensures var found := GetByIdentifier(rows, identifier, false);
      && (found == NoRow ==> r == Fail(Cli.ExitFailure, Cli.ActiveSiteNotFound(identifier)))
      && (found == MultipleRows ==> r == Fail(Cli.ExitFailure, Cli.UncaughtError))
      && (found.Row? && domainError.Some? ==> r.Fail? && r.status == Cli.ExitFailure)
    ensures r.Ok? ==> domainError.None? && GetByIdentifier(rows, identifier, false) == Row(r.value.site)
    ensures r.Ok? && r.value.ChangeDomain? ==>
      exists i :: 0 <= i < |domains| && UnderDomain(Normalize(rawHostname), domains[i])
                  && r.value.canonical == r.value.site.tag + "." + domains[i]
                  && r.value.site.hostname != r.value.canonical
                  && (forall j :: 0 <= j < i ==> !UnderDomain(Normalize(rawHostname), domains[j]))
    ensures var found := GetByIdentifier(rows, identifier, false);
      var hostname := Normalize(rawHostname);
      var parent := FirstParent(domains, hostname);
      found.Row? ==>
        && (parent.Some? && found.site.hostname == found.site.tag + "." + parent.value ==>
              r == Fail(Cli.ExitFailure, AlreadyUsing(found.site.tag + "." + parent.value)))
        && (parent.Some? && found.site.hostname != found.site.tag + "." + parent.value && domainError.None? ==>
              r == Ok(ChangeDomain(found.site, found.site.tag + "." + parent.value)))
        && (parent.None? && domainError.None? ==> r == Ok(LinkCustom(found.site, hostname)))
        && (parent.Some? && found.site.hostname != found.site.tag + "." + parent.value && domainError.Some? ==>
              r == Fail(Cli.ExitFailure, "Error: " + domainError.value))
        && (parent.None? && domainError.Some? ==> r == Fail(Cli.ExitFailure, "Error: " + domainError.value))
    ensures r.Ok? && r.value.LinkCustom? ==>
      r.value.hostname == Normalize(rawHostname)
      && forall i :: 0 <= i < |domains| ==> !UnderDomain(Normalize(rawHostname), domains[i])
  {
    var hostname := Normalize(rawHostname);
    var found := GetByIdentifier(rows, identifier, false);
    if found == NoRow {
      return Fail(Cli.ExitFailure, Cli.ActiveSiteNotFound(identifier));
    }
    if found == MultipleRows {
      return Fail(Cli.ExitFailure, Cli.UncaughtError);
    }
    var site := found.site;
    var parent := ExtractParentDomain(domains, hostname);
    if parent.Some? {
      var canonical := site.tag + "." + parent.value;
      if site.hostname == canonical {
        return Fail(Cli.ExitFailure, AlreadyUsing(canonical));
      }
      if domainError.Some? {
        return Fail(Cli.ExitFailure, "Error: " + domainError.value);
      }
      return Ok(ChangeDomain(site, canonical));
    }
    if domainError.Some? {
      return Fail(Cli.ExitFailure, "Error: " + domainError.value);
    }
    r := Ok(LinkCustom(site, hostname));
  }
}

=== FILE: listing.dfy ===
/** The operator's listing command (cli/list_sites.py): command-line options become query
    conditions, two more conditions are applied after the query, and the matches are
    tabulated and counted. */
module SiteListing {
  import opened Common
  import opened Models
  import Cli
  import Table

  const NoMatchMessage: string := "No sites match the given filters."

  const RemovedStatus: string := "removed"
  const NotInstalledStatus: string := "not installed"
  const ActiveStatus: string := "active"

  /** The parsed options; `removed` and `active` are a mutually exclusive group, so the
      parser never yields both. */
  datatype ListOptions = ListOptions(
    siteType: Option<string>,
    removed: bool,
    active: bool,
    donors: bool,
    notInstalled: bool,
    email: Option<string>,
    domain: Option<string>,
    ip: Option<string>,
    country: Option<string>,
    hasBackup: bool,
    checkBackups: bool,
    hostBackups: bool)

  /** The condition of one option when it is given. */
  function Opt(given: bool, f: Filter): seq<Filter> {
    if given then [f] else []
  }

  /** The conditions of the options, in the order they are appended. */
  function OptionFilters(o: ListOptions): seq<Filter> {
    Opt(Truthy(o.siteType), SiteTypeIs(o.siteType.GetOr("")))
    + Opt(o.donors, DonatedAbove(0.0))
    + Opt(o.notInstalled, InstalledAtIsNull)
    + Opt(Truthy(o.email), AdminEmailContains(o.email.GetOr("")))
    + Opt(Truthy(o.domain), HostnameContains(o.domain.GetOr("")))
    + Opt(Truthy(o.ip), Or(CreatedIpIs(o.ip.GetOr("")), LastLoginIpIs(o.ip.GetOr(""))))
    + Opt(o.removed, RemovedAtIsNotNull)
  }

  /** `match_removed`: only `--active` hides removed sites. */
  function MatchRemoved(o: ListOptions): bool {
    o.removed || !o.active
  }

  /** What the options ask of a site, stated condition by condition. */
  predicate Wanted(o: ListOptions, s: Site) {
    && (Truthy(o.siteType) ==> s.siteType == o.siteType.value)
    && (o.donors ==> s.IsDonor())
    && (o.notInstalled ==> !s.IsInstalled())
    && (Truthy(o.email) ==> ContainsLike(s.adminEmail, o.email.value))
    && (Truthy(o.domain) ==> ContainsLike(s.hostname, o.domain.value))
    && (Truthy(o.ip) ==> s.createdIp == Some(o.ip.value) || s.lastLoginIp == Some(o.ip.value))
    && (o.removed ==> s.IsRemoved())
    && (!o.removed && o.active ==> !s.IsRemoved())
  }

  lemma AllHoldAppend(a: seq<Filter>, b: seq<Filter>, s: Site)
    ensures AllHold(a + b, s) <==> AllHold(a, s) && AllHold(b, s)
  {
    if AllHold(a, s) && AllHold(b, s) {
      forall k | 0 <= k < |a + b| ensures Holds((a + b)[k], s) {
        if k >= |a| { assert (a + b)[k] == b[k - |a|]; }
      }
    }
    if AllHold(a + b, s) {
      forall k | 0 <= k < |a| ensures Holds(a[k], s) {
        assert (a + b)[k] == a[k];
      }
      forall k | 0 <= k < |b| ensures Holds(b[k], s) {
        assert (a + b)[|a| + k] == b[k];
      }
    }
  }

  lemma OptHolds(given: bool, f: Filter, s: Site)
    ensures AllHold(Opt(given, f), s) <==> (given ==> Holds(f, s))
  {
    if given {
      assert Opt(given, f)[0] == f;
    }
  }

  /** Each given option contributes its condition and nothing else. */
  lemma OptionFiltersHold(o: ListOptions, s: Site)
    ensures AllHold(OptionFilters(o), s) <==>
      && (Truthy(o.siteType) ==> Holds(SiteTypeIs(o.siteType.GetOr("")), s))
      && (o.donors ==> Holds(DonatedAbove(0.0), s))
      && (o.notInstalled ==> Holds(InstalledAtIsNull, s))
      && (Truthy(o.email) ==> Holds(AdminEmailContains(o.email.GetOr("")), s))
      && (Truthy(o.domain) ==> Holds(HostnameContains(o.domain.GetOr("")), s))
      && (Truthy(o.ip) ==> Holds(Or(CreatedIpIs(o.ip.GetOr("")), LastLoginIpIs(o.ip.GetOr(""))), s))
      && (o.removed ==> Holds(RemovedAtIsNotNull, s))
  {
    var f1 := Opt(Truthy(o.siteType), SiteTypeIs(o.siteType.GetOr("")));
    var f2 := Opt(o.donors, DonatedAbove(0.0));
    var f3 := Opt(o.notInstalled, InstalledAtIsNull);
    var f4 := Opt(Truthy(o.email), AdminEmailContains(o.email.GetOr("")));
    var f5 := Opt(Truthy(o.domain), HostnameContains(o.domain.GetOr("")));
    var f6 := Opt(Truthy(o.ip), Or(CreatedIpIs(o.ip.GetOr("")), LastLoginIpIs(o.ip.GetOr(""))));
    var f7 := Opt(o.removed, RemovedAtIsNotNull);
    OptHolds(Truthy(o.siteType), SiteTypeIs(o.siteType.GetOr("")), s);
    OptHolds(o.donors, DonatedAbove(0.0), s);
    OptHolds(o.notInstalled, InstalledAtIsNull, s);
    OptHolds(Truthy(o.email), AdminEmailContains(o.email.GetOr("")), s);
    OptHolds(Truthy(o.domain), HostnameContains(o.domain.GetOr("")), s);
    OptHolds(Truthy(o.ip), Or(CreatedIpIs(o.ip.GetOr("")), LastLoginIpIs(o.ip.GetOr(""))), s);
    OptHolds(o.removed, RemovedAtIsNotNull, s);
    AllHoldAppend(f1, f2, s);
    AllHoldAppend(f1 + f2, f3, s);
    AllHoldAppend(f1 + f2 + f3, f4, s);
    AllHoldAppend(f1 + f2 + f3 + f4, f5, s);
    AllHoldAppend(f1 + f2 + f3 + f4 + f5, f6, s);
    AllHoldAppend(f1 + f2 + f3 + f4 + f5 + f6, f7, s);
  }

  /** The query the options build selects exactly the wanted sites. */
  lemma QueryMeaning(o: ListOptions, s: Site)
    ensures AllHold(OptionFilters(o), s) && (MatchRemoved(o) || !s.IsRemoved()) <==> Wanted(o, s)
  {
    OptionFiltersHold(o, s);
    var ip := o.ip.GetOr("");
    assert Holds(Or(CreatedIpIs(ip), LastLoginIpIs(ip)), s) <==> s.createdIp == Some(ip) || s.lastLoginIp == Some(ip);
    assert Holds(DonatedAbove(0.0), s) <==> s.IsDonor();
  }

  /** `--country`, compared upper-cased with either recorded address's country;
      `countryOf` is the GeoIP lookup. */
  predicate InCountry(s: Site, cc: string, countryOf: string -> Option<string>) {
    (s.createdIp.Some? && countryOf(s.createdIp.value) == Some(cc))
    || (s.lastLoginIp.Some? && countryOf(s.lastLoginIp.value) == Some(cc))
  }

  /** The filters applied after the query, keeping the order of the rows; `backupExists`
      says whether a tag has an attic backup on disk. */
  function PostFilter(sites: seq<Site>, o: ListOptions, countryOf: string -> Option<string>,
                      backupExists: string -> bool): (r: seq<Site>)
    ensures |r| <= |sites|
    ensures forall s :: s in r <==>
      s in sites
      && (Truthy(o.country) ==> InCountry(s, Upper(o.country.value), countryOf))
      && (o.hasBackup ==> backupExists(s.tag))
  {
    if sites == [] then []
    else
      var s := sites[0];
      var keep := (Truthy(o.country) ==> InCountry(s, Upper(o.country.value), countryOf))
                  && (o.hasBackup ==> backupExists(s.tag));
      (if keep then [s] else []) + PostFilter(sites[1..], o, countryOf, backupExists)
  }

  /** The sites the command lists. */
  function Selected(rows: seq<Site>, o: ListOptions, countryOf: string -> Option<string>,
                    backupExists: string -> bool): seq<Site> {
    PostFilter(GetAllActive(rows, OptionFilters(o), MatchRemoved(o)), o, countryOf, backupExists)
  }

  /** A site is listed exactly when it is in the table, the options want it and it passes
      the post-query filters. */
  lemma SelectedMeaning(rows: seq<Site>, o: ListOptions, countryOf: string -> Option<string>,
                        backupExists: string -> bool, s: Site)
    ensures s in Selected(rows, o, countryOf, backupExists) <==>
      s in rows && Wanted(o, s)
      && (Truthy(o.country) ==> InCountry(s, Upper(o.country.value), countryOf))
      && (o.hasBackup ==> backupExists(s.tag))
  {
    QueryMeaning(o, s);
  }

  /** Without options every site is listed, removed ones included. */
  lemma NoOptionsListsAll(rows: seq<Site>, countryOf: string -> Option<string>, backupExists: string -> bool, s: Site)
    requires s in rows
    ensures s in Selected(rows, ListOptions(None, false, false, false, false, None, None, None, None, false, false, false),
                          countryOf, backupExists)
  {
    SelectedMeaning(rows, ListOptions(None, false, false, false, false, None, None, None, None, false, false, false),
                    countryOf, backupExists, s);
  }

  /** `_status`. */
  function Status(s: Site): (r: string)
    ensures r == RemovedStatus <==> s.IsRemoved()
    ensures r == NotInstalledStatus <==> !s.IsRemoved() && !s.IsInstalled()
    ensures r == ActiveStatus <==> !s.IsRemoved() && s.IsInstalled()
  {
    if s.IsRemoved() then RemovedStatus
    else if !s.IsInstalled() then NotInstalledStatus
    else ActiveStatus
  }

  predicate StatusActive(s: Site) { Status(s) == ActiveStatus }
  predicate StatusRemoved(s: Site) { Status(s) == RemovedStatus }
  predicate StatusNotInstalled(s: Site) { Status(s) == NotInstalledStatus }
  predicate NotInstalled(s: Site) { !s.IsInstalled() }
  predicate Donor(s: Site) { s.IsDonor() }
  predicate RemovedBeforeInstalled(s: Site) { s.IsRemoved() && !s.IsInstalled() }

  /** How many of `sites` satisfy `p`. */
  function CountIf(sites: seq<Site>, p: Site -> bool): (n: nat)
    ensures n <= |sites|
  {
    if sites == [] then 0
    else CountIf(sites[..|sites| - 1], p) + (if p(sites[|sites| - 1]) then 1 else 0)
  }

  lemma CountStep(sites: seq<Site>, i: nat, p: Site -> bool)
    requires i < |sites|
    ensures CountIf(sites[..i + 1], p) == CountIf(sites[..i], p) + (if p(sites[i]) then 1 else 0)
  {
    assert sites[..i + 1][..i] == sites[..i];
  }

  /** Every listed site has exactly one status, and the not-installed counter also counts
      the removed sites that never finished installing. */
  lemma {:induction false} CountersPartition(sites: seq<Site>)
    ensures CountIf(sites, StatusActive) + CountIf(sites, StatusRemoved) + CountIf(sites, StatusNotInstalled) == |sites|
    ensures CountIf(sites, NotInstalled) == CountIf(sites, StatusNotInstalled) + CountIf(sites, RemovedBeforeInstalled)
  {
    if sites != [] {
      CountersPartition(sites[..|sites| - 1]);
    }
  }

  /** The DONOR cell; `showMoney` is the `:.2f` rendering. */
  function DonorCell(s: Site, showMoney: real -> string): (r: string)
    ensures r == "" <==> !s.IsDonor() || showMoney(s.Donated()) + " EUR" == ""
  {
    if s.IsDonor() then showMoney(s.Donated()) + " EUR" else ""
  }

  /** The column headers, with the optional backup columns at the end. */
  function Headers(o: ListOptions): (r: seq<string>)
    ensures |r| == 7 + (if o.checkBackups then 1 else 0) + (if o.hostBackups then 1 else 0)
    ensures r[..7] == ["TAG", "TYPE", "HOSTNAME", "EMAIL", "CREATED", "STATUS", "DONOR"]
    ensures ("HAS_BACKUP" in r <==> o.checkBackups) && ("LAST_BACKUP" in r <==> o.hostBackups)
    ensures o.checkBackups ==> r[7] == "HAS_BACKUP"
    ensures o.hostBackups ==> r[|r| - 1] == "LAST_BACKUP"
  {
    ["TAG", "TYPE", "HOSTNAME", "EMAIL", "CREATED", "STATUS", "DONOR"]
    + (if o.checkBackups then ["HAS_BACKUP"] else [])
    + (if o.hostBackups then ["LAST_BACKUP"] else [])
  }

  /** The rendering collaborators: the `%Y-%m-%d` date, the money amount, and the backup
      probes on disk. */
  datatype Render = Render(
    showDate: int -> string,
    showMoney: real -> string,
    backupExists: string -> bool,
    latestBackup: string -> Option<string>)

  /** One table row, cell for cell under `Headers(o)`. */
  function RowOf(s: Site, o: ListOptions, render: Render): (r: seq<string>)
    ensures |r| == |Headers(o)|
    ensures r[0] == s.tag && r[1] == s.siteType && r[2] == s.hostname && r[3] == s.adminEmail
    ensures r[5] == Status(s)
  {
    [s.tag, s.siteType, s.hostname, s.adminEmail, render.showDate(s.createdAt), Status(s),
     DonorCell(s, render.showMoney)]
    + (if o.checkBackups then [if render.backupExists(s.tag) then "yes" else "no"] else [])
    + (if o.hostBackups then [render.latestBackup(s.tag).GetOr("-")] else [])
  }

  /** The parts of the summary line: the not-installed part appears only when non-zero. */
  function SummaryParts(nActive: nat, nRemoved: nat, nNotInstalled: nat, nDonors: nat): (r: seq<string>)
    ensures |r| == if nNotInstalled == 0 then 3 else 4
    ensures r[0] == IntToString(nActive) + " active" && r[1] == IntToString(nRemoved) + " removed"
    ensures r[|r| - 1] == IntToString(nDonors) + " donors"
    ensures nNotInstalled != 0 ==> r[2] == IntToString(nNotInstalled) + " not installed"
  {
    [IntToString(nActive) + " active", IntToString(nRemoved) + " removed"]
    + (if nNotInstalled != 0 then [IntToString(nNotInstalled) + " not installed"] else [])
    + [IntToString(nDonors) + " donors"]
  }

  /** What the command prints: the table and the summary after it. */
  datatype Listing = Listing(
    headers: seq<string>,
    rows: seq<seq<string>>,
    widths: seq<nat>,
    total: nat,
    parts: seq<string>)

  /** The loop of `_main` over the listed sites: one row each, and the four counters. */
  method Tabulate(sites: seq<Site>, o: ListOptions, render: Render)
    returns (table: seq<seq<string>>, nActive: nat, nRemoved: nat, nNotInstalled: nat, nDonors: nat)
    ensures |table| == |sites|
    ensures forall k :: 0 <= k < |sites| ==> table[k] == RowOf(sites[k], o, render)
    ensures nActive == CountIf(sites, StatusActive) && nRemoved == CountIf(sites, StatusRemoved)
    ensures nNotInstalled == CountIf(sites, NotInstalled) && nDonors == CountIf(sites, Donor)
  {
    table := [];
    nActive, nRemoved, nNotInstalled, nDonors := 0, 0, 0, 0;
    for i := 0 to |sites|
      invariant |table| == i
      invariant forall k :: 0 <= k < i ==> table[k] == RowOf(sites[k], o, render)
      invariant nActive == CountIf(sites[..i], StatusActive) && nRemoved == CountIf(sites[..i], StatusRemoved)
      invariant nNotInstalled == CountIf(sites[..i], NotInstalled) && nDonors == CountIf(sites[..i], Donor)
    {
      var site := sites[i];
      CountStep(sites, i, StatusActive);
      CountStep(sites, i, StatusRemoved);
      CountStep(sites, i, NotInstalled);
      CountStep(sites, i, Donor);
      var status := Status(site);
      if status == ActiveStatus {
        nActive := nActive + 1;
      } else if status == RemovedStatus {
        nRemoved := nRemoved + 1;
      }
      if !site.IsInstalled() {
        nNotInstalled := nNotInstalled + 1;
      }
      if site.IsDonor() {
        nDonors := nDonors + 1;
      }
      table := table + [RowOf(site, o, render)];
    }
    assert sites[..|sites|] == sites;
  }

  /** `_main` after argument parsing; nothing is written to the table. */
  method ListSitesCommand(rows: seq<Site>, o: ListOptions, countryOf: string -> Option<string>, render: Render)
    returns (r: Outcome<Listing>)
    ensures var sites := Selected(rows, o, countryOf, render.backupExists);
      && (r.Fail? <==> sites == [])
      && (r.Fail? ==> r == Fail(Cli.ExitFailure, NoMatchMessage))
      && (r.Ok? ==>
            && r.value.headers == Headers(o)
            && r.value.total == |sites|
            && |r.value.rows| == |sites|
            && (forall k :: 0 <= k < |sites| ==> r.value.rows[k] == RowOf(sites[k], o, render))
            && |r.value.widths| == |r.value.headers|
            && (forall c :: 0 <= c < |r.value.headers| ==> r.value.widths[c] == Table.Width(r.value.headers, r.value.rows, c))
            && r.value.parts == SummaryParts(CountIf(sites, StatusActive), CountIf(sites, StatusRemoved),
                                             CountIf(sites, NotInstalled), CountIf(sites, Donor)))
  {
    var sites := Selected(rows, o, countryOf, render.backupExists);
    if sites == [] {
      return Fail(Cli.ExitFailure, NoMatchMessage);
    }
    var headers := Headers(o);
    var table, nActive, nRemoved, nNotInstalled, nDonors := Tabulate(sites, o, render);
    var widths := Table.ColumnWidths(headers, table);
    r := Ok(Listing(headers, table, widths, |sites|, SummaryParts(nActive, nRemoved, nNotInstalled, nDonors)));
  }
}

=== FILE: make_donor.dfy ===
/** The operator's donation command (cli/make_donor.py). */
module MakeDonor {
  import opened Common
  import opened Models
  import Cli
  import Donations

  /** `_main`: credits `amount` to the active site the identifier names, and thanks its
      administrator only for a positive amount, saying whether the new total grants perks.
      `configOk` says whether the awaited `update_config` returned; when it raises, the
      credit is already committed and no mail is sent. */
  method MakeDonor(store: TenantStore, identifier: string, amount: real, configOk: bool) returns (r: Outcome<Site>)
    requires store.Valid()
    modifies store
    ensures store.Valid() && Evolves(old(store.rows), store.rows)
    ensures store.jobs == old(store.jobs)
    ensures var found := GetByIdentifier(old(store.rows), identifier, false);
      && (found == NoRow ==> r == Fail(Cli.ExitFailure, Cli.ActiveSiteNotFound(identifier)) && unchanged(store))
      && (found == MultipleRows ==> r == Fail(Cli.ExitFailure, Cli.UncaughtError) && unchanged(store))
      && (found.Row? ==>
            var credited := Donations.Credited(found.site, amount);
            && store.rows == Replace(old(store.rows), credited)
            && (!configOk ==> r == Fail(Cli.ExitFailure, Cli.UncaughtError) && store.outbox == old(store.outbox))
            && (configOk ==> r == Ok(credited))
            && (configOk ==>
                  store.outbox == old(store.outbox)
                    + (if amount > 0.0 then [ThankYouMail(found.site.adminEmail, amount, credited.Donated(), credited.HasDonorPerks())]
                       else [])))
  {
    LookupMeaning(store.rows, IdentifierFilter(identifier), false);
    var found := GetByIdentifier(store.rows, identifier, false);
    if found == NoRow {
      return Fail(Cli.ExitFailure, Cli.ActiveSiteNotFound(identifier));
    }
    if found == MultipleRows {
      return Fail(Cli.ExitFailure, Cli.UncaughtError);
    }
    var site := found.site;
    var credited := Donations.Credited(site, amount);
    store.Commit(site, credited);
    if !configOk {
      return Fail(Cli.ExitFailure, Cli.UncaughtError);
    }
    if amount > 0.0 {
      store.Send(ThankYouMail(site.adminEmail, amount, credited.Donated(), credited.HasDonorPerks()));
    }
    r := Ok(credited);
  }

  /** The command only ever credits an active site that the identifier names. */
  lemma CreditsNamedSite(rows: seq<Site>, identifier: string)
    requires GetByIdentifier(rows, identifier, false).Row?
    ensures var s := GetByIdentifier(rows, identifier, false).site;
      s in rows && !s.IsRemoved()
      && (s.tag == identifier || s.adminEmail == identifier || s.hostname == identifier)
  {
    LookupMeaning(rows, IdentifierFilter(identifier), false);
    var s := GetByIdentifier(rows, identifier, false).site;
    assert Holds(IdentifierFilter(identifier), s);
    assert Holds(Or(TagIs(identifier), AdminEmailIs(identifier)), s) || Holds(HostnameIs(identifier), s);
  }
}

=== FILE: mediawiki.dfy ===
/** The MediaWiki settings endpoints (api/v1/service_settings/mediawiki.py): the default
    skin, the logo and the favicon, all kept in the `mediawiki` section of the tenant's
    configuration. The configuration is a value here: loading it and writing it back are
    file operations outside the model, and `update_config` is `Common.Merge` of the new
    section into it. */
module MediaWiki {
  import opened Common
  import Models

  /** A JSON value of the tenant configuration; numbers, booleans, null and lists are all
      `OtherValue`, since no endpoint here looks inside them. */
  datatype ConfigValue = Text(text: string) | Section(entries: map<string, ConfigValue>) | OtherValue

  type Config = map<string, ConfigValue>

  const SectionKey: string := "mediawiki"
  const SiteType: string := "mediawiki"

  /** `MAX_BRANDING_UPLOAD_SIZE`, in bytes (3 MiB, whatever the comment and message say). */
  const MaxBrandingUploadSize: nat := 3 * 1024 * 1024

  const TooLargeMessage: string := "File too large (max 2 MB)"
  const PublicDir: string := "app/public"
  const LogoDest: string := "/images/branding/logo"
  const FaviconDest: string := "/favicon"

  const AllowedDefaultSkins: set<string> := {"vector-2022", "citizen", "minerva", "timeless"}

  /** `ALLOWED_BRANDING_IMAGE_TYPES`: content type to file extension. */
  const BrandingImageTypes: map<string, string> := map[
    "image/png" := ".png",
    "image/svg+xml" := ".svg",
    "image/x-icon" := ".ico",
    "image/vnd.microsoft.icon" := ".ico",
    "image/jpeg" := ".jpg"]

  /** Python's ordering of strings: character by character, a proper prefix first. */
  predicate StrLess(a: string, b: string) {
    if a == [] then b != []
    else if b == [] then false
    else if a[0] != b[0] then a[0] < b[0]
    else StrLess(a[1..], b[1..])
  }

  predicate StrictlySorted(xs: seq<string>) {
    forall i, j :: 0 <= i < j < |xs| ==> StrLess(xs[i], xs[j])
  }

  /** `get_default_skins`: `sorted(ALLOWED_DEFAULT_SKINS)`, every allowed skin once, in
      order. */
  function GetDefaultSkins(): (r: seq<string>)
    ensures StrictlySorted(r)
    ensures |r| == |AllowedDefaultSkins|
    ensures forall s :: s in r <==> s in AllowedDefaultSkins
  {
    var r := ["citizen", "minerva", "timeless", "vector-2022"];
    assert StrLess(r[0], r[1]) && StrLess(r[1], r[2]) && StrLess(r[2], r[3]);
    assert StrLess(r[0], r[2]) && StrLess(r[0], r[3]) && StrLess(r[1], r[3]);
    assert AllowedDefaultSkins == {r[0], r[1], r[2], r[3]};
    r
  }

  /** The 422 detail of `set_default_skin`. */
  function InvalidSkinMessage(): string {
    "Invalid default skin. Allowed: " + JoinWith(GetDefaultSkins(), ", ")
  }

  /** `config.get("mediawiki", {})` and the use made of it: a missing section is empty, and
      a value that is not an object makes the endpoint fail (`AttributeError` on `.get`,
      `TypeError` on item assignment). */
  function MwSection(config: Config): (r: Outcome<map<string, ConfigValue>>)
    ensures SectionKey !in config ==> r == Ok(map[])
    ensures SectionKey in config && config[SectionKey].Section? ==> r == Ok(config[SectionKey].entries)
    ensures SectionKey in config && !config[SectionKey].Section? ==> r == Fail(500, InternalServerError)
  {
    if SectionKey !in config then Ok(map[])
    else match config[SectionKey]
      case Section(entries) => Ok(entries)
      case _ => Fail(500, InternalServerError)
  }

  /** `_set_mw_conf`: one key of the section set, the rest of the section and every other
      key of the configuration kept. */
  function SetMwConf(config: Config, key: string, value: string): (r: Outcome<Config>)
    ensures r.Fail? <==> MwSection(config).Fail?
    ensures r.Fail? ==> r == Fail(500, InternalServerError)
    ensures r.Ok? ==>
      && r.value.Keys == config.Keys + {SectionKey}
      && (forall k :: k in config && k != SectionKey ==> r.value[k] == config[k])
      && MwSection(r.value).Ok?
      && MwSection(r.value).value.Keys == MwSection(config).value.Keys + {key}
      && key in MwSection(r.value).value && MwSection(r.value).value[key] == Text(value)
      && (forall k :: k in MwSection(config).value && k != key ==>
            MwSection(r.value).value[k] == MwSection(config).value[k])
  {
    match MwSection(config)
    case Fail(status, detail) => Fail(status, detail)
    case Ok(mw) => Ok(Merge(config, map[SectionKey := Section(mw[key := Text(value)])]))
  }

  /** Setting a key to the value it already holds leaves an existing section as it was. */
  lemma SetMwConfIdempotent(config: Config, key: string, value: string)
    requires SetMwConf(config, key, value).Ok?
    ensures SetMwConf(SetMwConf(config, key, value).value, key, value) == SetMwConf(config, key, value)
  {
    var c1 := SetMwConf(config, key, value).value;
    var mw1 := MwSection(c1).value;
    assert mw1[key := Text(value)] == mw1;
    assert Merge(c1, map[SectionKey := Section(mw1)]) == c1;
  }

  /** `set_default_skin`: a skin outside the allow-list is refused and nothing is written;
      an allowed one becomes `mediawiki.skin`. */
  function SetDefaultSkin(config: Config, skin: string): (r: Outcome<Config>)
    ensures skin !in AllowedDefaultSkins ==> r == Fail(422, InvalidSkinMessage())
    ensures skin in AllowedDefaultSkins ==> r == SetMwConf(config, "skin", skin)
    ensures r.Ok? ==> skin in AllowedDefaultSkins && GetSetting(r.value, "skin") == Ok(Some(Text(skin)))
  {
    if skin !in AllowedDefaultSkins then Fail(422, InvalidSkinMessage())
    else SetMwConf(config, "skin", skin)
  }

  /** `mw.get(key)`, as read by `get_logo` and `get_favicon`: `None` when unset. */
  function GetSetting(config: Config, key: string): (r: Outcome<Option<ConfigValue>>)
    ensures r.Fail? <==> MwSection(config).Fail?
    ensures r.Ok? && r.value.None? <==> MwSection(config).Ok? && key !in MwSection(config).value
    ensures r.Ok? && r.value.Some? ==> key in MwSection(config).value && r.value.value == MwSection(config).value[key]
  {
    match MwSection(config)
    case Fail(status, detail) => Fail(status, detail)
    case Ok(mw) => Ok(if key in mw then Some(mw[key]) else None)
  }

  function GetLogo(config: Config): Outcome<Option<ConfigValue>> {
    GetSetting(config, "logo")
  }

  function GetFavicon(config: Config): Outcome<Option<ConfigValue>> {
    GetSetting(config, "favicon")
  }

  /** A fresh configuration has neither a logo nor a favicon. */
  lemma NoBrandingByDefault()
    ensures GetLogo(map[]) == Ok(None) && GetFavicon(map[]) == Ok(None)
  {
  }

  /** Writing one setting is visible to the reader of that setting and invisible to the
      reader of another. */
  lemma SettingReadBack(config: Config, key: string, other: string, value: string)
    requires SetMwConf(config, key, value).Ok? && other != key
    ensures GetSetting(SetMwConf(config, key, value).value, key) == Ok(Some(Text(value)))
    ensures GetSetting(SetMwConf(config, key, value).value, other) == GetSetting(config, other)
  {
  }

  /** `f"Unsupported file type '{file.content_type}'"`; an absent type prints as `None`. */
  function UnsupportedTypeMessage(contentType: Option<string>): string {
    "Unsupported file type '" + contentType.GetOr("None") + "'"
  }

  /** A file handed to `write_tenant_file`, relative to the tenant's directory. */
  datatype FileWrite = FileWrite(path: string, content: seq<bv8>)

  /** What `_upload_branding` did: the file it wrote (if any), its response and the
      configuration afterwards. */
  datatype Branding = Branding(written: Option<FileWrite>, response: Outcome<string>, config: Config)

  /** `file.read(MAX_BRANDING_UPLOAD_SIZE + 1)`: at most one byte more than allowed. */
  function ReadLimited(upload: seq<bv8>): (r: seq<bv8>)
    ensures |r| <= MaxBrandingUploadSize + 1
    ensures |upload| <= MaxBrandingUploadSize + 1 ==> r == upload
    ensures |r| > MaxBrandingUploadSize <==> |upload| > MaxBrandingUploadSize
  {
    if |upload| <= MaxBrandingUploadSize + 1 then upload else upload[..MaxBrandingUploadSize + 1]
  }

  /** `_upload_branding`: the type is checked before anything is read, the size before
      anything is written, and the configuration is updated after the file is written. */
  function UploadBranding(config: Config, contentType: Option<string>, upload: seq<bv8>, asset: string, destRel: string)
    : (r: Branding)
    ensures (contentType.None? || contentType.value !in BrandingImageTypes) ==>
      r == Branding(None, Fail(422, UnsupportedTypeMessage(contentType)), config)
    ensures contentType.Some? && contentType.value in BrandingImageTypes && |upload| > MaxBrandingUploadSize ==>
      r == Branding(None, Fail(413, TooLargeMessage), config)
    ensures r.response.Ok? ==>
      && contentType.Some? && contentType.value in BrandingImageTypes
      && |upload| <= MaxBrandingUploadSize
      && r.response.value == destRel + BrandingImageTypes[contentType.value]
      && r.written == Some(FileWrite(PublicDir + r.response.value, upload))
      && Ok(r.config) == SetMwConf(config, asset, r.response.value)
    ensures r.written.Some? && r.response.Fail? ==>
      r.response == Fail(500, InternalServerError) && MwSection(config).Fail? && r.config == config
  {
    if contentType.None? || contentType.value !in BrandingImageTypes then
      Branding(None, Fail(422, UnsupportedTypeMessage(contentType)), config)
    else
      var ext := BrandingImageTypes[contentType.value];
      var content := ReadLimited(upload);
      if |content| > MaxBrandingUploadSize then Branding(None, Fail(413, TooLargeMessage), config)
      else
        var urlPath := destRel + ext;
        var written := Some(FileWrite(PublicDir + urlPath, content));
        match SetMwConf(config, asset, urlPath)
        case Fail(status, detail) => Branding(written, Fail(status, detail), config)
        case Ok(c) => Branding(written, Ok(urlPath), c)
  }

  /** `upload_logo`. */
  function UploadLogo(config: Config, contentType: Option<string>, upload: seq<bv8>): Branding {
    UploadBranding(config, contentType, upload, "logo", LogoDest)
  }

  /** `upload_favicon`. */
  function UploadFavicon(config: Config, contentType: Option<string>, upload: seq<bv8>): Branding {
    UploadBranding(config, contentType, upload, "favicon", FaviconDest)
  }

  /** A PNG logo is stored at `/images/branding/logo.png` and an icon favicon at
      `/favicon.ico`, under the tenant's public directory. */
  lemma BrandingPaths(config: Config, upload: seq<bv8>, iconType: string)
    requires MwSection(config).Ok? && |upload| <= MaxBrandingUploadSize
    requires iconType == "image/x-icon" || iconType == "image/vnd.microsoft.icon"
    ensures UploadLogo(config, Some("image/png"), upload).response == Ok(LogoDest + ".png")
    ensures UploadLogo(config, Some("image/png"), upload).written == Some(FileWrite(PublicDir + LogoDest + ".png", upload))
    ensures UploadFavicon(config, Some(iconType), upload).response == Ok(FaviconDest + ".ico")
    ensures GetLogo(UploadLogo(config, Some("image/png"), upload).config) == Ok(Some(Text(LogoDest + ".png")))
  {
    assert PublicDir + (LogoDest + ".png") == PublicDir + LogoDest + ".png";
  }

  /** The size bound is inclusive: exactly the maximum is stored, one byte more is refused. */
  lemma SizeBoundary(config: Config, upload: seq<bv8>)
    requires MwSection(config).Ok?
    ensures |upload| == MaxBrandingUploadSize ==> UploadLogo(config, Some("image/png"), upload).response.Ok?
    ensures |upload| == MaxBrandingUploadSize + 1 ==>
      UploadLogo(config, Some("image/png"), upload) == Branding(None, Fail(413, TooLargeMessage), config)
  {
  }

  /** `require_site_type`: the endpoints serve only sites of the expected type. */
  function RequireSiteType(site: Models.Site, expected: string): (r: Outcome<Models.Site>)
    ensures r.Ok? <==> site.siteType == expected
    ensures r.Ok? ==> r.value == site
    ensures r.Fail? ==> r.status == 400
  {
    if site.siteType != expected then
      Fail(400, "This endpoint is only available for " + expected + " sites")
    else Ok(site)
  }
}

=== FILE: models.dfy ===
/** The tenant record and its table (database/models.py). The table is a sequence of rows;
    each SQLAlchemy query is a list of filters applied to it, and a commit replaces the row
    with the same primary key. */
module Models {
  import opened Common
  import Jwt

  /** `has_donor_perks` threshold, in EUR. */
  const PerksThreshold: real := 7.0

  /** One row of the `sites` table. Timestamps are seconds; `None` is SQL NULL. */
  datatype Site = Site(
    tag: string,
    adminEmail: string,
    adminPassword: string,
    siteType: string,
    hostname: string,
    installedAt: Option<int>,
    removalReason: Option<string>,
    removedAt: Option<int>,
    removedIp: Option<string>,
    createdIp: Option<string>,
    lastLoginIp: Option<string>,
    lastLoginAt: Option<int>,
    donatedAmount: Option<real>,
    createdAt: int)
  {
    predicate IsInstalled() {
      installedAt.Some?
    }

    predicate IsRemoved() {
      removedAt.Some?
    }

    /** `(self.donated_amount or 0)`. */
    function Donated(): real {
      donatedAmount.GetOr(0.0)
    }

    predicate IsDonor() {
      Donated() > 0.0
    }

    predicate HasDonorPerks() {
      Donated() >= PerksThreshold
    }

    function ParentDomain(): string {
      ParentDomainOf(hostname)
    }
  }

  /** Python's `parts[-2:]`. */
  function LastTwo(parts: seq<string>): (r: seq<string>)
    requires |parts| >= 1
    ensures 1 <= |r| <= 2 && |r| <= |parts| && r == parts[|parts| - |r|..]
    ensures |parts| >= 2 ==> |r| == 2
  {
    if |parts| >= 2 then parts[|parts| - 2..] else parts
  }

  /** `".".join(hostname.split(".")[-2:])`. */
  function ParentDomainOf(hostname: string): string {
    Join(LastTwo(Split(hostname, '.')), '.')
  }

  /** The parent domain is a suffix of the hostname. */
  lemma {:induction false} ParentDomainSuffix(hostname: string)
    ensures EndsWith(hostname, ParentDomainOf(hostname))
  {
    var parts := Split(hostname, '.');
    var last := LastTwo(parts);
    JoinSplit(hostname, '.');
    if |parts| > |last| {
      var front := parts[..|parts| - |last|];
      assert parts == front + last;
      JoinAppend(front, last, '.');
      assert hostname == Join(front, '.') + ['.'] + Join(last, '.');
    }
  }

  /** Taking the parent domain of a parent domain changes nothing. */
  lemma {:induction false} ParentDomainIdempotent(hostname: string)
    ensures ParentDomainOf(ParentDomainOf(hostname)) == ParentDomainOf(hostname)
  {
    var parts := Split(hostname, '.');
    var last := LastTwo(parts);
    SplitPartsFree(hostname, '.');
    forall k | 0 <= k < |last| ensures '.' !in last[k] {
      assert last[k] == parts[|parts| - |last| + k];
    }
    SplitJoin(last, '.');
  }

  /** Whatever comes before the last two labels, the parent domain is those two labels. */
  lemma {:induction false} ParentDomainOfSubdomain(prefix: string, a: string, b: string)
    requires '.' !in a && '.' !in b
    ensures ParentDomainOf(a + "." + b) == a + "." + b
    ensures ParentDomainOf(prefix + "." + a + "." + b) == a + "." + b
  {
    SplitCons(a, '.', b);
    SplitNoSep(b, '.');
    assert a + "." + b == a + ['.'] + b;
    assert Split(a + "." + b, '.') == [a, b];
    assert Join([a, b], '.') == a + ['.'] + Join([b], '.');
    SplitAppend(prefix, '.', a + "." + b);
    assert prefix + "." + a + "." + b == prefix + ['.'] + (a + "." + b);
    var whole := Split(prefix, '.') + [a, b];
    assert LastTwo(whole) == [a, b];
  }

  /** Perks imply donor status; a NULL amount is neither. */
  lemma DonorPredicates(s: Site)
    ensures s.HasDonorPerks() ==> s.IsDonor()
    ensures s.donatedAmount.None? ==> !s.IsDonor() && !s.HasDonorPerks()
    ensures s.IsDonor() <==> s.Donated() > 0.0
  {
  }

  // ----- queries -----

  /** The SQL conditions the backend builds. NULL compares false, as in SQL. */
  datatype Filter =
    | TagIs(tag: string)
    | HostnameIs(hostname: string)
    | AdminEmailIs(email: string)
    | RemovedAtIsNull
    | RemovedAtIsNotNull
    | InstalledAtIsNull
    | SiteTypeIs(siteType: string)
    | DonatedAbove(amount: real)
    | AdminEmailContains(part: string)
    | HostnameContains(part: string)
    | CreatedIpIs(ip: string)
    | LastLoginIpIs(ip: string)
    | Or(left: Filter, right: Filter)

  predicate Holds(f: Filter, s: Site) {
    match f
    case TagIs(t) => s.tag == t
    case HostnameIs(h) => s.hostname == h
    case AdminEmailIs(e) => s.adminEmail == e
    case RemovedAtIsNull => s.removedAt.None?
    case RemovedAtIsNotNull => s.removedAt.Some?
    case InstalledAtIsNull => s.installedAt.None?
    case SiteTypeIs(t) => s.siteType == t
    case DonatedAbove(a) => s.donatedAmount.Some? && s.donatedAmount.value > a
    case AdminEmailContains(p) => ContainsLike(s.adminEmail, p)
    case HostnameContains(p) => ContainsLike(s.hostname, p)
    case CreatedIpIs(ip) => s.createdIp == Some(ip)
    case LastLoginIpIs(ip) => s.lastLoginIp == Some(ip)
    case Or(a, b) => Holds(a, s) || Holds(b, s)
  }

  /** `.where(*filters)`: every filter holds. */
  predicate AllHold(filters: seq<Filter>, s: Site) {
    forall k :: 0 <= k < |filters| ==> Holds(filters[k], s)
  }

  /** `select(Site).where(*filters)`: the matching rows, in table order. */
  function Where(rows: seq<Site>, filters: seq<Filter>): (r: seq<Site>)
    ensures |r| <= |rows|
    ensures forall s :: s in r <==> s in rows && AllHold(filters, s)
  {
    if rows == [] then []
    else (if AllHold(filters, rows[0]) then [rows[0]] else []) + Where(rows[1..], filters)
  }

  /** What `scalar_one_or_none` returns, or `MultipleRows` when it raises. */
  datatype One = NoRow | Row(site: Site) | MultipleRows

  function ScalarOneOrNone(matches: seq<Site>): One {
    if |matches| == 0 then NoRow
    else if |matches| == 1 then Row(matches[0])
    else MultipleRows
  }

  /** `filters.insert(0, removed_at IS NULL)` unless `match_removed`. */
  function ActiveFilters(filters: seq<Filter>, matchRemoved: bool): seq<Filter> {
    if matchRemoved then filters else [RemovedAtIsNull] + filters
  }

  lemma ActiveFiltersHold(filters: seq<Filter>, matchRemoved: bool, s: Site)
    ensures AllHold(ActiveFilters(filters, matchRemoved), s)
        <==> AllHold(filters, s) && (matchRemoved || !s.IsRemoved())
  {
    if !matchRemoved {
      var fs := ActiveFilters(filters, matchRemoved);
      if AllHold(filters, s) && !s.IsRemoved() {
        forall k | 0 <= k < |fs| ensures Holds(fs[k], s) {
          if k > 0 { assert fs[k] == filters[k - 1]; }
        }
      }
      if AllHold(fs, s) {
        assert Holds(fs[0], s);
        forall k | 0 <= k < |filters| ensures Holds(filters[k], s) {
          assert fs[k + 1] == filters[k];
        }
      }
    }
  }

  /** `get_all_active`. */
  function GetAllActive(rows: seq<Site>, filters: seq<Filter>, matchRemoved: bool): (r: seq<Site>)
    ensures forall s :: s in r <==> s in rows && AllHold(filters, s) && (matchRemoved || !s.IsRemoved())
  {
    var r := Where(rows, ActiveFilters(filters, matchRemoved));
    assert forall s :: (AllHold(ActiveFilters(filters, matchRemoved), s)
                       <==> AllHold(filters, s) && (matchRemoved || !s.IsRemoved())) by {
      forall s { ActiveFiltersHold(filters, matchRemoved, s); }
    }
    r
  }

  /** `get_by_hostname`: no removed-row exclusion of its own. */
  function GetByHostname(rows: seq<Site>, hostname: string, filters: seq<Filter>): One {
    ScalarOneOrNone(Where(rows, [HostnameIs(hostname)] + filters))
  }

  /** The condition of `get_by_tag_or_hostname`. */
  function TagOrHostname(value: string): Filter {
    Or(TagIs(value), HostnameIs(value))
  }

  /** `_identifier_filter`: tag, admin e-mail or hostname. */
  function IdentifierFilter(identifier: string): Filter {
    Or(Or(TagIs(identifier), AdminEmailIs(identifier)), HostnameIs(identifier))
  }

  function GetByTagOrHostname(rows: seq<Site>, value: string, matchRemoved: bool): One {
    ScalarOneOrNone(Where(rows, ActiveFilters([TagOrHostname(value)], matchRemoved)))
  }

  function GetByIdentifier(rows: seq<Site>, identifier: string, matchRemoved: bool): One {
    ScalarOneOrNone(Where(rows, ActiveFilters([IdentifierFilter(identifier)], matchRemoved)))
  }

  /** A site can be looked up by this condition, honouring the removed-row exclusion. */
  predicate Selects(f: Filter, matchRemoved: bool, s: Site) {
    Holds(f, s) && (matchRemoved || !s.IsRemoved())
  }

  /** A lookup through one condition finds nothing exactly when no row qualifies, finds a
      qualifying row when exactly one does, and fails exactly when two rows qualify. */
  lemma {:induction false} LookupMeaning(rows: seq<Site>, f: Filter, matchRemoved: bool)
    ensures var r := ScalarOneOrNone(Where(rows, ActiveFilters([f], matchRemoved)));
      && (r == NoRow <==> forall i :: 0 <= i < |rows| ==> !Selects(f, matchRemoved, rows[i]))
      && (r.Row? ==> r.site in rows && Selects(f, matchRemoved, r.site))
      && (r == MultipleRows <==>
            exists i, j :: (0 <= i < j < |rows|
                            && Selects(f, matchRemoved, rows[i]) && Selects(f, matchRemoved, rows[j])))
  {
    var fs := ActiveFilters([f], matchRemoved);
    forall s ensures AllHold(fs, s) <==> Selects(f, matchRemoved, s) {
      ActiveFiltersHold([f], matchRemoved, s);
      assert AllHold([f], s) <==> Holds(f, s) by {
        assert [f][0] == f;
      }
    }
    var w := Where(rows, fs);
    LookupMultiple(rows, f, matchRemoved);
    if w == [] {
      forall i | 0 <= i < |rows| ensures !Selects(f, matchRemoved, rows[i]) {
        assert rows[i] in rows;
      }
    } else {
      assert w[0] in w;
    }
  }

  /** The filters of a one-condition lookup hold exactly where the condition selects. */
  lemma SelectsAsFilters(f: Filter, matchRemoved: bool, s: Site)
    ensures AllHold(ActiveFilters([f], matchRemoved), s) <==> Selects(f, matchRemoved, s)
  {
    ActiveFiltersHold([f], matchRemoved, s);
    assert AllHold([f], s) <==> Holds(f, s) by {
      assert [f][0] == f;
    }
  }

  /** A one-condition lookup fails exactly when two rows qualify. */
  lemma {:induction false} LookupMultiple(rows: seq<Site>, f: Filter, matchRemoved: bool)
    ensures ScalarOneOrNone(Where(rows, ActiveFilters([f], matchRemoved))) == MultipleRows <==>
      exists i, j :: 0 <= i < j < |rows| && Selects(f, matchRemoved, rows[i]) && Selects(f, matchRemoved, rows[j])
  {
    var fs := ActiveFilters([f], matchRemoved);
    if exists i, j :: 0 <= i < j < |rows| && Selects(f, matchRemoved, rows[i]) && Selects(f, matchRemoved, rows[j]) {
      var i, j :| 0 <= i < j < |rows| && Selects(f, matchRemoved, rows[i]) && Selects(f, matchRemoved, rows[j]);
      SelectsAsFilters(f, matchRemoved, rows[i]);
      SelectsAsFilters(f, matchRemoved, rows[j]);
      MatchesFromTwo(rows, fs, i, j);
    }
    if |Where(rows, fs)| >= 2 {
      var i, j := TwoMatches(rows, fs);
      SelectsAsFilters(f, matchRemoved, rows[i]);
      SelectsAsFilters(f, matchRemoved, rows[j]);
    }
  }

  /** A match comes from a position of the table. */
  lemma {:induction false} OneMatch(rows: seq<Site>, filters: seq<Filter>) returns (i: nat)
    requires |Where(rows, filters)| >= 1
    ensures i < |rows| && AllHold(filters, rows[i])
  {
    if AllHold(filters, rows[0]) {
      i := 0;
    } else {
      var k := OneMatch(rows[1..], filters);
      i := k + 1;
    }
  }

  /** Two matches come from two different positions of the table. */
  lemma {:induction false} TwoMatches(rows: seq<Site>, filters: seq<Filter>) returns (i: nat, j: nat)
    requires |Where(rows, filters)| >= 2
    ensures i < j < |rows| && AllHold(filters, rows[i]) && AllHold(filters, rows[j])
  {
    if AllHold(filters, rows[0]) {
      var k := OneMatch(rows[1..], filters);
      i, j := 0, k + 1;
    } else {
      var a, b := TwoMatches(rows[1..], filters);
      i, j := a + 1, b + 1;
    }
  }

  /** Two matching positions give at least two matches. */
  lemma {:induction false} MatchesFromTwo(rows: seq<Site>, filters: seq<Filter>, i: nat, j: nat)
    requires i < j < |rows| && AllHold(filters, rows[i]) && AllHold(filters, rows[j])
    ensures |Where(rows, filters)| >= 2
  {
    if i == 0 {
      assert rows[j] == rows[1..][j - 1];
      assert rows[j] in Where(rows[1..], filters);
    } else {
      MatchesFromTwo(rows[1..], filters, i - 1, j - 1);
    }
  }

  /** When no two positions match, at most one row is returned. */
  lemma {:induction false} AtMostOneMatch(rows: seq<Site>, filters: seq<Filter>)
    requires forall i, j :: 0 <= i < j < |rows| && AllHold(filters, rows[i]) ==> !AllHold(filters, rows[j])
    ensures |Where(rows, filters)| <= 1
  {
    if |Where(rows, filters)| >= 2 {
      var i, j := TwoMatches(rows, filters);
      assert false;
    }
  }

  /** When exactly one row qualifies, the lookup returns that row. */
  lemma SoleMatch(rows: seq<Site>, f: Filter, matchRemoved: bool, site: Site)
    requires UniqueTags(rows) && site in rows && Selects(f, matchRemoved, site)
    requires forall i :: 0 <= i < |rows| && Selects(f, matchRemoved, rows[i]) ==> rows[i] == site
    ensures ScalarOneOrNone(Where(rows, ActiveFilters([f], matchRemoved))) == Row(site)
  {
    LookupMeaning(rows, f, matchRemoved);
    var r := ScalarOneOrNone(Where(rows, ActiveFilters([f], matchRemoved)));
    var j :| 0 <= j < |rows| && rows[j] == site;
    assert r != NoRow;
    if r.Row? {
      var k :| 0 <= k < |rows| && rows[k] == r.site;
    }
  }

  /** `tag` is the primary key. */
  ghost predicate UniqueTags(rows: seq<Site>) {
    forall i, j :: 0 <= i < j < |rows| ==> rows[i].tag != rows[j].tag
  }

  /** With unique tags, a lookup that includes a tag condition never sees two rows. */
  lemma TagLookupUnique(rows: seq<Site>, tag: string, filters: seq<Filter>)
    requires UniqueTags(rows) && TagIs(tag) in filters
    ensures |Where(rows, filters)| <= 1
  {
    var k :| 0 <= k < |filters| && filters[k] == TagIs(tag);
    forall i, j | 0 <= i < j < |rows| && AllHold(filters, rows[i]) ensures !AllHold(filters, rows[j]) {
      assert Holds(filters[k], rows[i]);
    }
    AtMostOneMatch(rows, filters);
  }

  /** `select(Site).where(Site.tag == tag, Site.removed_at.is_(None))`, the lookup behind
      the authenticated endpoints and the export link. */
  function ActiveByTag(rows: seq<Site>, tag: string): One {
    ScalarOneOrNone(Where(rows, ActiveFilters([TagIs(tag)], false)))
  }

  /** The lookup finds the active row with the tag exactly when there is one, and on a
      table with unique tags it never fails. */
  lemma ActiveByTagMeaning(rows: seq<Site>, tag: string)
    ensures var r := ActiveByTag(rows, tag);
      && (r.Row? ==> r.site in rows && r.site.tag == tag && !r.site.IsRemoved())
      && (r == NoRow <==> forall i :: 0 <= i < |rows| ==> rows[i].tag != tag || rows[i].IsRemoved())
      && (UniqueTags(rows) ==> r != MultipleRows)
  {
    LookupMeaning(rows, TagIs(tag), false);
    var fs := ActiveFilters([TagIs(tag)], false);
    assert fs[1] == TagIs(tag);
    if UniqueTags(rows) {
      TagLookupUnique(rows, tag, fs);
    }
  }

  /** `db.get(Site, tag)`: primary-key lookup, removed rows included. */
  function Get(rows: seq<Site>, tag: string): (r: Option<Site>)
    ensures r.Some? ==> r.value in rows && r.value.tag == tag
    ensures r.None? ==> forall i :: 0 <= i < |rows| ==> rows[i].tag != tag
  {
    if rows == [] then None
    else if rows[0].tag == tag then Some(rows[0])
    else Get(rows[1..], tag)
  }

  predicate HasTag(rows: seq<Site>, tag: string) {
    exists i :: 0 <= i < |rows| && rows[i].tag == tag
  }

  /** A commit of `site`: the row with the same tag becomes `site`. */
  function Replace(rows: seq<Site>, site: Site): (r: seq<Site>)
    ensures |r| == |rows|
    ensures forall i :: 0 <= i < |rows| ==> r[i] == (if rows[i].tag == site.tag then site else rows[i])
  {
    seq(|rows|, i requires 0 <= i < |rows| => if rows[i].tag == site.tag then site else rows[i])
  }

  lemma ReplaceAppend(a: seq<Site>, b: seq<Site>, site: Site)
    ensures Replace(a + b, site) == Replace(a, site) + Replace(b, site)
  {
    assert forall i :: 0 <= i < |a + b| ==> Replace(a + b, site)[i] == (Replace(a, site) + Replace(b, site))[i];
  }

  /** Replacing a row by one that the filters treat alike commutes with the query. */
  lemma {:induction false} WhereReplace(rows: seq<Site>, found: Site, site: Site, filters: seq<Filter>)
    requires found.tag == site.tag
    requires forall i :: 0 <= i < |rows| && rows[i].tag == site.tag ==> rows[i] == found
    requires AllHold(filters, found) <==> AllHold(filters, site)
    ensures Where(Replace(rows, site), filters) == Replace(Where(rows, filters), site)
  {
    if rows != [] {
      WhereReplace(rows[1..], found, site, filters);
      var r := Replace(rows, site);
      assert r[1..] == Replace(rows[1..], site);
      var w := Where(rows[1..], filters);
      var head := if AllHold(filters, rows[0]) then [rows[0]] else [];
      ReplaceAppend(head, w, site);
      var r0 := r[0];
      assert AllHold(filters, r0) <==> AllHold(filters, rows[0]);
      var head' := if AllHold(filters, r0) then [r0] else [];
      assert Where(r, filters) == head' + Where(r[1..], filters);
      assert Replace(head, site) == head';
    }
  }

  /** Changing fields a tag-or-hostname lookup does not read keeps the lookup on the
      changed row. */
  lemma TagOrHostnameAfterUpdate(rows: seq<Site>, found: Site, site: Site, value: string, matchRemoved: bool)
    requires UniqueTags(rows) && found in rows
    requires site.tag == found.tag && site.hostname == found.hostname && site.removedAt == found.removedAt
    requires GetByTagOrHostname(rows, value, matchRemoved) == Row(found)
    ensures GetByTagOrHostname(Replace(rows, site), value, matchRemoved) == Row(site)
  {
    var fs := ActiveFilters([TagOrHostname(value)], matchRemoved);
    forall k | 0 <= k < |fs| ensures Holds(fs[k], found) == Holds(fs[k], site) {
    }
    var j :| 0 <= j < |rows| && rows[j] == found;
    forall i | 0 <= i < |rows| && rows[i].tag == site.tag ensures rows[i] == found {
      assert i == j;
    }
    WhereReplace(rows, found, site, fs);
    assert Where(rows, fs) == [found];
    assert Replace([found], site) == [site];
  }

  // ----- lifecycle invariant -----

  /** How the table may change between two commits: no row disappears or changes tag or
      creation time, a removal is never undone or rewritten, and an installed site stays
      installed. */
  ghost predicate Evolves(before: seq<Site>, after: seq<Site>) {
    |before| <= |after|
    && forall i :: 0 <= i < |before| ==>
         && after[i].tag == before[i].tag
         && after[i].createdAt == before[i].createdAt
         && (before[i].IsRemoved() ==>
               after[i].removedAt == before[i].removedAt && after[i].removalReason == before[i].removalReason)
         && (before[i].IsInstalled() ==> after[i].IsInstalled())
  }

  /** The update of a record allowed by `Evolves`. */
  ghost predicate LifecycleStep(old_: Site, new_: Site) {
    && new_.tag == old_.tag
    && new_.createdAt == old_.createdAt
    && (old_.IsRemoved() ==> new_.removedAt == old_.removedAt && new_.removalReason == old_.removalReason)
    && (old_.IsInstalled() ==> new_.IsInstalled())
  }

  /** Committing an allowed update of a row keeps the tags unique and the table evolving. */
  lemma ReplaceEvolves(rows: seq<Site>, found: Site, site: Site)
    requires UniqueTags(rows) && found in rows && LifecycleStep(found, site)
    ensures UniqueTags(Replace(rows, site))
    ensures Evolves(rows, Replace(rows, site))
    ensures HasTag(rows, site.tag)
  {
    var j :| 0 <= j < |rows| && rows[j] == found;
    forall i | 0 <= i < |rows| && rows[i].tag == site.tag ensures rows[i] == found {
      assert i == j;
    }
  }

  lemma EvolvesReflexive(rows: seq<Site>)
    ensures Evolves(rows, rows)
  {
  }

  lemma EvolvesTransitive(a: seq<Site>, b: seq<Site>, c: seq<Site>)
    requires Evolves(a, b) && Evolves(b, c)
    ensures Evolves(a, c)
  {
  }

  // ----- recorded effects -----

  /** A background task scheduled by a request, recorded as intent only. */
  datatype Job =
    | ProvisionJob(tag: string, resetToken: Jwt.Token)
    | RemoveJob(tag: string, skipBackup: bool, reason: string)

  /** An e-mail handed to the mail collaborator. */
  datatype Mail =
    | ResetLinkMail(to: string, tag: string, token: Jwt.Token)
    | EmailChangeMail(to: string, tag: string, token: Jwt.Token)
    | DonorNotFoundMail(to: string, amountText: string, donorEmail: string)
    | ThankYouMail(to: string, amount: real, total: real, hasPerks: bool)

  /** The `sites` table together with the tasks and mail the handlers emitted. */
  class TenantStore {
    var rows: seq<Site>
    var jobs: seq<Job>
    var outbox: seq<Mail>

    ghost predicate Valid()
      reads this
    {
      UniqueTags(rows)
    }

    constructor ()
      ensures Valid() && rows == [] && jobs == [] && outbox == []
    {
      rows, jobs, outbox := [], [], [];
    }

    /** `db.add(site); await db.commit()`: the primary key refuses a second row with the
        same tag, removed or not (`IntegrityError`). */
    method Insert(site: Site) returns (ok: bool)
      requires Valid()
      modifies this
      ensures Valid()
      ensures ok <==> !HasTag(old(rows), site.tag)
      ensures rows == if ok then old(rows) + [site] else old(rows)
      ensures jobs == old(jobs) && outbox == old(outbox)
      ensures Evolves(old(rows), rows)
    {
      ok := true;
      var i := 0;
      while i < |rows|
        invariant 0 <= i <= |rows|
        invariant ok <==> forall k :: 0 <= k < i ==> rows[k].tag != site.tag
      {
        if rows[i].tag == site.tag {
          ok := false;
        }
        i := i + 1;
      }
      if ok {
        rows := rows + [site];
      }
    }

    /** `await db.commit()` after changing the fields of a loaded record. */
    method Commit(found: Site, site: Site)
      requires Valid() && found in rows && LifecycleStep(found, site)
      modifies this
      ensures Valid()
      ensures rows == Replace(old(rows), site)
      ensures jobs == old(jobs) && outbox == old(outbox)
      ensures Evolves(old(rows), rows)
    {
      ReplaceEvolves(rows, found, site);
      rows := Replace(rows, site);
    }

    /** `background_tasks.add_task(...)`. */
    method Schedule(job: Job)
      modifies this
      ensures rows == old(rows) && outbox == old(outbox)
      ensures jobs == old(jobs) + [job]
    {
      jobs := jobs + [job];
    }

    /** `send_mail(...)`. */
    method Send(mail: Mail)
      modifies this
      ensures rows == old(rows) && jobs == old(jobs)
      ensures outbox == old(outbox) + [mail]
    {
      outbox := outbox + [mail];
    }
  }
}

=== FILE: playbook.dfy ===
/** The values handed to Ansible as extra variables, and what a playbook run ends with.
    Both runners lay a call's own variables over the base ones with `Common.Merge`. */
module Playbook {
  import opened Common

  /** A JSON-like extra-variable value. */
  datatype Val =
    | Str(s: string)
    | Bool(b: bool)
    | Int(i: int)
    | StrList(items: seq<string>)
    | Dict(entries: map<string, Val>)

  /** `runner.status != "successful"` is the only failure test. */
  const Successful: string := "successful"

  /** The exception a playbook run ends with when its status is not successful. */
  datatype PlaybookError =
    | RuntimeError(playbook: string, status: string, rc: int)
    | AnsibleError(message: string, status: string, rc: int)
    | TypeError(message: string)

  /** A run either returns (with what was asked of Ansible) or raises. */
  datatype RunOutcome<I> = Completed(invocation: I) | Raised(error: PlaybookError)
}

=== FILE: runner.dfy ===
/** The lower-level Ansible wrapper (site_manager/runner.py): `VARS` overlaid by the
    call's variables, a status check, and the parameter maps of the four jobs. */
module Runner {
  import opened Common
  import opened Playbook

  /** What is handed to `RunnerConfig`. */
  datatype Invocation = Invocation(playbook: string, tags: Option<string>, extravars: map<string, Val>)

  /** `run_playbook`: the run is described by `status` and `rc`, the result of the abstract
      `Runner.run`; it raises exactly when the status is not "successful". */
  function RunPlaybook(vars: map<string, Val>, playbook: string, tags: Option<string>, extravars: map<string, Val>,
                       status: string, rc: int): (r: RunOutcome<Invocation>)
    ensures r.Completed? <==> status == Successful
    ensures r.Completed? ==> r.invocation.playbook == playbook && r.invocation.tags == tags
    ensures r.Completed? ==> forall k :: k in extravars ==> k in r.invocation.extravars && r.invocation.extravars[k] == extravars[k]
    ensures r.Completed? ==> forall k :: k in vars && k !in extravars ==> k in r.invocation.extravars && r.invocation.extravars[k] == vars[k]
    ensures r.Raised? ==> r.error == RuntimeError(playbook, status, rc)
  {
    if status != Successful then Raised(RuntimeError(playbook, status, rc))
    else Completed(Invocation(playbook, tags, Merge(vars, extravars)))
  }

  /** `provision_tenant`'s tag selection. */
  function ProvisionTags(sendEmail: bool): (r: Option<string>)
    ensures r.Some? <==> sendEmail
    ensures r.Some? ==> r.value == "send-email"
  {
    if sendEmail then Some("send-email") else None
  }

  function ProvisionVars(tag: string, serviceType: string, hostname: string, adminEmail: string,
                         resetToken: string, force: bool): (r: map<string, Val>)
    ensures r.Keys == {"tenant_tag", "tenant_hostname", "service_type", "tenant_admin_email", "tenant_reset_token", "force"}
  {
    map["tenant_tag" := Str(tag), "tenant_hostname" := Str(hostname), "service_type" := Str(serviceType),
        "tenant_admin_email" := Str(adminEmail), "tenant_reset_token" := Str(resetToken), "force" := Bool(force)]
  }

  function ProvisionTenant(vars: map<string, Val>, tag: string, serviceType: string, hostname: string,
                           adminEmail: string, resetToken: string, force: bool, sendEmail: bool,
                           status: string, rc: int): RunOutcome<Invocation>
  {
    RunPlaybook(vars, "provision_main.yml", ProvisionTags(sendEmail),
                ProvisionVars(tag, serviceType, hostname, adminEmail, resetToken, force), status, rc)
  }

  /** The tenant's own variables reach the playbook even when `VARS` holds the same keys. */
  lemma ProvisionOverridesVars(vars: map<string, Val>, tag: string, serviceType: string, hostname: string,
                               adminEmail: string, resetToken: string, force: bool, sendEmail: bool, rc: int)
    ensures var r := ProvisionTenant(vars, tag, serviceType, hostname, adminEmail, resetToken, force, sendEmail, Successful, rc);
      && r.Completed?
      && r.invocation.extravars["tenant_tag"] == Str(tag)
      && r.invocation.extravars["tenant_reset_token"] == Str(resetToken)
      && r.invocation.tags == (if sendEmail then Some("send-email") else None)
  {
  }

  /** `admin_email or ""` and the like. */
  function OrEmpty(o: Option<string>): (r: string)
    ensures o.Some? ==> r == o.value
    ensures o.None? ==> r == ""
  {
    o.GetOr("")
  }

  function RemoveVars(tag: string, serviceType: string, skipBackup: bool, sendEmail: bool,
                      adminEmail: Option<string>, hostname: Option<string>, reason: Option<string>): (r: map<string, Val>)
    ensures r.Keys == {"tenant_tag", "service_type", "skip_backup", "send_email", "tenant_admin_email",
                       "tenant_hostname", "removal_reason"}
    ensures r["skip_backup"] == Bool(skipBackup)
    ensures r["removal_reason"] == Str(OrEmpty(reason))
    ensures adminEmail.None? ==> r["tenant_admin_email"] == Str("")
    ensures hostname.None? ==> r["tenant_hostname"] == Str("")
  {
    map["tenant_tag" := Str(tag), "service_type" := Str(serviceType), "skip_backup" := Bool(skipBackup),
        "send_email" := Bool(sendEmail), "tenant_admin_email" := Str(OrEmpty(adminEmail)),
        "tenant_hostname" := Str(OrEmpty(hostname)), "removal_reason" := Str(OrEmpty(reason))]
  }

  /** `remove_tenant`: the backup playbook, untagged. */
  function RemoveTenant(vars: map<string, Val>, tag: string, serviceType: string, skipBackup: bool, sendEmail: bool,
                        adminEmail: Option<string>, hostname: Option<string>, reason: Option<string>,
                        status: string, rc: int): (r: RunOutcome<Invocation>)
    ensures r.Completed? ==> r.invocation.playbook == "backup_main.yml" && r.invocation.tags.None?
  {
    RunPlaybook(vars, "backup_main.yml", None,
                RemoveVars(tag, serviceType, skipBackup, sendEmail, adminEmail, hostname, reason), status, rc)
  }

  /** `backup_tenant`'s tag selection. */
  function BackupTags(periodic: bool): (r: string)
    ensures r == "periodic" <==> periodic
    ensures !periodic ==> r == "backup"
  {
    if periodic then "periodic" else "backup"
  }

  function BackupVars(tag: string, serviceType: string, deleteOlderThanDays: int): (r: map<string, Val>)
    ensures r.Keys == {"tenant_tag", "service_type", "skip_backup", "delete_older_than_days"}
    ensures r["skip_backup"] == Bool(false)
  {
    map["tenant_tag" := Str(tag), "service_type" := Str(serviceType), "skip_backup" := Bool(false),
        "delete_older_than_days" := Int(deleteOlderThanDays)]
  }

  const DefaultRetentionDays: int := 7

  function BackupTenant(vars: map<string, Val>, tag: string, serviceType: string, periodic: bool,
                        deleteOlderThanDays: int, status: string, rc: int): RunOutcome<Invocation>
  {
    RunPlaybook(vars, "backup_main.yml", Some(BackupTags(periodic)),
                BackupVars(tag, serviceType, deleteOlderThanDays), status, rc)
  }

  /** A backup never asks the shared playbook to skip its backup step, whatever `VARS`
      holds. */
  lemma BackupNeverSkips(vars: map<string, Val>, tag: string, serviceType: string, periodic: bool, rc: int)
    ensures var r := BackupTenant(vars, tag, serviceType, periodic, DefaultRetentionDays, Successful, rc);
      && r.Completed?
      && r.invocation.extravars["skip_backup"] == Bool(false)
      && r.invocation.extravars["delete_older_than_days"] == Int(7)
      && r.invocation.tags == Some(if periodic then "periodic" else "backup")
  {
  }

  const DefaultBackupMode: string := "attic"

  /** `restore_tenant`'s variables: `backup_date` only when it is truthy. */
  function RestoreVars(tag: string, serviceType: string, backupDate: Option<string>): (r: map<string, Val>)
    ensures "backup_date" in r <==> Truthy(backupDate)
    ensures Truthy(backupDate) ==> r["backup_date"] == Str(backupDate.value)
    ensures r.Keys - {"backup_date"} == {"tenant_tag", "service_type"}
  {
    var base := map["tenant_tag" := Str(tag), "service_type" := Str(serviceType)];
    if Truthy(backupDate) then base["backup_date" := Str(backupDate.value)] else base
  }

  function RestoreTenant(vars: map<string, Val>, tag: string, serviceType: string, backupMode: string,
                         backupDate: Option<string>, status: string, rc: int): (r: RunOutcome<Invocation>)
    ensures r.Completed? ==> r.invocation.tags == Some(backupMode) && r.invocation.playbook == "restore_main.yml"
  {
    RunPlaybook(vars, "restore_main.yml", Some(backupMode), RestoreVars(tag, serviceType, backupDate), status, rc)
  }
}

=== FILE: settings.dfy ===
/** The fixed settings of the backend and the environment-derived values the core reads
    from `VARS`. */
module Settings {

  const AvailableSiteTypes: seq<string> := ["flarum", "mediawiki", "wordpress"]

  const BlacklistedTags: seq<string> := ["api", "www", "mail", "cname", "status", "support"]

  const JwtExpiryHours: int := 24

  /** Values that `VARS` takes from the environment; the secrets are opaque strings. */
  datatype Vars = Vars(
    allowedDomains: seq<string>,
    jwtSecret: string,
    infoMail: string,
    kofiVerificationToken: string,
    integrationTestToken: string)
  {
    /** `main_domain` is the first allowed domain. */
    function MainDomain(): string
      requires |allowedDomains| >= 1
    {
      allowedDomains[0]
    }
  }
}

=== FILE: settings_api.dfy ===
/** The settings endpoints of a logged-in site (api/v1/settings.py): self-service deletion
    and the data export, both behind `get_current_site`. */
module SettingsApi {
  import opened Common
  import opened Models
  import Jwt
  import Auth
  import Account

  const SettingsDeletionReason: string := "Requested by you through settings"
  const ExportFailedMessage: string := "Export failed"

  /** `delete_site`: the record is marked removed and committed straight away, the removal
      being a background task with `skip_backup` and the stored reason. */
  method DeleteSite(store: TenantStore, token: Jwt.Token, secret: string, now: int, clientIp: Option<string>)
    returns (r: Outcome<string>)
    requires store.Valid()
    modifies store
    ensures store.Valid() && Evolves(old(store.rows), store.rows)
    ensures store.outbox == old(store.outbox)
    ensures var current := Auth.GetCurrentSite(old(store.rows), token, secret, now);
      && (current.Fail? ==>
            r == Fail(current.status, current.detail) && store.rows == old(store.rows) && store.jobs == old(store.jobs))
      && (current.Ok? ==>
            && r == Ok(Account.RemovalStartedMessage)
            && store.rows == Replace(old(store.rows),
                 Account.MarkedRemoved(current.value, clientIp, SettingsDeletionReason, now))
            && store.jobs == old(store.jobs) + [RemoveJob(current.value.tag, true, SettingsDeletionReason)])
  {
    r := Account.RequestRemoval(store, token, secret, now, clientIp, SettingsDeletionReason);
  }

  /** What an export is made of: the site, the paths left out, and the download name. */
  datatype ExportPlan = ExportPlan(site: Site, excludes: seq<string>, filename: string)

  /** `export_data`: the authenticated site's archive without its sensitive paths. Whether
      the archiving succeeded is `backupOk`; any failure there is a 500. */
  function ExportData(rows: seq<Site>, token: Jwt.Token, secret: string, now: int, backupOk: bool)
    : (r: Outcome<ExportPlan>)
    ensures var current := Auth.GetCurrentSite(rows, token, secret, now);
      && (current.Fail? ==> r == Fail(current.status, current.detail))
      && (current.Ok? && !backupOk ==> r == Fail(500, ExportFailedMessage))
      && (current.Ok? && backupOk ==>
            r.Ok? && r.value.site == current.value
            && r.value.excludes == Account.ExportExcludes(current.value.siteType)
            && r.value.filename == current.value.tag + "-export.tar.gz")
  {
    match Auth.GetCurrentSite(rows, token, secret, now)
    case Fail(status, detail) => Fail(status, detail)
    case Ok(site) =>
      if !backupOk then Fail(500, ExportFailedMessage)
      else Ok(ExportPlan(site, Account.ExportExcludes(site.siteType), site.tag + "-export.tar.gz"))
  }

  /** Every export of a known site type leaves out the configuration and the logs; the
      export of a site of any other type leaves out nothing. */
  lemma ExportHidesSecrets(rows: seq<Site>, token: Jwt.Token, secret: string, now: int)
    requires ExportData(rows, token, secret, now, true).Ok?
    ensures var plan := ExportData(rows, token, secret, now, true).value;
      && (plan.site.siteType in ["flarum", "mediawiki", "wordpress"] ==>
            "/etc/config.json" in plan.excludes && "/logs/**" in plan.excludes)
      && (plan.site.siteType !in ["flarum", "mediawiki", "wordpress"] ==> plan.excludes == [])
      && !plan.site.IsRemoved()
  {
    var plan := ExportData(rows, token, secret, now, true).value;
    assert Account.SensitivePaths[1] == "/etc/config.json";
    assert Account.SensitivePaths[3] == "/logs/**";
  }
}

=== FILE: signup.dfy ===
/** Self-service signup (api/v1/signup.py): request validation, the insert of the new
    tenant row, and the background step that marks it installed. */
module Signup {
  import opened Common
  import Settings
  import Tags
  import Jwt
  import Auth
  import opened Models

  const InvalidSiteTypeMessage: string := "Invalid site type."
  const InvalidParentDomainMessage: string := "Invalid parent domain."
  const TagTakenMessage: string := "A site with this tag already exists"
  const InstallingMessage: string := "Your site is being installed. Check your email to set your password."

  datatype SignupRequest = SignupRequest(
    tag: string,
    email: string,
    siteType: string,
    parentDomain: string,
    turnstileToken: string)

  datatype SignupResponse = SignupResponse(message: string, siteTag: string, hostname: string)

  /** `f"{tag}.{parent_domain}"`. */
  function SiteHostname(tag: string, parentDomain: string): string {
    tag + "." + parentDomain
  }

  /** The row `signup` adds: not installed, not removed, no donation yet, and only the
      throwaway password hash. */
  function NewSite(req: SignupRequest, throwawayHash: string, now: int): Site {
    Site(req.tag, req.email, throwawayHash, req.siteType, SiteHostname(req.tag, req.parentDomain),
         None, None, None, None, None, None, None, Some(0.0), now)
  }

  /** Everything `signup` checks before touching the table, in its order: the request
      model's validation (a 422: the tag validator, then the `EmailStr` field), then the
      Turnstile verdict, the site type and the parent domain. `parsedEmail` is the
      address as `EmailStr` normalised it, or none when it was rejected; the accepted
      request carries the normalised address. The blacklist is not consulted. */
  function CheckSignup(vars: Settings.Vars, req: SignupRequest, parsedEmail: Option<string>, turnstileOk: bool)
    : (r: Outcome<SignupRequest>)
    ensures r.Ok? <==>
      Tags.ValidateTag(req.tag).Accepted? && parsedEmail.Some? && turnstileOk
      && req.siteType in Settings.AvailableSiteTypes && req.parentDomain in vars.allowedDomains
    ensures r.Ok? ==> r.value == req.(email := parsedEmail.value)
    ensures Tags.ValidateTag(req.tag).Rejected? ==> r == Fail(422, Tags.ValidateTag(req.tag).message)
    ensures Tags.ValidateTag(req.tag).Accepted? && parsedEmail.None? ==> r == Fail(422, InvalidEmailMessage)
    ensures Tags.ValidateTag(req.tag).Accepted? && parsedEmail.Some? && !turnstileOk ==>
      r == Fail(400, TurnstileFailedMessage)
    ensures (Tags.ValidateTag(req.tag).Accepted? && parsedEmail.Some? && turnstileOk
             && req.siteType !in Settings.AvailableSiteTypes) ==> r == Fail(400, InvalidSiteTypeMessage)
    ensures (Tags.ValidateTag(req.tag).Accepted? && parsedEmail.Some? && turnstileOk
             && req.siteType in Settings.AvailableSiteTypes
             && req.parentDomain !in vars.allowedDomains) ==> r == Fail(400, InvalidParentDomainMessage)
    ensures r.Fail? && r.status == 400 ==>
      r.detail in [TurnstileFailedMessage, InvalidSiteTypeMessage, InvalidParentDomainMessage]
  {
    match Tags.ValidateTag(req.tag)
    case Rejected(message) => Fail(422, message)
    case Accepted(_) =>
      if parsedEmail.None? then Fail(422, InvalidEmailMessage)
      else if !turnstileOk then Fail(400, TurnstileFailedMessage)
      else if req.siteType !in Settings.AvailableSiteTypes then Fail(400, InvalidSiteTypeMessage)
      else if req.parentDomain !in vars.allowedDomains then Fail(400, InvalidParentDomainMessage)
      else Ok(req.(email := parsedEmail.value))
  }

  /** A request for any reserved name passes every signup check that an ordinary tag
      would pass. */
  lemma BlacklistNotConsulted(vars: Settings.Vars, req: SignupRequest, email: string)
    requires req.tag in Settings.BlacklistedTags
    requires req.siteType in Settings.AvailableSiteTypes && req.parentDomain in vars.allowedDomains
    ensures Tags.IsTagBlacklisted(req.tag) && CheckSignup(vars, req, Some(email), true) == Ok(req.(email := email))
  {
    Tags.ReservedNamesAreValidTags(req.tag);
  }

  /** `signup`: on success the table gains exactly the new row and a provisioning task is
      scheduled with a reset link bound to its throwaway password hash. */
  method SignupHandler(store: TenantStore, vars: Settings.Vars, req: SignupRequest, parsedEmail: Option<string>,
                       turnstileOk: bool, throwawayHash: string, sha: Auth.Digest, now: int)
    returns (r: Outcome<SignupResponse>)
    requires store.Valid()
    modifies store
    ensures store.Valid() && Evolves(old(store.rows), store.rows)
    ensures store.outbox == old(store.outbox)
    ensures var check := CheckSignup(vars, req, parsedEmail, turnstileOk);
      check.Fail? ==>
        && r == Fail(check.status, check.detail)
        && store.rows == old(store.rows) && store.jobs == old(store.jobs)
    ensures CheckSignup(vars, req, parsedEmail, turnstileOk).Ok? && HasTag(old(store.rows), req.tag) ==>
      r == Fail(400, TagTakenMessage) && store.rows == old(store.rows) && store.jobs == old(store.jobs)
    ensures var check := CheckSignup(vars, req, parsedEmail, turnstileOk);
      check.Ok? && !HasTag(old(store.rows), req.tag) ==>
        && r == Ok(SignupResponse(InstallingMessage, req.tag, SiteHostname(req.tag, req.parentDomain)))
        && store.rows == old(store.rows) + [NewSite(check.value, throwawayHash, now)]
        && store.jobs == old(store.jobs)
                         + [ProvisionJob(req.tag, Auth.CreateResetToken(req.tag, throwawayHash, sha, vars.jwtSecret, now))]
  {
    var check := CheckSignup(vars, req, parsedEmail, turnstileOk);
    if check.Fail? {
      return Fail(check.status, check.detail);
    }
    var site := NewSite(check.value, throwawayHash, now);
    var inserted := store.Insert(site);
    if !inserted {
      return Fail(400, TagTakenMessage);
    }
    var resetToken := Auth.CreateResetToken(site.tag, site.adminPassword, sha, vars.jwtSecret, now);
    store.Schedule(ProvisionJob(site.tag, resetToken));
    r := Ok(SignupResponse(InstallingMessage, site.tag, site.hostname));
  }

  /** The hostname of an accepted signup has the chosen domain as its parent domain, when
      that domain has two labels as the configured ones do. */
  lemma {:induction false} SignupParentDomain(vars: Settings.Vars, req: SignupRequest, parsedEmail: Option<string>,
                                              turnstileOk: bool, name: string, tld: string,
                                              throwawayHash: string, now: int)
    requires CheckSignup(vars, req, parsedEmail, turnstileOk).Ok?
    requires req.parentDomain == name + "." + tld && '.' !in name && '.' !in tld
    ensures NewSite(req, throwawayHash, now).ParentDomain() == req.parentDomain
    ensures !NewSite(req, throwawayHash, now).IsInstalled() && !NewSite(req, throwawayHash, now).IsDonor()
  {
    ParentDomainOfSubdomain(req.tag, name, tld);
    assert SiteHostname(req.tag, req.parentDomain) == req.tag + "." + name + "." + tld;
  }

  /** The reset link handed to provisioning opens, for 48 hours, on the new row's tag and
      the fingerprint of its current password hash. */
  lemma ProvisioningLinkBound(req: SignupRequest, throwawayHash: string, sha: Auth.Digest, secret: string,
                              issued: int, now: int)
    requires issued <= now < issued + Auth.ResetLifetime
    ensures var site := NewSite(req, throwawayHash, issued);
      Auth.DecodeResetToken(Auth.CreateResetToken(site.tag, site.adminPassword, sha, secret, issued), secret, now)
        == Ok(Auth.ResetClaim(site.tag, Auth.PasswordFingerprint(sha, site.adminPassword)))
  {
    Auth.ResetRoundTrip(req.tag, throwawayHash, sha, secret, issued, now);
  }

  /** `_provision_and_finalize`: `installed_at` is set only once the provisioning job has
      returned; a failed job leaves the row as it was. */
  method ProvisionAndFinalize(store: TenantStore, tag: string, provisionOk: bool, now: int)
    requires store.Valid()
    modifies store
    ensures store.Valid() && Evolves(old(store.rows), store.rows)
    ensures store.jobs == old(store.jobs) && store.outbox == old(store.outbox)
    ensures provisionOk && Get(old(store.rows), tag).Some? ==>
      store.rows == Replace(old(store.rows), Get(old(store.rows), tag).value.(installedAt := Some(now)))
    ensures !provisionOk || Get(old(store.rows), tag).None? ==> store.rows == old(store.rows)
  {
    var found := Get(store.rows, tag);
    if found.None? || !provisionOk {
      return;
    }
    var site := found.value;
    store.Commit(site, site.(installedAt := Some(now)));
  }
}

=== FILE: site_manager.dfy ===
/** The site manager's entry points (site_manager/__init__.py): thin forwards to the
    Ansible wrapper, plus the database update after an installation. */
module SiteManager {
  import opened Common
  import opened Playbook
  import opened Models
  import AnsibleRunner

  /** `create_site`: provisions without creating a record; the database password is the
      caller's, or the freshly generated `generated` when none was given. */
  function CreateSite(env: map<string, string>, tag: string, serviceType: string, adminEmail: string,
                      adminPassword: string, dbPassword: Option<string>, generated: string, force: bool,
                      status: string, rc: int): (r: RunOutcome<AnsibleRunner.Invocation>)
    ensures r.Completed? <==> status == Successful
    ensures r.Completed? ==> "tenant_db_password" in r.invocation.extravars && "force" in r.invocation.extravars
    ensures r.Completed? && dbPassword.Some? ==> r.invocation.extravars["tenant_db_password"] == Str(dbPassword.value)
    ensures r.Completed? && dbPassword.None? ==> r.invocation.extravars["tenant_db_password"] == Str(generated)
    ensures r.Completed? ==> r.invocation.extravars["force"] == Bool(force)
  {
    var password := if dbPassword.None? then generated else dbPassword.value;
    AnsibleRunner.ProvisionTenant(env, tag, serviceType, adminEmail, adminPassword, password, force, status, rc)
  }

  /** `install_site`: provisions the record's tenant with a fresh database password and, only
      if the playbook returned, commits `installed_at`. */
  method InstallSite(store: TenantStore, site: Site, env: map<string, string>, generated: string,
                     status: string, rc: int, now: int) returns (r: RunOutcome<AnsibleRunner.Invocation>)
    requires store.Valid() && site in store.rows
    modifies store
    ensures store.Valid() && Evolves(old(store.rows), store.rows)
    ensures store.jobs == old(store.jobs) && store.outbox == old(store.outbox)
    ensures r == AnsibleRunner.ProvisionTenant(env, site.tag, site.siteType, site.adminEmail, site.adminPassword,
                                               generated, false, status, rc)
    ensures r.Completed? <==> status == Successful
    ensures r.Raised? ==>
      r.error == AnsibleError(AnsibleRunner.FailureMessage(AnsibleRunner.ProvisionPlaybook, status), status, rc)
    ensures r.Completed? ==> store.rows == Replace(old(store.rows), site.(installedAt := Some(now)))
    ensures r.Raised? ==> store.rows == old(store.rows)
  {
    r := AnsibleRunner.ProvisionTenant(env, site.tag, site.siteType, site.adminEmail, site.adminPassword,
                                       generated, false, status, rc);
    if r.Raised? {
      return;
    }
    store.Commit(site, site.(installedAt := Some(now)));
  }

  /** `remove_site`: forwards its arguments unchanged. */
  function RemoveSite(env: map<string, string>, tag: string, serviceType: string, skipBackup: bool,
                      status: string, rc: int): (r: RunOutcome<AnsibleRunner.Invocation>)
    ensures r.Completed? <==> status == Successful
    ensures r.Raised? ==>
      r.error == AnsibleError(AnsibleRunner.FailureMessage(AnsibleRunner.RemovalPlaybook, status), status, rc)
    ensures r.Completed? ==> "tenant_tag" in r.invocation.extravars && r.invocation.extravars["tenant_tag"] == Str(tag)
    ensures r.Completed? ==> "skip_backup" in r.invocation.extravars && r.invocation.extravars["skip_backup"] == Bool(skipBackup)
  {
    AnsibleRunner.RemoveTenant(env, tag, serviceType, skipBackup, status, rc)
  }

  /** `backup_site`: forwards its arguments unchanged. */
  function BackupSite(env: map<string, string>, tag: string, serviceType: string, status: string, rc: int)
    : (r: RunOutcome<AnsibleRunner.Invocation>)
    ensures r.Completed? <==> status == Successful
    ensures r.Completed? ==> "tenant_tag" in r.invocation.extravars && r.invocation.extravars["tenant_tag"] == Str(tag)
  {
    AnsibleRunner.BackupTenant(env, tag, serviceType, status, rc)
  }
}

=== FILE: sites_api.dfy ===
/** The operator's site endpoints (api/v1/sites.py): listing, lookup, installation and
    removal, the last two running their playbook before the record is touched. */
module SitesApi {
  import opened Common
  import opened Playbook
  import opened Models
  import AnsibleRunner
  import SiteManager

  const SiteNotFoundMessage: string := "Site not found"
  const AlreadyInstalledMessage: string := "Site already installed"
  const InstalledMessage: string := "Site installed successfully"
  const RemovedMessage: string := "Site removed successfully"
  const InstallFailedPrefix: string := "Failed to install site: "
  const RemoveFailedPrefix: string := "Failed to remove site: "
  const GdprReason: string := "GDPR deletion"
  const UserReason: string := "User requested"

  // ----- list_sites -----

  /** `ORDER BY created_at DESC`. */
  ghost predicate NewestFirst(s: seq<Site>) {
    forall i, j :: 0 <= i < j < |s| ==> s[i].createdAt >= s[j].createdAt
  }

  /** One site put into a newest-first list, in front of the first older one. */
  function InsertByAge(site: Site, sorted: seq<Site>): seq<Site> {
    if sorted == [] then [site]
    else if site.createdAt >= sorted[0].createdAt then [site] + sorted
    else [sorted[0]] + InsertByAge(site, sorted[1..])
  }

  /** Insertion adds exactly the one site, and puts it or the old head first. */
  lemma {:induction false} InsertByAgeContents(site: Site, sorted: seq<Site>)
    ensures multiset(InsertByAge(site, sorted)) == multiset(sorted) + multiset{site}
    ensures |InsertByAge(site, sorted)| == |sorted| + 1
    ensures InsertByAge(site, sorted)[0] == site || (sorted != [] && InsertByAge(site, sorted)[0] == sorted[0])
  {
    if sorted != [] && site.createdAt < sorted[0].createdAt {
      InsertByAgeContents(site, sorted[1..]);
      assert sorted == [sorted[0]] + sorted[1..];
    }
  }

  lemma NewestFirstTail(sorted: seq<Site>)
    requires NewestFirst(sorted) && sorted != []
    ensures NewestFirst(sorted[1..])
  {
    var tail := sorted[1..];
    forall i, j | 0 <= i < j < |tail| ensures tail[i].createdAt >= tail[j].createdAt {
      assert tail[i] == sorted[i + 1] && tail[j] == sorted[j + 1];
    }
  }

  lemma NewestFirstCons(x: Site, rest: seq<Site>)
    requires NewestFirst(rest) && (rest == [] || x.createdAt >= rest[0].createdAt)
    ensures NewestFirst([x] + rest)
  {
    var r := [x] + rest;
    forall i, j | 0 <= i < j < |r| ensures r[i].createdAt >= r[j].createdAt {
      if i == 0 {
        assert r[j] == rest[j - 1];
        if j > 1 { assert rest[0].createdAt >= rest[j - 1].createdAt; }
      } else {
        assert r[i] == rest[i - 1] && r[j] == rest[j - 1];
      }
    }
  }

  /** Insertion keeps a newest-first list newest first. */
  lemma {:induction false} InsertByAgeSorted(site: Site, sorted: seq<Site>)
    requires NewestFirst(sorted)
    ensures NewestFirst(InsertByAge(site, sorted))
  {
    if sorted == [] {
    } else if site.createdAt >= sorted[0].createdAt {
      NewestFirstCons(site, sorted);
    } else {
      var tail := sorted[1..];
      NewestFirstTail(sorted);
      InsertByAgeSorted(site, tail);
      InsertByAgeContents(site, tail);
      var rest := InsertByAge(site, tail);
      if tail != [] && rest[0] == tail[0] {
        assert tail[0] == sorted[1];
      }
      NewestFirstCons(sorted[0], rest);
    }
  }

  lemma MultisetCons(rows: seq<Site>)
    requires rows != []
    ensures multiset(rows) == multiset(rows[1..]) + multiset{rows[0]}
  {
    assert rows == [rows[0]] + rows[1..];
  }

  /** Insertion sort on `created_at`, newest first. */
  function SortByAge(rows: seq<Site>): (r: seq<Site>)
    ensures NewestFirst(r)
    ensures multiset(r) == multiset(rows)
  {
    if rows == [] then []
    else
      var rest := SortByAge(rows[1..]);
      InsertByAgeSorted(rows[0], rest);
      InsertByAgeContents(rows[0], rest);
      MultisetCons(rows);
      InsertByAge(rows[0], rest)
  }

  /** `list_sites`: the non-removed rows, newest first (rows created at the same moment
      come in no promised order). */
  function ListSites(rows: seq<Site>): (r: seq<Site>)
    ensures NewestFirst(r)
    ensures multiset(r) == multiset(Where(rows, [RemovedAtIsNull]))
  {
    SortByAge(Where(rows, [RemovedAtIsNull]))
  }

  /** A site is listed iff it is in the table and not removed. */
  lemma ListSitesMembers(rows: seq<Site>, s: Site)
    ensures s in ListSites(rows) <==> s in rows && !s.IsRemoved()
  {
    var fs := [RemovedAtIsNull];
    assert AllHold(fs, s) <==> Holds(fs[0], s);
    assert s in ListSites(rows) <==> s in multiset(Where(rows, fs));
  }

  // ----- get_site -----

  /** `db.get(Site, site_id)` followed by the removed check. */
  function GetSite(rows: seq<Site>, siteId: string): (r: Outcome<Site>)
    ensures r.Ok? ==> r.value in rows && r.value.tag == siteId && !r.value.IsRemoved()
    ensures r.Fail? ==> r == Fail(404, SiteNotFoundMessage)
    ensures r.Fail? <==> Get(rows, siteId).None? || Get(rows, siteId).value.IsRemoved()
  {
    match Get(rows, siteId)
    case None => Fail(404, SiteNotFoundMessage)
    case Some(site) => if site.IsRemoved() then Fail(404, SiteNotFoundMessage) else Ok(site)
  }

  /** With unique tags, a 404 means no active row carries the id. */
  lemma GetSiteNotFound(rows: seq<Site>, siteId: string)
    requires UniqueTags(rows)
    ensures GetSite(rows, siteId).Fail? <==>
      forall i :: 0 <= i < |rows| && rows[i].tag == siteId ==> rows[i].IsRemoved()
  {
    var g := Get(rows, siteId);
    if g.Some? {
      var j :| 0 <= j < |rows| && rows[j] == g.value;
      forall i | 0 <= i < |rows| && rows[i].tag == siteId ensures rows[i] == g.value {
        assert i == j;
      }
    }
  }

  // ----- the job failure -----

  /** `except AnsibleError as e: raise HTTPException(500, prefix + str(e))`; any other
      exception escapes the handler and becomes the generic 500. */
  function JobFailure(prefix: string, e: PlaybookError): (r: Outcome<string>)
    ensures r.Fail? && r.status == 500
    ensures e.AnsibleError? ==> r.detail == prefix + e.message
    ensures !e.AnsibleError? ==> r.detail == InternalServerError
  {
    match e
    case AnsibleError(message, _, _) => Fail(500, prefix + message)
    case _ => Fail(500, InternalServerError)
  }

  /** With `AnsibleError` as written, a failed installation never reaches the handler's
      own message: the client sees only the generic 500. With the corrected class it sees
      the playbook and its status. */
  lemma InstallFailureDetail(env: map<string, string>, vars: map<string, Val>, status: string, rc: int)
    requires status != Successful
    ensures JobFailure(InstallFailedPrefix, AnsibleRunner.RunPlaybookAsWritten(env, AnsibleRunner.ProvisionPlaybook, vars, None,
                                                                     status, rc).error)
         == Fail(500, InternalServerError)
    ensures JobFailure(InstallFailedPrefix, AnsibleRunner.RunPlaybook(env, AnsibleRunner.ProvisionPlaybook, vars, None,
                                                            status, rc).error)
         == Fail(500, InstallFailedPrefix + AnsibleRunner.FailureMessage(AnsibleRunner.ProvisionPlaybook, status))
  {
  }

  // ----- install_site_endpoint -----

  /** `install_site_endpoint`: 404, then 400 for an installed site without running the
      job, then the job; `installed_at` is set only when the job returned. */
  method InstallSiteEndpoint(store: TenantStore, siteId: string, env: map<string, string>, generated: string,
                             status: string, rc: int, now: int) returns (r: Outcome<string>)
    requires store.Valid()
    modifies store
    ensures store.Valid() && Evolves(old(store.rows), store.rows)
    ensures store.jobs == old(store.jobs) && store.outbox == old(store.outbox)
    ensures var found := GetSite(old(store.rows), siteId);
      && (found.Fail? ==> r == Fail(404, SiteNotFoundMessage) && store.rows == old(store.rows))
      && (found.Ok? && found.value.IsInstalled() ==>
            r == Fail(400, AlreadyInstalledMessage) && store.rows == old(store.rows))
      && (found.Ok? && !found.value.IsInstalled() && status == Successful ==>
            r == Ok(InstalledMessage)
            && store.rows == Replace(old(store.rows), found.value.(installedAt := Some(now))))
      && (found.Ok? && !found.value.IsInstalled() && status != Successful ==>
            r == Fail(500, InstallFailedPrefix + AnsibleRunner.FailureMessage(AnsibleRunner.ProvisionPlaybook, status))
            && store.rows == old(store.rows))
  {
    var found := GetSite(store.rows, siteId);
    if found.Fail? {
      return Fail(404, SiteNotFoundMessage);
    }
    var site := found.value;
    if site.IsInstalled() {
      return Fail(400, AlreadyInstalledMessage);
    }
    var run := SiteManager.InstallSite(store, site, env, generated, status, rc, now);
    if run.Raised? {
      return JobFailure(InstallFailedPrefix, run.error);
    }
    r := Ok(InstalledMessage);
  }

  // ----- delete_site -----

  /** The request body; `skip_backup` defaults to false. */
  datatype RemoveSiteRequest = RemoveSiteRequest(skipBackup: bool)

  function RemovalReason(skipBackup: bool): (r: string)
    ensures r == GdprReason <==> skipBackup
    ensures !skipBackup ==> r == UserReason
  {
    if skipBackup then GdprReason else UserReason
  }

  /** `delete_site`: 404, then the removal job; only when it returned is the record marked
      removed, with the reason that matches `skip_backup`. */
  method DeleteSite(store: TenantStore, siteId: string, request: RemoveSiteRequest, env: map<string, string>,
                    status: string, rc: int, now: int) returns (r: Outcome<string>)
    requires store.Valid()
    modifies store
    ensures store.Valid() && Evolves(old(store.rows), store.rows)
    ensures store.jobs == old(store.jobs) && store.outbox == old(store.outbox)
    ensures var found := GetSite(old(store.rows), siteId);
      && (found.Fail? ==> r == Fail(404, SiteNotFoundMessage) && store.rows == old(store.rows))
      && (found.Ok? && status == Successful ==>
            r == Ok(RemovedMessage)
            && store.rows == Replace(old(store.rows),
                 found.value.(removedAt := Some(now), removalReason := Some(RemovalReason(request.skipBackup)))))
      && (found.Ok? && status != Successful ==>
            r == Fail(500, RemoveFailedPrefix + AnsibleRunner.FailureMessage(AnsibleRunner.RemovalPlaybook, status))
            && store.rows == old(store.rows))
  {
    var found := GetSite(store.rows, siteId);
    if found.Fail? {
      return Fail(404, SiteNotFoundMessage);
    }
    var site := found.value;
    var run := SiteManager.RemoveSite(env, site.tag, site.siteType, request.skipBackup, status, rc);
    if run.Raised? {
      return JobFailure(RemoveFailedPrefix, run.error);
    }
    store.Commit(site, site.(removedAt := Some(now), removalReason := Some(RemovalReason(request.skipBackup))));
    r := Ok(RemovedMessage);
  }

  /** Once deleted, the site is gone for every endpoint here. */
  lemma DeletedSiteNotFound(rows: seq<Site>, site: Site, reason: string, now: int)
    requires UniqueTags(rows) && site in rows && !site.IsRemoved()
    ensures GetSite(Replace(rows, site.(removedAt := Some(now), removalReason := Some(reason))), site.tag)
         == Fail(404, SiteNotFoundMessage)
  {
    var removed := site.(removedAt := Some(now), removalReason := Some(reason));
    ReplaceEvolves(rows, site, removed);
    var after := Replace(rows, removed);
    var g := Get(after, site.tag);
    if g.Some? {
      var k :| 0 <= k < |after| && after[k] == g.value;
      assert after[k] == removed;
    }
  }
}

=== FILE: table.dfy ===
/** The column widths of the operator tables (`_print_table` in cli/cleanup_sites.py and
    cli/list_sites.py, which are the same code). */
module Table {

  /** The width of column `c`: the longest of its header and of its cells in every row
      that reaches it. */
  function Width(headers: seq<string>, rows: seq<seq<string>>, c: nat): (w: nat)
    requires c < |headers|
    ensures w >= |headers[c]|
    ensures forall k :: 0 <= k < |rows| && c < |rows[k]| ==> w >= |rows[k][c]|
    ensures w == |headers[c]| || exists k :: 0 <= k < |rows| && c < |rows[k]| && w == |rows[k][c]|
  {
    if rows == [] then |headers[c]|
    else
      var init := rows[..|rows| - 1];
      var prev := Width(headers, init, c);
      var last := rows[|rows| - 1];
      assert forall k :: 0 <= k < |init| ==> init[k] == rows[k];
      if c < |last| && |last[c]| > prev then |last[c]| else prev
  }

  /** The width list `_print_table` computes before printing: one entry per header,
      widened cell by cell. A row longer than the headers would raise `IndexError`. */
  method ColumnWidths(headers: seq<string>, rows: seq<seq<string>>) returns (widths: seq<nat>)
    requires forall k :: 0 <= k < |rows| ==> |rows[k]| <= |headers|
    ensures |widths| == |headers|
    ensures forall c :: 0 <= c < |headers| ==> widths[c] == Width(headers, rows, c)
  {
    var w := new nat[|headers|];
    for c := 0 to |headers|
      invariant forall j :: 0 <= j < c ==> w[j] == |headers[j]|
    {
      w[c] := |headers[c]|;
    }
    assert rows[..0] == [];
    for r := 0 to |rows|
      invariant forall c :: 0 <= c < |headers| ==> w[c] == Width(headers, rows[..r], c)
    {
      var row := rows[r];
      assert rows[..r + 1][..r] == rows[..r];
      for i := 0 to |row|
        invariant forall c :: 0 <= c < i ==> w[c] == Width(headers, rows[..r + 1], c)
        invariant forall c :: i <= c < |headers| ==> w[c] == Width(headers, rows[..r], c)
      {
        w[i] := if w[i] >= |row[i]| then w[i] else |row[i]|;
      }
      assert forall c :: |row| <= c < |headers| ==> Width(headers, rows[..r + 1], c) == Width(headers, rows[..r], c);
    }
    assert rows[..|rows|] == rows;
    widths := w[..];
  }

  /** A table without rows is as wide as its headers. */
  lemma HeadersOnly(headers: seq<string>, c: nat)
    requires c < |headers|
    ensures Width(headers, [], c) == |headers[c]|
  {
  }
}

=== FILE: tags.dfy ===
/** Tag validation and the reserved-tag check (utils/__init__.py). */
module Tags {
  import opened Common
  import Settings

  const MaxTagLength: int := 32
  const MinTagLength: int := 3
  const InttestTagPrefix: string := "inttest_"

  const TooLongMessage: string := "Tag must be less than 32 characters."
  const TooShortMessage: string := "Tag must be at least 3 characters."
  const BadCharsMessage: string := "Tag must contain only letters, digits, and underscores."

  datatype TagCheck = Accepted(tag: string) | Rejected(message: string)

  /** The character class `[a-zA-Z0-9_]`. */
  predicate IsTagChar(c: char) {
    ('a' <= c <= 'z') || ('A' <= c <= 'Z') || ('0' <= c <= '9') || c == '_'
  }

  predicate AllTagChars(s: string) {
    forall i :: 0 <= i < |s| ==> IsTagChar(s[i])
  }

  /** `re.match(r"^[a-zA-Z0-9_]+$", s)` as Python evaluates it: without MULTILINE, `$`
      matches at the very end and also just before one final newline. */
  predicate PatternMatchesAsWritten(s: string) {
    (|s| >= 1 && AllTagChars(s))
    || (|s| >= 2 && s[|s| - 1] == '\n' && AllTagChars(s[..|s| - 1]))
  }

  /** The pattern as evidently intended: the whole string is one or more tag characters. */
  predicate PatternFullMatches(s: string) {
    |s| >= 1 && AllTagChars(s)
  }

  /** `validate_tag` exactly as written, with the trailing-newline tolerance of `$`. */
  function ValidateTagAsWritten(tag: string): (r: TagCheck)
    ensures r.Accepted? <==> MinTagLength <= |tag| <= MaxTagLength && PatternMatchesAsWritten(tag)
    ensures r.Accepted? ==> r.tag == tag
  {
    if |tag| > MaxTagLength then Rejected(TooLongMessage)
    else if |tag| < MinTagLength then Rejected(TooShortMessage)
    else if !PatternMatchesAsWritten(tag) then Rejected(BadCharsMessage)
    else Accepted(tag)
  }

  /** The as-written validator accepts a tag ending in a newline, a character outside the
      class the error message promises. */
  lemma TrailingNewlineAccepted()
    ensures ValidateTagAsWritten("abc\n") == Accepted("abc\n")
    ensures !AllTagChars("abc\n")
  {
    assert "abc\n"[..3] == "abc";
    assert !IsTagChar("abc\n"[3]);
  }

  /** `validate_tag` with the pattern matched against the whole string. */
  function ValidateTag(tag: string): (r: TagCheck)
    ensures r.Accepted? <==> MinTagLength <= |tag| <= MaxTagLength && AllTagChars(tag)
    ensures r.Accepted? ==> r.tag == tag
    ensures |tag| > MaxTagLength ==> r == Rejected(TooLongMessage)
    ensures MinTagLength > |tag| ==> r == Rejected(TooShortMessage)
    ensures MinTagLength <= |tag| <= MaxTagLength && !AllTagChars(tag) ==> r == Rejected(BadCharsMessage)
  {
    if |tag| > MaxTagLength then Rejected(TooLongMessage)
    else if |tag| < MinTagLength then Rejected(TooShortMessage)
    else if !PatternFullMatches(tag) then Rejected(BadCharsMessage)
    else Accepted(tag)
  }

  /** Both validators agree on every tag without a newline. */
  lemma AsWrittenAgreesWithoutNewline(tag: string)
    requires '\n' !in tag
    ensures ValidateTagAsWritten(tag) == ValidateTag(tag)
  {
    if |tag| >= 2 {
      assert tag[|tag| - 1] in tag;
    }
  }

  /** Validating a tag that was already returned returns it again. */
  lemma ValidateTagIdempotent(tag: string)
    requires ValidateTag(tag).Accepted?
    ensures ValidateTag(ValidateTag(tag).tag) == ValidateTag(tag)
  {
  }

  /** 32 characters is the largest accepted length, despite the "less than 32" message. */
  lemma LengthBoundary()
    ensures ValidateTag(seq(32, _ => 'a')).Accepted?
    ensures ValidateTag(seq(33, _ => 'a')) == Rejected(TooLongMessage)
    ensures ValidateTag("ab") == Rejected(TooShortMessage)
    ensures ValidateTag("my-site") == Rejected(BadCharsMessage)
  {
    assert !IsTagChar("my-site"[2]);
  }

  /** `is_tag_blacklisted`: a reserved name, or the integration-test prefix. */
  predicate IsTagBlacklisted(tag: string) {
    tag in Settings.BlacklistedTags || StartsWith(tag, InttestTagPrefix)
  }

  /** Every reserved name is itself a valid tag, so the validator alone never turns one
      away. */
  lemma ReservedNamesAreValidTags(tag: string)
    requires tag in Settings.BlacklistedTags
    ensures IsTagBlacklisted(tag) && ValidateTag(tag) == Accepted(tag)
  {
  }
}

=== FILE: webhook.dfy ===
/** The Ko-fi donation webhook (api/v1/webhook.py): the payload is authenticated by its
    verification token, the site is found from the donor's message or else the donor's
    e-mail, and the amount is credited to it. */
module Webhook {
  import opened Common
  import opened Models
  import Settings
  import Tags
  import Donations

  const InvalidPayloadMessage: string := "Invalid payload"
  const InvalidVerificationMessage: string := "Invalid verification token"
  const StatusOk: string := "ok"

  /** The fields of the Ko-fi payload the handler reads. */
  datatype KofiData = KofiData(
    verificationToken: string,
    message: Option<string>,
    amount: string,
    email: string)

  /** Removes a leading `http://` or `https://` (`^https?://`). */
  function StripScheme(s: string): (r: string)
    ensures EndsWith(s, r)
    ensures StartsWith(s, "https://") ==> r == s[8..]
    ensures !StartsWith(s, "https://") && StartsWith(s, "http://") ==> r == s[7..]
    ensures !StartsWith(s, "https://") && !StartsWith(s, "http://") ==> r == s
  {
    if StartsWith(s, "https://") then s[8..]
    else if StartsWith(s, "http://") then s[7..]
    else s
  }

  /** `[\w.\-]`, with `\w` taken over ASCII. */
  predicate IsHostChar(c: char) {
    Tags.IsTagChar(c) || c == '.' || c == '-'
  }

  /** `re.sub(r"[^\w.\-]", "", s)`: the host characters of `s`, in order. */
  function KeepHostChars(s: string): (r: string)
    ensures |r| <= |s|
    ensures forall i :: 0 <= i < |r| ==> IsHostChar(r[i])
    ensures forall c :: c in r ==> c in s
  {
    if s == [] then []
    else (if IsHostChar(s[0]) then [s[0]] else []) + KeepHostChars(s[1..])
  }

  /** A string of host characters is kept whole, so the clean-up is idempotent. */
  lemma {:induction false} KeepHostCharsIdentity(s: string)
    requires forall i :: 0 <= i < |s| ==> IsHostChar(s[i])
    ensures KeepHostChars(s) == s
  {
    if s != [] {
      KeepHostCharsIdentity(s[1..]);
      assert [s[0]] + s[1..] == s;
    }
  }

  lemma KeepHostCharsIdempotent(s: string)
    ensures KeepHostChars(KeepHostChars(s)) == KeepHostChars(s)
  {
    KeepHostCharsIdentity(KeepHostChars(s));
  }

  /** The host part of the donor's message: no scheme, nothing from the first `/` on, and
      only host characters. */
  function JustHost(message: string): (r: string)
    ensures forall i :: 0 <= i < |r| ==> IsHostChar(r[i])
    ensures '/' !in r
  {
    KeepHostChars(Split(StripScheme(message), '/')[0])
  }

  /** A bare host name is its own host part. */
  lemma JustHostOfHost(host: string)
    requires forall i :: 0 <= i < |host| ==> IsHostChar(host[i])
    ensures JustHost(host) == host
  {
    assert '/' !in host;
    assert !StartsWith(host, "https://") && !StartsWith(host, "http://") by {
      if |host| >= 7 {
        assert host[6] != '/';
      }
    }
    SplitNoSep(host, '/');
    KeepHostCharsIdentity(host);
  }

  /** A link to a page of a site yields the site's host name. */
  lemma JustHostOfLink(host: string, path: string)
    requires forall i :: 0 <= i < |host| ==> IsHostChar(host[i])
    ensures JustHost("https://" + host + "/" + path) == host
  {
    assert '/' !in host;
    var s := "https://" + host + "/" + path;
    assert s[8..] == host + ['/'] + path;
    SplitCons(host, '/', path);
    KeepHostCharsIdentity(host);
  }

  /** The same without TLS. */
  lemma JustHostOfPlainLink(host: string, path: string)
    requires forall i :: 0 <= i < |host| ==> IsHostChar(host[i])
    ensures JustHost("http://" + host + "/" + path) == host
  {
    assert '/' !in host;
    var t := "http://" + host + "/" + path;
    assert t[4] == ':';
    assert t[7..] == host + ['/'] + path;
    SplitCons(host, '/', path);
    KeepHostCharsIdentity(host);
  }

  /** The lookup the handler makes from the message, when it makes one. */
  function MessageLookup(rows: seq<Site>, message: Option<string>): One {
    if Truthy(message) && JustHost(message.value) != "" then GetByIdentifier(rows, JustHost(message.value), false)
    else NoRow
  }

  /** The site to credit: the message's match first, the e-mail's otherwise; a lookup that
      sees two rows raises and the webhook answers 500. */
  function FindDonor(rows: seq<Site>, data: KofiData): (r: Outcome<Option<Site>>)
    ensures MessageLookup(rows, data.message).Row? ==> r == Ok(Some(MessageLookup(rows, data.message).site))
    ensures MessageLookup(rows, data.message) == MultipleRows ==> r == Fail(500, InternalServerError)
    ensures MessageLookup(rows, data.message) == NoRow ==>
      match GetByIdentifier(rows, data.email, false)
      case NoRow => r == Ok(None)
      case Row(s) => r == Ok(Some(s))
      case MultipleRows => r == Fail(500, InternalServerError)
    ensures r.Ok? && r.value.Some? ==> r.value.value in rows && !r.value.value.IsRemoved()
  {
    LookupMeaning(rows, IdentifierFilter(data.email), false);
    var host := if data.message.Some? then JustHost(data.message.value) else "";
    LookupMeaning(rows, IdentifierFilter(host), false);
    match MessageLookup(rows, data.message)
    case Row(s) => Ok(Some(s))
    case MultipleRows => Fail(500, InternalServerError)
    case NoRow =>
      match GetByIdentifier(rows, data.email, false)
      case NoRow => Ok(None)
      case Row(s) => Ok(Some(s))
      case MultipleRows => Fail(500, InternalServerError)
  }

  /** A message naming exactly one active site decides, whatever the e-mail says. */
  lemma MessageTakesPrecedence(rows: seq<Site>, data: KofiData, site: Site)
    requires UniqueTags(rows) && site in rows && !site.IsRemoved()
    requires data.message.Some? && JustHost(data.message.value) == site.tag && site.tag != ""
    requires forall i :: 0 <= i < |rows| && Selects(IdentifierFilter(site.tag), false, rows[i]) ==> rows[i] == site
    ensures FindDonor(rows, data) == Ok(Some(site))
  {
    SoleMatch(rows, IdentifierFilter(site.tag), false, site);
  }

  /** A message that names no host leaves the e-mail to decide. */
  lemma EmptyHostFallsBack(rows: seq<Site>, data: KofiData)
    requires !Truthy(data.message) || JustHost(data.message.value) == ""
    ensures FindDonor(rows, data).Ok? && FindDonor(rows, data).value.Some? ==>
      Selects(IdentifierFilter(data.email), false, FindDonor(rows, data).value.value)
  {
    LookupMeaning(rows, IdentifierFilter(data.email), false);
  }

  /** `kofi_webhook`. `data` is the parsed form field (`None` when it is not a valid
      payload) and `amount` is `float(data.amount)` (`None` when that raises). */
  method KofiWebhook(store: TenantStore, vars: Settings.Vars, data: Option<KofiData>, amount: Option<real>)
    returns (r: Outcome<string>)
    requires store.Valid()
    modifies store
    ensures store.Valid() && Evolves(old(store.rows), store.rows)
    ensures store.jobs == old(store.jobs)
    ensures data.None? ==> r == Fail(400, InvalidPayloadMessage) && unchanged(store)
    ensures data.Some? && data.value.verificationToken != vars.kofiVerificationToken ==>
      r == Fail(403, InvalidVerificationMessage) && unchanged(store)
    ensures data.Some? && data.value.verificationToken == vars.kofiVerificationToken && amount.None? ==>
      r == Fail(500, InternalServerError) && unchanged(store)
    ensures data.Some? && data.value.verificationToken == vars.kofiVerificationToken && amount.Some? ==>
      var found := FindDonor(old(store.rows), data.value);
      && (found.Fail? ==> r == Fail(500, InternalServerError) && unchanged(store))
      && (found == Ok(None) ==>
            r == Ok(StatusOk) && store.rows == old(store.rows)
            && store.outbox == old(store.outbox) + [DonorNotFoundMail(vars.infoMail, data.value.amount, data.value.email)])
      && (found.Ok? && found.value.Some? ==>
            r == Ok(StatusOk) && store.outbox == old(store.outbox)
            && store.rows == Replace(old(store.rows), Donations.Credited(found.value.value, amount.value)))
  {
    if data.None? {
      return Fail(400, InvalidPayloadMessage);
    }
    var payload := data.value;
    if payload.verificationToken != vars.kofiVerificationToken {
      return Fail(403, InvalidVerificationMessage);
    }
    if amount.None? {
      return Fail(500, InternalServerError);
    }
    var found := FindDonor(store.rows, payload);
    if found.Fail? {
      return Fail(500, InternalServerError);
    }
    if found.value.None? {
      store.Send(DonorNotFoundMail(vars.infoMail, payload.amount, payload.email));
      return Ok(StatusOk);
    }
    var site := found.value.value;
    store.Commit(site, Donations.Credited(site, amount.value));
    r := Ok(StatusOk);
  }
}
